=== FILE: README.md ===
# Dbmi movie database: a Dafny model of its services

Dbmi is a small movie database. It has users, movies with genres and a moderation status, one review per user and movie, and JWT logins with rotating refresh tokens. The repository holds two backends that share one schema:

- **Authorization backend (`DbmiAPI/`).** Every service call carries the caller's claims principal. Admins moderate movies: Pending, Approved, Rejected. Owners may edit their own rows.
- **Older backend (`Services/`, `Repositories/`).** It has no authorization. It adds genre validation, a title and year conflict check, list sorting and review-text redaction.

A React client sits on top. This project models both backends and four pure client helpers in Dafny, and proves what they promise.

The store is a record of tables, each a map from id to row plus the next id. Refresh tokens are a map from token string to row. `Store.Valid` collects the constraints the database declares:

- unique usernames and emails;
- one review per (user, movie);
- the foreign keys;
- the seeded system user, id 1.

Every service method is a pure function from store, caller and request to `Result<(Store, answer)>`. An error carries no store, so a failed call changes nothing. A missing row gives `None` or `false`, as in the original. Writes state a frame ("every other row is unchanged") and preserve `Valid`.

Modules:

- **Shared:**
  - `Wrappers`: `Option`, `Result`, and the error kinds, one per exception family.
  - `Text`, `Numbers`, `Seqs`: trimming, substring tests, int parsing and formatting, and the LINQ-style sequence operations with their lemmas.
  - `Store`: the schema, the constraints, and the cascade and restrict deletes.
  - `Authorization`: the claims-principal predicates.
  - `Repositories`: the existence checks.
  - `Views`: the response records and orderings.
  - `Dtos`: the request bodies and their validation attributes.
  - `Reviews`, `Users`: review writes, user creation, profile change and anonymization. Both backends share these.
- **Authorization backend:** `ApiMovies`, `ApiReviews`, `ApiUsers`, `Auth`.
- **Older backend:** `LegacyMovies`, `LegacyReviews`, `LegacyUsers`, `Genres`.
- **Client:** `ClientRoles`, `ClientUrls`, `GenrePicker`, `ApiErrors`.

Things outside the model are parameters:

- the clock (`now: nat`, in seconds);
- the BCrypt verifier and hasher (`verify`, `hash`);
- a fresh GUID (`newToken`, required not to be a token already stored).

## Model

| member | source | states |
|---|---|---|
| Authorization.IsAdminIffAdminRoleClaim | DbmiAPI/Services/Authorization/AuthorizationHelper.cs:8-9 | a caller is an admin exactly when it carries a role claim with the value "Admin" |
| Authorization.NoIdentityNotAuthenticated | DbmiAPI/Services/Authorization/AuthorizationHelper.cs:11-12 | a principal without an identity is never authenticated, whatever claims it holds |
| Authorization.GetUserIdCases | DbmiAPI/Services/Authorization/AuthorizationHelper.cs:14-15 | no NameIdentifier claim gives no id; otherwise the id is the 32-bit integer parse of the first such claim, or none when it does not parse |
| Numbers.ParseFormat | DbmiAPI/Services/Authorization/AuthorizationHelper.cs:14-15 | parsing the decimal text of any 32-bit id gives that id back: the `sub` claim written at login reads back as the user id |
| Authorization.AdminCanModifyAll | DbmiAPI/Services/Authorization/AuthorizationHelper.cs:17-18 | an admin may modify a resource of any owner |
| Authorization.NonAdminModifiesOnlyOwn | DbmiAPI/Services/Authorization/AuthorizationHelper.cs:17-18 | a non-admin may modify a resource exactly when its id is the owner's; a caller without an id modifies nothing |
| Authorization.AnonymousCannotModify | DbmiAPI/Services/Authorization/AuthorizationHelper.cs:11-18 | the anonymous principal is neither authenticated nor an admin, and modifies nothing |
| Repositories.FindById | DbmiAPI/Repositories/IGenreRepository.cs:15-16 | the first row with that id is the stored row when the id is present, and nothing otherwise |
| Repositories.ExistsTitleYear | DbmiAPI/Repositories/MovieRepository.cs:29-34 | true exactly when a movie other than the excluded one has exactly that title and release year |
| Repositories.GenresExist | DbmiAPI/Repositories/MovieRepository.cs:36-42 | a null or empty request succeeds; otherwise true exactly when every requested id names a genre |
| Repositories.GenresExistIgnoresDuplicates | DbmiAPI/Repositories/MovieRepository.cs:38-41 | requests naming the same ids, in any multiplicity, get the same answer, and so does the request with duplicates removed |
| Repositories.ExistsUserMovie | Repositories/ReviewRepository.cs:19-24 | true exactly when a review other than the excluded one has that (user, movie) pair; with no exclusion every review counts |
| Repositories.MovieExists | Repositories/ReviewRepository.cs:26-27 | true exactly when a movie has that id |
| Repositories.UserExists | Repositories/ReviewRepository.cs:29-30 | true exactly when a user has that id |
| Repositories.ExistsByEmail | Repositories/UserRepository.cs:18-23 | true exactly when a user other than the excluded one has exactly that email |
| Repositories.ExistsByUsername | Repositories/UserRepository.cs:25-30 | true exactly when a user other than the excluded one has exactly that username |
| Repositories.UserNeverConflictsWithItself | Repositories/UserRepository.cs:18-30 | a user's own username and email never conflict once its own id is excluded |
| Repositories.ExcludeOnlyDropsThatRow | Repositories/UserRepository.cs:25-30 | excluding an id changes the answer only when that very row holds the name; a conflict with an exclusion is a conflict without one |
| Repositories.ExistsByName | DbmiAPI/Repositories/IGenreRepository.cs:18-23 | true exactly when a genre other than the excluded one has exactly that name |
| Store.SeededValid | Database/AppDb.cs:55-62 | the seeded store, holding only the system user "deleted" with id 1, meets every constraint |
| Store.RemoveMovie | Database/AppDb.cs:48-53 | deleting a movie removes exactly that movie and exactly its reviews, leaves every other row as it was, and keeps the constraints |
| Store.RemoveMovieCascade | Database/AppDb.cs:48-53 | a review disappears with a movie delete exactly when it belongs to that movie |
| Store.RemoveUser | Database/AppDb.cs:28-32 | deleting a user is refused while any movie names them as uploader; otherwise the user's reviews and tokens go with the row and nothing else changes |
| Store.RemoveUserRestricted | Database/AppDb.cs:28-32 | a user who uploaded some movie cannot be deleted |
| Store.RemoveGenre | DbmiAPI/Repositories/IGenreRepository.cs:28 | deleting a genre removes exactly that genre and its links from every movie; the other rows stay and the constraints hold |
| Store.RemoveReview | Repositories/ReviewRepository.cs:35 | deleting a review removes exactly that review and keeps the constraints |
| Store.InsertUserKeepsValid | Database/AppDb.cs:21-22 | a new user whose username and email are both unused keeps the unique indexes |
| Store.InsertReviewKeepsValid | Database/AppDb.cs:43-46 | a new review whose movie and author exist, and whose pair is unused, keeps one review per (user, movie) |
| Views.GenreNames | DbmiAPI/Services/MovieService.cs:46 | a list item's genre names are the names of exactly the linked genres, sorted ascending |
| Views.MovieAverage | DbmiAPI/Services/MovieService.cs:47 | the average score is 0 for a movie without reviews |
| Views.MovieAverageRange | DbmiAPI/Services/MovieService.cs:47 | with every score in 1..10 the average is 0 or lies in 1..10 |
| Views.Average | DbmiAPI/Services/MovieService.cs:47 | the average of no scores is 0; otherwise the average times the count is the sum |
| Dtos.TrimKeepsMovieFields | DbmiAPI/DTOs/MovieDtos.cs:25-60 | a title and description that pass `[Required]` and `[StringLength]` still pass them after trimming; year and duration keep their ranges |
| Dtos.TrimOpt | DbmiAPI/DTOs/ReviewDtos.cs:29-30 | trimming an optional review text keeps it absent or present, and within its length bound |
| ApiMovies.ListIds | DbmiAPI/Services/MovieService.cs:24-50 | each visible movie once: only Approved ones for a non-admin, only titles containing a non-blank `q`, only movies linked to `genreId` when given, newest first |
| ApiMovies.ListAgreesWithGet | DbmiAPI/Services/MovieService.cs:24-59 | for a non-admin a movie is in the unfiltered list exactly when reading it succeeds with a value |
| ApiMovies.List | DbmiAPI/Services/MovieService.cs:42-49 | the list is the list items of the visible ids, in that order |
| ApiMovies.Get | DbmiAPI/Services/MovieService.cs:52-66 | nothing for a missing id; a non-admin reading a movie that is not Approved is refused, even when they uploaded it; an admin, or anyone reading an Approved movie, gets that movie's details; Unauthorized is the only error |
| ApiMovies.Create | DbmiAPI/Services/MovieService.cs:68-95 | refused for an unauthenticated caller or one without an id; otherwise the uploader is the caller and the movie is Approved exactly for an admin, else Pending, with trimmed texts; duplicate or unknown genre ids, or an unknown uploader, make the store refuse; no other error occurs; the stored movie's creation time is `now`, and the answer echoes the stored title, description, year, duration and uploader, the requested genre ids and an average of 0, which over a valid store are the movie's details |
| ApiMovies.Update | DbmiAPI/Services/MovieService.cs:97-117 | `false` for a missing id; refused unless admin or uploader; otherwise texts trimmed and replaced, a non-admin edit returns the movie to Pending, an admin edit keeps the status; uploader and genre links never change |
| ApiMovies.Delete | DbmiAPI/Services/MovieService.cs:119-131 | `false` for a missing id; refused unless admin or uploader; otherwise the movie and its reviews are removed |
| ApiMovies.Moderate | DbmiAPI/Services/MovieService.cs:133-157 | refused for a non-admin before any lookup, even for a missing id; `false` for a missing id; otherwise only that movie's status changes |
| ApiMovies.Approve | DbmiAPI/Services/MovieService.cs:133-144 | exactly the moderation step with status Approved: refused for every non-admin, even for a missing id; `false` and no change for a missing id; otherwise `true` and the movie is Approved |
| ApiMovies.Reject | DbmiAPI/Services/MovieService.cs:146-157 | exactly the moderation step with status Rejected: refused for every non-admin, even for a missing id; `false` and no change for a missing id; otherwise `true` and the movie is Rejected |
| ApiMovies.NonAdminNeverPublishes | DbmiAPI/Services/MovieService.cs:70-157 | no create, update, delete, approve or reject by a non-admin adds a movie to the Approved set |
| ApiMovies.EditAfterApprovalNeedsModeration | DbmiAPI/Services/MovieService.cs:106-144 | after an admin approves a movie, its uploader's edit sends it back to Pending |
| ApiMovies.ValidRequestsKeepMovieBounds | DbmiAPI/DTOs/MovieDtos.cs:25-60 | a create or update request that passes the validation attributes stores a movie whose fields pass them too |
| ApiReviews.ListIds | DbmiAPI/Services/ReviewService.cs:16-42 | each review once: a non-admin sees only their own reviews, an admin filters by author only when asked, both filter by movie when asked; newest first |
| ApiReviews.List | DbmiAPI/Services/ReviewService.cs:16-42 | a non-admin asking for another author's reviews is refused; otherwise the list items of the selected ids |
| ApiReviews.ListAgreesWithGet | DbmiAPI/Services/ReviewService.cs:16-55 | for a non-admin a review is in the unfiltered list exactly when reading it succeeds with a value |
| ApiReviews.Get | DbmiAPI/Services/ReviewService.cs:44-55 | nothing for a missing id; refused for a non-admin who is not the author; the author or an admin gets the review's details |
| ApiReviews.Create | DbmiAPI/Services/ReviewService.cs:57-93 | refused when unauthenticated, without an id, or a non-admin writing for someone else; then Validation for a missing movie or author, Conflict for a reviewed pair; then the store refuses a request without a title or a body (NOT NULL columns, Models/Review.cs:13-17); no other error occurs; otherwise exactly one new review with both texts, trimmed |
| ApiReviews.CreateThenGet | DbmiAPI/Services/ReviewService.cs:44-93 | the author reads back the review just created |
| ApiReviews.SecondReviewConflicts | DbmiAPI/Services/ReviewService.cs:70-77 | a second review of the same movie by the same author conflicts |
| ApiReviews.Update | DbmiAPI/Services/ReviewService.cs:95-110 | `false` for a missing id; refused unless admin or author; then the store refuses an edit without a title or a body; no other error occurs; otherwise only score, title and body change, and movie, author and creation time stay |
| ApiReviews.Delete | DbmiAPI/Services/ReviewService.cs:112-124 | `false` for a missing id; refused unless admin or author; otherwise exactly that review is removed |
| ApiReviews.ValidRequestsKeepReviewBounds | DbmiAPI/DTOs/ReviewDtos.cs:24-38 | a create or update request whose score is in 1..10 and whose texts fit 120 and 4000 characters stores a review within those bounds |
| ApiReviews.OthersReviewsUntouchable | DbmiAPI/Services/ReviewService.cs:44-124 | a non-admin can read, edit and delete no review but their own |
| Users.ListIds | DbmiAPI/Services/UserService.cs:31-38 | each user once whose username or email contains a non-blank `q`, ordered by username |
| Users.Create | DbmiAPI/Services/UserService.cs:53-69 | trims both fields; a taken username or email conflicts and inserts nothing; otherwise exactly one new user with the trimmed values |
| Users.ChangeProfile | DbmiAPI/Services/UserService.cs:80-93 | the trimmed username and email conflict only with other users' rows; on success only that user's username and email change |
| Users.ChangeProfileToOwnValues | DbmiAPI/Services/UserService.cs:80-93 | saving a profile with its own current values never conflicts and changes nothing |
| Users.Reassign | DbmiAPI/Services/UserService.cs:118-125 | every movie and review of the user now names the system user; every other field and row is unchanged |
| Users.AnonymizeAndDelete | DbmiAPI/Services/UserService.cs:105-132 | `false` for a missing id; Forbidden for id 1 or a system user; InvalidOperation without the seeded system user; the store refuses when the user and the system user reviewed the same movie; otherwise the user's movies and reviews move to id 1, their tokens go, and the user row is gone |
| Users.AnonymizeOrdinaryUser | DbmiAPI/Services/UserService.cs:105-132 | in a valid store, anonymizing an ordinary user succeeds unless the system user already reviewed a movie the user reviewed |
| ApiUsers.List | DbmiAPI/Services/UserService.cs:25-39 | refused for a non-admin; otherwise the users the search selects, ordered by username |
| ApiUsers.AdminListsEveryone | DbmiAPI/Services/UserService.cs:25-39 | an admin's unfiltered list holds every user |
| ApiUsers.Get | DbmiAPI/Services/UserService.cs:41-51 | nothing for a missing id before any check; then only the user or an admin may read the profile, and they get that user's item |
| ApiUsers.Update | DbmiAPI/Services/UserService.cs:71-94 | `false` for a missing id before any check; refused unless the user or an admin; then conflicts as `ChangeProfile`, else the trimmed values are stored; Unauthorized and Conflict are the only errors |
| ApiUsers.UpdateThenGet | DbmiAPI/Services/UserService.cs:41-94 | a successful profile edit is what the user then reads back |
| ApiUsers.Delete | DbmiAPI/Services/UserService.cs:96-102 | refused for a non-admin before any lookup; otherwise the anonymizing delete |
| ApiUsers.NonAdminOnlyOwnProfile | DbmiAPI/Services/UserService.cs:41-102 | a non-admin is refused reading, editing or deleting any other user's profile |
| Auth.GenerateTokens | DbmiAPI/Services/AuthService.cs:74-114 | adds one unrevoked refresh token for the user, expiring `RefreshTokenLifetimeDays` days from now, and changes nothing else; the access token expires `AccessTokenLifetimeMinutes` from now, and its principal yields the user's id and is an admin exactly when the user's role is Admin |
| Auth.SubjectIsUserId | DbmiAPI/Services/AuthService.cs:76-81 | the principal of an issued access token yields the user's id |
| Auth.RoleClaimIsRole | DbmiAPI/Services/AuthService.cs:76-81 | the principal of an issued access token is an admin exactly when the user's role is Admin |
| Auth.FindByUsername | DbmiAPI/Services/AuthService.cs:25 | finds a user with exactly that username, or none when no user has it |
| Auth.Login | DbmiAPI/Services/AuthService.cs:23-30 | Unauthorized when no user has the username or the password does not verify; a user without a password hash makes the password verifier throw (it throws on a missing hash); otherwise tokens whose principal is that user, with that user's role |
| Auth.LoginIdentifiesUser | DbmiAPI/Services/AuthService.cs:23-30 | with unique usernames, a successful login's access token identifies the user with that username |
| Auth.SystemUserCannotLogIn | DbmiAPI/Services/AuthService.cs:23-30 | the seeded system user, which has no password, never logs in |
| Auth.Register | DbmiAPI/Services/AuthService.cs:32-48 | fails when the username or the email is taken, compared untrimmed; otherwise adds one user with role User and the hashed password, then issues tokens |
| Auth.Refresh | DbmiAPI/Services/AuthService.cs:50-62 | fails exactly for an unknown, revoked or expired token, where a token expiring exactly now is still accepted; otherwise revokes it and issues new tokens to its owner |
| Auth.RefreshReplayFails | DbmiAPI/Services/AuthService.cs:52-59 | a refresh token used once fails on every later use |
| Auth.IssuedTokenRefreshes | DbmiAPI/Services/AuthService.cs:50-62 | a freshly issued refresh token is accepted until its expiry |
| Auth.Revoke | DbmiAPI/Services/AuthService.cs:64-72 | marks an existing token revoked and changes nothing else; afterwards the token is never usable |
| Auth.RevokeIdempotent | DbmiAPI/Services/AuthService.cs:64-72 | revoking twice is revoking once |
| Reviews.Add | Services/ReviewService.cs:36-62 | Validation for a missing movie or a missing author, then Conflict for a reviewed pair, then the store refuses a request without a title or a body, because Models/Review.cs:13-17 makes both columns NOT NULL; no other error occurs; otherwise exactly one new review copying movie, author and score, with both texts present and trimmed |
| Reviews.Edit | Services/ReviewService.cs:64-76 | the store refuses exactly an edit without a title or a body (NOT NULL columns); otherwise only score, title and body of that review change, and movie, author and creation time stay |
| LegacyReviews.ListIds | Services/ReviewService.cs:14-27 | each review once, filtered by movie and by author only when given, newest first |
| LegacyReviews.ListHoldsEveryReview | Services/ReviewService.cs:14-34 | the unfiltered list holds exactly the reviews `GetAsync` finds |
| LegacyReviews.Get | Services/ReviewService.cs:29-34 | nothing for a missing id, else the review |
| LegacyReviews.Create | Services/ReviewService.cs:36-62 | exactly the shared review insert: Validation for an unknown movie or author, Conflict when the author already reviewed the movie, then the store refuses a request without a title or a body, and no other error; the created review reads back with both texts and has the requested movie and author |
| LegacyReviews.Update | Services/ReviewService.cs:64-76 | `false` for a missing id; then the store refuses an edit without a title or a body; otherwise only that review's score, title and body change |
| LegacyReviews.Delete | Services/ReviewService.cs:78-86 | `false` for a missing id; otherwise exactly that review is gone |
| LegacyMovies.ListIds | Services/MovieService.cs:19-47 | each movie once whose title or description contains a non-blank `q`, linked to `genreId` when given, sorted by the requested order |
| LegacyMovies.OrderMeans | Services/MovieService.cs:39-44 | "rating" orders by average descending then title, "date" by release year descending then title, anything else by title ascending |
| LegacyMovies.SortOnlyReorders | Services/MovieService.cs:19-47 | changing the sort mode never changes which movies are listed |
| LegacyMovies.ListHoldsEveryMovie | Services/MovieService.cs:19-59 | the unfiltered list holds exactly the movies `GetAsync` finds, in any sort mode |
| LegacyMovies.Get | Services/MovieService.cs:49-59 | nothing for a missing id, else the movie's details |
| LegacyMovies.Links | Services/MovieService.cs:76 | the genre links are the distinct requested ids |
| LegacyMovies.Create | Services/MovieService.cs:61-83 | Validation for an unknown genre id comes first, then Conflict for a movie with the same trimmed title and year, then the store refuses an unknown uploader; otherwise one Pending movie with the requested uploader and distinct genre links; no other error occurs; the answer lists the genre ids in request order without repetitions (the re-read returns the same tracked movie), while a later read has the same details with the ids ascending |
| LegacyMovies.CreateTwiceConflicts | Services/MovieService.cs:66-67 | creating the same movie twice conflicts |
| LegacyMovies.CreatedMoviesStayPending | Services/MovieService.cs:61-107 | a movie created here is Pending and stays Pending through any edit |
| LegacyMovies.Update | Services/MovieService.cs:85-107 | validation and the conflict check, which excludes the movie itself, come before the lookup; `false` for a missing id; otherwise texts, year, duration and the whole genre link set are replaced, with status and uploader kept |
| LegacyMovies.UpdateKeepsOwnTitle | Services/MovieService.cs:90 | saving a movie with its own title and year does not conflict with itself |
| LegacyMovies.Delete | Services/MovieService.cs:109-117 | `false` for a missing id; otherwise the movie and its reviews are gone |
| LegacyMovies.ReviewIds | Services/MovieService.cs:125-126 | exactly the movie's reviews, each once, newest first |
| LegacyMovies.GetReviewsForMovie | Services/MovieService.cs:119-139 | nothing for a missing movie; otherwise its reviews newest first, with title and body withheld unless `includeText` |
| LegacyUsers.List | Services/UserService.cs:23-35 | the users the search selects, ordered by username, for any caller |
| LegacyUsers.Get | Services/UserService.cs:37-41 | nothing for a missing id, else the user's id, username, email and creation time |
| LegacyUsers.Update | Services/UserService.cs:61-80 | `false` for a missing id before the conflict checks; conflicts only with other users' rows; on success the user reads back with the trimmed values and no other user changes |
| LegacyUsers.Delete | Services/UserService.cs:82-83 | exactly the anonymizing delete, for any caller: the system user is refused as forbidden; the only errors are that one, a missing system user and a store refusal; on success the user is gone |
| LegacyUsers.SystemUserSurvivesDelete | Services/UserService.cs:86-113 | deleting id 1 is forbidden, and in a valid store every successful delete leaves the system user in place |
| Genres.ListIds | Services/GenreService.cs:12-19 | each genre once whose name contains a non-blank `q`, ordered by name |
| Genres.Get | Services/GenreService.cs:21-22 | nothing for a missing id, else the genre's id and name |
| Genres.CreateAsWritten | Services/GenreService.cs:24-33 | conflicts exactly when some genre has the untrimmed request name, yet stores the trimmed name |
| Genres.CreateAsWrittenDuplicates | Services/GenreService.cs:24-33 | next to "Drama", creating " Drama" succeeds and leaves two genres named "Drama" |
| Genres.UpdateAsWritten | Services/GenreService.cs:35-46 | `false` for a missing id; conflicts exactly when another genre has the untrimmed name, yet stores the trimmed name |
| Genres.UpdateAsWrittenDuplicates | Services/GenreService.cs:35-46 | renaming a second genre to " Drama" next to "Drama" succeeds and leaves two genres named "Drama" |
| Genres.Create | Services/GenreService.cs:24-33 | conflicts exactly when a genre has the trimmed name; otherwise adds one genre with it; genre names stay unique |
| Genres.CreateTwiceConflicts | Services/GenreService.cs:24-33 | once a name is created, creating it again with any padding conflicts |
| Genres.Update | Services/GenreService.cs:35-46 | `false` for a missing id; conflicts exactly when another genre has the trimmed name; otherwise renames only that genre; genre names stay unique |
| Genres.Delete | Services/GenreService.cs:48-56 | `false` for a missing id; otherwise the genre and every movie's link to it are gone |
| ClientRoles.NormalizeRole | BdmiClient/src/auth/normalizeRole.ts:3-10 | the number 1 is Admin and any other number User; a string is Admin exactly when, trimmed and lower-cased, it is "admin", else User; any other value gives the fallback |
| ClientRoles.RenormalizeOwnName | BdmiClient/src/auth/normalizeRole.ts:3-10 | normalising "Admin" or "User" gives that role back |
| ClientRoles.FallbackOnlyForOtherValues | BdmiClient/src/auth/normalizeRole.ts:4-9 | for a number or a string the fallback never matters |
| ClientUrls.NormalizeUrl | BdmiClient/src/pages/movies/MovieForm.tsx:17-23 | nothing for a missing or blank URL; a trimmed URL with an http or https scheme, in any case, as it is; else "https://" before it; every result has such a scheme and no surrounding white space |
| ClientUrls.NormalizeUrlIdempotent | BdmiClient/src/pages/movies/MovieForm.tsx:17-23 | normalising twice is normalising once |
| ClientUrls.PosterPreview | BdmiClient/src/pages/movies/MovieForm.tsx:38-42 | the preview is exactly the URL the form submits |
| GenrePicker.Selected | BdmiClient/src/components/GenreMultiSelect.tsx:17-23 | the chips' ids are the chosen ids that name a known genre, in the order chosen; each chip is the first genre with its id |
| GenrePicker.Suggestions | BdmiClient/src/components/GenreMultiSelect.tsx:25-33 | at most eight unchosen genres whose lower-cased name contains the trimmed, lower-cased search, in the order of `all`: the first eight of the candidates (all of them when there are fewer); none for a blank search; when fewer than eight are shown, every match is shown |
| GenrePicker.Add | BdmiClient/src/components/GenreMultiSelect.tsx:35 | the chosen ids plus `id`, each once; on a list without duplicates, unchanged when `id` is there and `id` appended otherwise |
| GenrePicker.Remove | BdmiClient/src/components/GenreMultiSelect.tsx:36 | every occurrence of `id` dropped, every other id kept as often and in order |
| GenrePicker.RemoveUndoesAdd | BdmiClient/src/components/GenreMultiSelect.tsx:35-36 | removing an id just added to a list without it gives the list back |
| GenrePicker.PickedLeavesSuggestions | BdmiClient/src/components/GenreMultiSelect.tsx:25-36 | a genre just added is no longer suggested; a genre just removed is no longer a chip |
| ApiErrors.MessageAsWritten | BdmiClient/src/lib/api-error.ts:11-26 | no string at all when the first `errors` value is an empty list; the text "undefined" for an empty `errors` record |
| ApiErrors.Message | BdmiClient/src/lib/api-error.ts:11-26 | a string body as it is; else `error`, then `message`, then title and detail joined with ": ", then the first non-empty `errors` text, else the request's own message, or "Unexpected error" when that is empty; a non-axios value gives its message or "Unexpected error"; empty only when the server or the thrown value supplied an empty message |
| ApiErrors.CorrectedAgreesElsewhere | BdmiClient/src/lib/api-error.ts:11-26 | wherever the original yields a real message, the corrected selector yields the same one |

## Left out

- **Change tracking.** `GetByIdAsync` and the review `Query()` read without tracking (DbmiAPI/Repositories/MovieRepository.cs:19-20, Repositories/ReviewRepository.cs:13-14), and the edits that follow call `SaveChangesAsync` without attaching the entity. So these edits do not reach the database: movie update, approve and reject in the backend with authorization (DbmiAPI/Services/MovieService.cs:97-157), and review update in both variants (Services/ReviewService.cs:64-74, DbmiAPI/Services/ReviewService.cs:97). Approve and reject answer `true` but leave the status as it was. The comment at Services/ReviewService.cs:66 shows that a tracked write was intended. Movie `GetAsync` in the backend with authorization (DbmiAPI/Services/MovieService.cs:52-66) does not include genre links or reviews, and Models/Movie.cs:29-30 start both collections empty, so its genre ids and average do come back empty and 0. The model states the intended write and the intended details instead. For a review edit that drops the title or the body, the intended write fails on the NOT NULL column (Models/Review.cs:13-17), so the model answers `StoreRejected` where the untracked source answers `true` and saves nothing.
- **Persistence.** EF Core, MySQL, migrations, seeding code and the HTTP controllers are left out. The controllers map exceptions to status codes. DbmiAPI/Controllers/MovieController.cs:26-27 (get) and 55-72 (update and delete) do not catch the authorization failure, so the error kind surfaces as a server error there.
- **Validation attributes.** These attributes run in the framework before a service is called. The model states them as predicates and proves that the services preserve them. The genre request's `[Required, StringLength(50)]` is not part of this model.
- **No not-found error kind.** A missing row gives `None` or `false`, which is all the services produce. The "not found" answer belongs to the controllers.
- **String comparison.** It is ordinal. The database collation, which may compare case-insensitively, is not modelled. JavaScript `toLowerCase` is modelled as ASCII lower-casing.
- **Averages.** They are exact `real` means rather than `double`.
- **Ties.** Equal sort keys tie in the order of ascending ids. The original's order among ties is unspecified.
- **Oracles.**
  - BCrypt verification and hashing, JWT signing and GUID generation are parameters.
  - The inbound mapping of JWT claims to the principal is taken as the three claims the token carries.
  - A new refresh token is assumed distinct from every stored one.
- **Refresh tokens.** The `RefreshToken` entity and its delete cascade are assumed from the schema. The authorization backend's own `AppDb` is not part of this model.
- **Transactions and races.** Anonymization is one atomic step. Concurrent check-then-insert races are not modelled.
- **A null genre list.** The original would throw on a null `GenreIds` list when building the links. The model's list is never null.
- **Insert preconditions.** Every insert (`Users.Create`, `Genres.Create`, `Reviews.Add`, the movie creates, `Auth.Register`) requires the table's ids to lie below its next id. That is a property of the autoincrement column, not a check the service makes.
- Users.ChangeProfile: the system user's username and email can be changed like anyone's. So the constraint kept is "id 1 exists and is a system user", not that its username stays "deleted".
- Views.MovieAverage: states only the no-reviews case and the 1..10 range, not the floating-point mean.
- **Client plumbing.** The axios interceptor, token storage, JWT decoding and all rendering are left out. Only the four pure helpers are modelled. JavaScript numbers are reals, without NaN or infinities. The `errors` record is the sequence of its values in enumeration order.

## Findings

| source | as written | input that shows it | evidently intended | confidence | as-written member | corrected member |
|---|---|---|---|---|---|---|
| Services/GenreService.cs:26-29 | the conflict check looks for the request name untrimmed, but the trimmed name is stored | a store with genre "Drama"; create " Drama" | genre names stay unique: check the trimmed name that is stored | high; not executed | Genres.CreateAsWritten, Genres.CreateAsWrittenDuplicates | Genres.Create |
| Services/GenreService.cs:40-43 | the rename check looks for the untrimmed name, but the trimmed name is stored | genres "Drama" and "Comedy"; rename "Comedy" to " Drama" | as above, for renames | high; not executed | Genres.UpdateAsWritten, Genres.UpdateAsWrittenDuplicates | Genres.Update |
| BdmiClient/src/lib/api-error.ts:19-22 | the `errors` rule returns `first[0]` of an empty list, which is `undefined`, and `String(undefined)` for an empty record | a body `{"errors": {"name": []}}`, or `{"errors": {}}` | a message string: fall back to the request's own message when the record names none | medium; not executed | ApiErrors.MessageAsWritten, ApiErrors.EmptyListGivesUndefined, ApiErrors.EmptyRecordGivesUndefinedText | ApiErrors.Message |

=== FILE: api_errors.dfy ===
/** The client's `getApiErrorMessage`: the text shown for a failed request,
    picked from the response body by a fixed priority.

    As written, the last rule can produce no string at all (an `errors`
    record whose first entry is an empty list gives `undefined`) or the
    text "undefined" (an empty `errors` record). `MessageAsWritten` models
    that with an `Option`; `Message` is the corrected selector, which falls
    through to the request's own message when the `errors` record names
    none.
 */
module ApiErrors {

  import opened Wrappers

  const Fallback: string := "Unexpected error"

  /** What `String(undefined)` gives. */
  const UndefinedText: string := "undefined"

  /** A value of the `errors` record: a list of messages or one message. */
  datatype ErrorsValue = Messages(items: seq<string>) | Single(text: string)

  /** The response body: absent, a plain string, or a JSON object whose
      fields may each be absent. The `errors` record is given by its values
      in enumeration order. */
  datatype Body =
    | NoBody
    | TextBody(text: string)
    | ShapeBody(error: Option<string>, message: Option<string>, title: Option<string>,
                detail: Option<string>, errors: Option<seq<ErrorsValue>>)

  /** An axios error, with the body of its response and its own message, or
      any other thrown value, with its `message` if it has one. */
  datatype Failure = Axios(data: Body, message: string) | Other(otherMessage: Option<string>)

  /** JavaScript truthiness of an optional string: present and non-empty. */
  predicate Truthy(o: Option<string>) {
    o.Some? && o.value != []
  }

  /** `[title, detail].filter(Boolean).join(": ")`. */
  function JoinTruthy(title: Option<string>, detail: Option<string>): (r: string)
    ensures Truthy(title) && Truthy(detail) ==> r == title.value + ": " + detail.value
    ensures Truthy(title) && !Truthy(detail) ==> r == title.value
    ensures !Truthy(title) && Truthy(detail) ==> r == detail.value
    ensures !Truthy(title) && !Truthy(detail) ==> r == []
  {
    var parts := (if Truthy(title) then [title.value] else []) + (if Truthy(detail) then [detail.value] else []);
    if |parts| == 2 then parts[0] + ": " + parts[1]
    else if |parts| == 1 then parts[0]
    else []
  }

  /** The text of the first `errors` value: the first element of a list,
      the string itself, or nothing (an empty list, or no value at all). */
  function FirstText(errors: seq<ErrorsValue>): (r: Option<string>)
    ensures r.None? <==> errors == [] || errors[0] == Messages([])
  {
    if errors == [] then None
    else match errors[0]
      case Messages(items) => if items == [] then None else Some(items[0])
      case Single(t) => Some(t)
  }

  /** The body has none of the fields that come before `errors`, and has
      an `errors` record: the last rule decides. */
  predicate ReachesErrors(f: Failure) {
    && f.Axios? && f.data.ShapeBody?
    && !Truthy(f.data.error) && !Truthy(f.data.message)
    && !Truthy(f.data.title) && !Truthy(f.data.detail)
    && f.data.errors.Some?
  }

  /** The axios error's own message, or the generic text when it is
      empty. */
  function OwnMessage(f: Failure): (r: string)
    requires f.Axios?
    ensures r != []
  {
    if f.message != [] then f.message else Fallback
  }

  // ----- as written -----

  /** `getApiErrorMessage` as written; `None` is the `undefined` it returns
      for an `errors` record whose first value is an empty list. */
  function MessageAsWritten(f: Failure): (r: Option<string>)
    ensures r.None? <==> ReachesErrors(f) && f.data.errors.value != [] && f.data.errors.value[0] == Messages([])
    ensures ReachesErrors(f) && f.data.errors.value == [] ==> r == Some(UndefinedText)
    ensures !ReachesErrors(f) ==> r.Some?
  {
    match f
    case Other(m) => Some(if m.Some? then m.value else Fallback)
    case Axios(data, _) =>
      match data
      case TextBody(t) => Some(t)
      case NoBody => Some(OwnMessage(f))
      case ShapeBody(error, message, title, detail, errors) =>
        if Truthy(error) then Some(error.value)
        else if Truthy(message) then Some(message.value)
        else if Truthy(title) || Truthy(detail) then Some(JoinTruthy(title, detail))
        else if errors.Some? then
          if errors.value == [] then Some(UndefinedText)
          else FirstText(errors.value)
        else Some(OwnMessage(f))
  }

  /** An `errors` record whose first value is an empty list yields no
      string. */
  lemma EmptyListGivesUndefined()
    ensures MessageAsWritten(Axios(ShapeBody(None, None, None, None, Some([Messages([])])), "Request failed"))
            == None
  {
  }

  /** An empty `errors` record yields the text "undefined", although the
      request has a message of its own. */
  lemma EmptyRecordGivesUndefinedText()
    ensures MessageAsWritten(Axios(ShapeBody(None, None, None, None, Some([])), "Request failed"))
            == Some(UndefinedText)
  {
  }

  // ----- corrected -----

  /** A shaped body whose first named field is the title or the detail. */
  predicate Titled(f: Failure) {
    && f.Axios? && f.data.ShapeBody?
    && !Truthy(f.data.error) && !Truthy(f.data.message)
    && (Truthy(f.data.title) || Truthy(f.data.detail))
  }

  /** An axios failure whose body names nothing: no body, or a shaped body
      with none of the five fields set. */
  predicate Unnamed(f: Failure) {
    && f.Axios?
    && (|| f.data.NoBody?
        || (&& f.data.ShapeBody? && f.data.errors.None?
            && !Truthy(f.data.error) && !Truthy(f.data.message)
            && !Truthy(f.data.title) && !Truthy(f.data.detail)))
  }

  /** `getApiErrorMessage` with the last rule falling through to the
      request's own message when the `errors` record yields no text:
      a plain-string body as it is; else the first of `error`, `message`,
      the joined `title` and `detail`, the first `errors` text that is
      non-empty; else the request's message or the generic text. A thrown
      value that is not an axios error gives its message or the generic
      text. */
  function Message(f: Failure): (r: string)
    ensures r == [] ==> (f.Axios? && f.data == TextBody([])) || f == Other(Some([]))
    ensures f.Axios? && f.data.TextBody? ==> r == f.data.text
    ensures f.Other? ==> r == if f.otherMessage.Some? then f.otherMessage.value else Fallback
    ensures f.Axios? && f.data.ShapeBody? && Truthy(f.data.error) ==> r == f.data.error.value
    ensures f.Axios? && f.data.ShapeBody? && !Truthy(f.data.error) && Truthy(f.data.message) ==>
              r == f.data.message.value
    ensures Titled(f) ==> r == JoinTruthy(f.data.title, f.data.detail) && r != []
    ensures Unnamed(f) ==> r == OwnMessage(f)
    ensures ReachesErrors(f) && Truthy(FirstText(f.data.errors.value)) ==>
              r == FirstText(f.data.errors.value).value
    ensures ReachesErrors(f) && !Truthy(FirstText(f.data.errors.value)) ==> r == OwnMessage(f)
  {
    match f
    case Other(m) => if m.Some? then m.value else Fallback
    case Axios(data, _) =>
      match data
      case TextBody(t) => t
      case NoBody => OwnMessage(f)
      case ShapeBody(error, message, title, detail, errors) =>
        if Truthy(error) then error.value
        else if Truthy(message) then message.value
        else if Truthy(title) || Truthy(detail) then JoinTruthy(title, detail)
        else if errors.Some? && Truthy(FirstText(errors.value)) then FirstText(errors.value).value
        else OwnMessage(f)
  }

  /** Wherever the original yields a real message, the corrected selector
      yields the same one: they differ only when the `errors` rule decides
      and finds no non-empty text. */
  lemma CorrectedAgreesElsewhere(f: Failure)
    requires !ReachesErrors(f) || Truthy(FirstText(f.data.errors.value))
    ensures MessageAsWritten(f) == Some(Message(f))
  {
  }

  /** On both inputs that break the original the corrected selector shows
      the request's own message. */
  lemma CorrectedFallsBack()
    ensures Message(Axios(ShapeBody(None, None, None, None, Some([Messages([])])), "Request failed"))
            == "Request failed"
    ensures Message(Axios(ShapeBody(None, None, None, None, Some([])), "Request failed"))
            == "Request failed"
  {
  }
}

=== FILE: api_movies.dfy ===
/** `MovieService` of the backend with authorization: role-filtered listing,
    reading, creating, editing and deleting movies, and the moderation status
    machine Pending / Approved / Rejected.

    Every operation takes the store and the caller and returns the new store
    with its answer, or an error; an error leaves the store as it was.
 */
module ApiMovies {

  import opened Wrappers
  import opened Store
  import opened Authorization
  import Text
  import Seqs
  import Views
  import Dtos
  import Repositories

  /** The filters of `ListAsync`: non-admins see approved movies only; a
      non-blank `q` must occur in the title; a genre id must be linked. */
  predicate Matches(s: Store, caller: Caller, genreId: Option<int>, q: Option<string>, m: int)
    requires m in s.movies.rows
  {
    var movie := s.movies.rows[m];
    && (IsAdmin(caller) || movie.status == Approved)
    && (Text.IsNullOrWhiteSpace(q) || Text.Contains(movie.title, q.value))
    && (genreId.None? || genreId.value in movie.genres)
  }

  function CreatedAt(s: Store): int -> int {
    (m: int) => if m in s.movies.rows then s.movies.rows[m].createdAt else 0
  }

  /** The ids `ListAsync` returns, newest first: every movie that passes
      the filters, once. */
  function ListIds(s: Store, caller: Caller, genreId: Option<int>, q: Option<string>): (r: seq<int>)
    ensures forall m :: multiset(r)[m] ==
              if m in s.movies.rows && Matches(s, caller, genreId, q, m) then 1 else 0
    ensures forall i | 0 <= i < |r| ::
              && r[i] in s.movies.rows
              && (!IsAdmin(caller) ==> s.movies.rows[r[i]].status == Approved)
              && (!Text.IsNullOrWhiteSpace(q) ==> Text.Contains(s.movies.rows[r[i]].title, q.value))
              && (genreId.Some? ==> genreId.value in s.movies.rows[r[i]].genres)
    ensures forall i | 0 <= i < |r| - 1 ::
              s.movies.rows[r[i]].createdAt >= s.movies.rows[r[i + 1]].createdAt
  {
    Views.DescByTotal(CreatedAt(s));
    var r := Seqs.SelectSorted(s.movies.rows.Keys,
      m => m in s.movies.rows && Matches(s, caller, genreId, q, m),
      Views.DescBy(CreatedAt(s)));
    assert forall i | 0 <= i < |r| - 1 :: Views.DescBy(CreatedAt(s))(r[i], r[i + 1]);
    r
  }

  /** `ListAsync`: the list items of `ListIds`, in that order. */
  function List(s: Store, caller: Caller, genreId: Option<int>, q: Option<string>): (r: seq<Views.MovieListItem>)
    ensures |r| == |ListIds(s, caller, genreId, q)|
    ensures forall i | 0 <= i < |r| :: r[i] == Views.ToListItem(s, ListIds(s, caller, genreId, q)[i])
  {
    var ids := ListIds(s, caller, genreId, q);
    Seqs.Map(ids, (m: int) requires m in s.movies.rows => Views.ToListItem(s, m))
  }

  /** `GetAsync`: nothing for a missing id; a movie that is not approved is
      hidden from non-admins, its uploader included. */
  function Get(s: Store, caller: Caller, id: int): (r: Result<Option<Views.MovieDetails>>)
    ensures id !in s.movies.rows ==> r == Ok(None)
    ensures r == Err(Unauthorized) <==>
              id in s.movies.rows && !IsAdmin(caller) && s.movies.rows[id].status != Approved
    ensures r.Ok? && r.value.Some? ==> id in s.movies.rows && r.value.value == Views.ToDetails(s, id)
    ensures r.Err? ==> r.error == Unauthorized
    ensures id in s.movies.rows && (IsAdmin(caller) || s.movies.rows[id].status == Approved) ==>
              r == Ok(Some(Views.ToDetails(s, id)))
  {
    match Repositories.FindById(s.movies, id)
    case None => Ok(None)
    case Some(movie) =>
      if !IsAdmin(caller) && movie.status != Approved then Err(Unauthorized)
      else Ok(Some(Views.ToDetails(s, id)))
  }

  /** The genre links of a new movie: the store refuses two links to the
      same genre, and links to genres that do not exist. */
  predicate LinksAccepted(s: Store, genreIds: seq<int>) {
    Seqs.NoDup(genreIds) && forall i | 0 <= i < |genreIds| :: genreIds[i] in s.genres.rows
  }

  /** `CreateAsync`: only an authenticated caller with a user id may create;
      the caller becomes the uploader, whatever the request names; an admin's
      movie is approved at once and anyone else's waits as Pending. Genre ids
      are not validated here: the store refuses duplicates, unknown genres
      and an uploader without a user row. */
  function Create(s: Store, caller: Caller, dto: Dtos.CreateMovieDto, now: nat): (r: Result<(Store, Views.MovieDetails)>)
    requires s.movies.Valid()
    ensures r == Err(Unauthorized) <==> !IsAuthenticated(caller) || GetUserId(caller).None?
    ensures r == Err(StoreRejected) <==>
              && IsAuthenticated(caller) && GetUserId(caller).Some?
              && (!LinksAccepted(s, dto.genreIds) || GetUserId(caller).value !in s.users.rows)
    ensures r.Err? ==> r.error in {Unauthorized, StoreRejected}
    ensures r.Ok? ==>
              var (t, details) := r.value;
              var id := details.id;
              && id !in s.movies.rows
              && t.movies.rows.Keys == s.movies.rows.Keys + {id}
              && (forall m | m in s.movies.rows :: t.movies.rows[m] == s.movies.rows[m])
              && t.movies.rows[id].uploadedBy == GetUserId(caller).value
              && (t.movies.rows[id].status == Approved <==> IsAdmin(caller))
              && (t.movies.rows[id].status == Pending <==> !IsAdmin(caller))
              && t.movies.rows[id].title == Text.Trim(dto.title)
              && t.movies.rows[id].description == Text.Trim(dto.description)
              && t.movies.rows[id].releaseYear == dto.releaseYear
              && t.movies.rows[id].durationMin == dto.durationMin
              && t.movies.rows[id].genres == (set g | g in dto.genreIds)
              && t.movies.rows[id].createdAt == now
              && details.title == Text.Trim(dto.title)
              && details.description == Text.Trim(dto.description)
              && details.releaseYear == dto.releaseYear && details.durationMin == dto.durationMin
              && details.uploadedBy == GetUserId(caller).value
              && details.genreIds == dto.genreIds
              && details.averageScore == 0.0
              && t.users == s.users && t.genres == s.genres && t.reviews == s.reviews
              && t.tokens == s.tokens
    ensures r.Ok? && Valid(s) ==> Valid(r.value.0)
    ensures r.Ok? && Valid(s) ==>
              r.value.1 == Views.ToDetails(r.value.0, r.value.1.id).(genreIds := dto.genreIds)
  {
    if !IsAuthenticated(caller) then Err(Unauthorized)
    else match GetUserId(caller)
      case None => Err(Unauthorized)
      case Some(userId) =>
        if !LinksAccepted(s, dto.genreIds) || userId !in s.users.rows then Err(StoreRejected)
        else
          var status := if IsAdmin(caller) then Approved else Pending;
          var movie := Movie(Text.Trim(dto.title), Text.Trim(dto.description), dto.releaseYear,
            dto.durationMin, status, userId, (set g | g in dto.genreIds), now);
          var (movies, id) := s.movies.Insert(movie);
          var t := s.(movies := movies);
          assert Valid(s) ==> Valid(t) by {
            if Valid(s) {
              InsertMovieKeepsValid(s, movie);
            }
          }
          // A movie just inserted has no reviews in a store whose reviews
          // all name existing movies, so its average is 0.
          assert Valid(s) ==> Views.MovieAverage(t, id) == 0.0 by {
            if Valid(s) {
              assert forall x | x in t.reviews.rows :: t.reviews.rows[x].movieId in s.movies.rows;
            }
          }
          Ok((t, Views.MovieDetails(id, movie.title, movie.description, movie.releaseYear,
            movie.durationMin, userId, dto.genreIds, 0.0)))
  }

  /** `UpdateAsync`: `false` for a missing id; only an admin or the uploader
      may edit; the text fields are trimmed and replaced; a non-admin's edit
      sends the movie back to Pending while an admin's keeps its status. The
      uploader and the genre links are never touched (the request's genre
      ids are ignored). */
  function Update(s: Store, caller: Caller, id: int, dto: Dtos.UpdateMovieDto): (r: Result<(Store, bool)>)
    ensures id !in s.movies.rows ==> r == Ok((s, false))
    ensures r == Err(Unauthorized) <==>
              id in s.movies.rows && !CanModifyResource(caller, s.movies.rows[id].uploadedBy)
    ensures r.Err? ==> r.error == Unauthorized
    ensures r.Ok? ==> (r.value.1 <==> id in s.movies.rows)
    ensures r.Ok? && r.value.1 ==>
              var (t, _) := r.value;
              var before := s.movies.rows[id];
              && t.movies.rows.Keys == s.movies.rows.Keys
              && (forall m | m in s.movies.rows && m != id :: t.movies.rows[m] == s.movies.rows[m])
              && t.movies.rows[id] == before.(
                   title := Text.Trim(dto.title),
                   description := Text.Trim(dto.description),
                   releaseYear := dto.releaseYear,
                   durationMin := dto.durationMin,
                   status := if IsAdmin(caller) then before.status else Pending)
              && t.users == s.users && t.genres == s.genres && t.reviews == s.reviews
              && t.tokens == s.tokens
    ensures r.Ok? && Valid(s) ==> Valid(r.value.0)
  {
    match Repositories.FindById(s.movies, id)
    case None => Ok((s, false))
    case Some(movie) =>
      if !CanModifyResource(caller, movie.uploadedBy) then Err(Unauthorized)
      else
        var edited := movie.(
          title := Text.Trim(dto.title),
          description := Text.Trim(dto.description),
          releaseYear := dto.releaseYear,
          durationMin := dto.durationMin,
          status := if IsAdmin(caller) then movie.status else Pending);
        assert Valid(s) ==> Valid(s.(movies := s.movies.Put(id, edited))) by {
          if Valid(s) {
            PutMovieKeepsValid(s, id, edited);
          }
        }
        Ok((s.(movies := s.movies.Put(id, edited)), true))
  }

  /** `DeleteAsync`: `false` for a missing id; only an admin or the uploader
      may delete; the movie's reviews go with it. */
  function Delete(s: Store, caller: Caller, id: int): (r: Result<(Store, bool)>)
    ensures id !in s.movies.rows ==> r == Ok((s, false))
    ensures r == Err(Unauthorized) <==>
              id in s.movies.rows && !CanModifyResource(caller, s.movies.rows[id].uploadedBy)
    ensures r.Err? ==> r.error == Unauthorized
    ensures r.Ok? ==> (r.value.1 <==> id in s.movies.rows)
    ensures r.Ok? && r.value.1 ==> r.value.0 == RemoveMovie(s, id)
    ensures r.Ok? && Valid(s) ==> Valid(r.value.0)
  {
    match Repositories.FindById(s.movies, id)
    case None => Ok((s, false))
    case Some(movie) =>
      if !CanModifyResource(caller, movie.uploadedBy) then Err(Unauthorized)
      else Ok((RemoveMovie(s, id), true))
  }

  /** The shared body of `ApproveAsync` and `RejectAsync`: the admin check
      comes first, so a non-admin is refused even for a missing id; then
      `false` for a missing id; otherwise only the status changes. */
  function Moderate(s: Store, caller: Caller, id: int, status: MovieStatus): (r: Result<(Store, bool)>)
    ensures r == Err(Unauthorized) <==> !IsAdmin(caller)
    ensures r.Err? ==> r.error == Unauthorized
    ensures r.Ok? ==> (r.value.1 <==> id in s.movies.rows)
    ensures r.Ok? && !r.value.1 ==> r.value.0 == s
    ensures r.Ok? && r.value.1 ==>
              var (t, _) := r.value;
              && t.movies.rows.Keys == s.movies.rows.Keys
              && t.movies.rows[id] == s.movies.rows[id].(status := status)
              && (forall m | m in s.movies.rows && m != id :: t.movies.rows[m] == s.movies.rows[m])
              && t.users == s.users && t.genres == s.genres && t.reviews == s.reviews
              && t.tokens == s.tokens
    ensures r.Ok? && Valid(s) ==> Valid(r.value.0)
  {
    if !IsAdmin(caller) then Err(Unauthorized)
    else match Repositories.FindById(s.movies, id)
      case None => Ok((s, false))
      case Some(movie) =>
        var edited := movie.(status := status);
        assert Valid(s) ==> Valid(s.(movies := s.movies.Put(id, edited))) by {
          if Valid(s) {
            PutMovieKeepsValid(s, id, edited);
          }
        }
        Ok((s.(movies := s.movies.Put(id, edited)), true))
  }

  /** `ApproveAsync`. */
  function Approve(s: Store, caller: Caller, id: int): (r: Result<(Store, bool)>)
    ensures r == Moderate(s, caller, id, Approved)
    ensures r == Err(Unauthorized) <==> !IsAdmin(caller)
    ensures r.Ok? ==> (r.value.1 <==> id in s.movies.rows)
    ensures r.Ok? && !r.value.1 ==> r.value.0 == s
    ensures r.Ok? && r.value.1 ==>
              id in r.value.0.movies.rows && r.value.0.movies.rows[id].status == Approved
  {
    Moderate(s, caller, id, Approved)
  }

  /** `RejectAsync`. */
  function Reject(s: Store, caller: Caller, id: int): (r: Result<(Store, bool)>)
    ensures r == Moderate(s, caller, id, Rejected)
    ensures r == Err(Unauthorized) <==> !IsAdmin(caller)
    ensures r.Ok? ==> (r.value.1 <==> id in s.movies.rows)
    ensures r.Ok? && !r.value.1 ==> r.value.0 == s
    ensures r.Ok? && r.value.1 ==>
              id in r.value.0.movies.rows && r.value.0.movies.rows[id].status == Rejected
  {
    Moderate(s, caller, id, Rejected)
  }

  // ----- moderation properties -----

  /** The approved movies of a store. */
  function ApprovedIds(s: Store): set<int> {
    set m | m in s.movies.rows && s.movies.rows[m].status == Approved
  }

  /** Every movie operation a caller can issue. */
  datatype MovieOp =
    | CreateOp(dto: Dtos.CreateMovieDto, now: nat)
    | UpdateOp(id: int, update: Dtos.UpdateMovieDto)
    | DeleteOp(id: int)
    | ApproveOp(id: int)
    | RejectOp(id: int)

  /** The store a result leaves behind, without the answer. */
  function StoreOf<T>(r: Result<(Store, T)>): Result<Store> {
    match r
    case Ok((t, _)) => Ok(t)
    case Err(e) => Err(e)
  }

  function Apply(s: Store, caller: Caller, op: MovieOp): (r: Result<Store>)
    requires s.movies.Valid()
  {
    match op
    case CreateOp(dto, now) => StoreOf(Create(s, caller, dto, now))
    case UpdateOp(id, dto) => StoreOf(Update(s, caller, id, dto))
    case DeleteOp(id) => StoreOf(Delete(s, caller, id))
    case ApproveOp(id) => StoreOf(Approve(s, caller, id))
    case RejectOp(id) => StoreOf(Reject(s, caller, id))
  }

  /** Only admins publish: whatever a non-admin does, no movie becomes
      approved that was not approved before. */
  lemma NonAdminNeverPublishes(s: Store, caller: Caller, op: MovieOp)
    requires s.movies.Valid()
    requires !IsAdmin(caller)
    requires Apply(s, caller, op).Ok?
    ensures ApprovedIds(Apply(s, caller, op).value) <= ApprovedIds(s)
  {
    var t := Apply(s, caller, op).value;
    match op
    case CreateOp(dto, now) => {
      var id := Create(s, caller, dto, now).value.1.id;
      assert t.movies.rows[id].status == Pending;
    }
    case UpdateOp(id, dto) => {
    }
    case DeleteOp(id) => {
    }
    case ApproveOp(id) => {
    }
    case RejectOp(id) => {
    }
  }

  /** What a non-admin sees in the unfiltered list is exactly what `Get`
      lets a non-admin read. */
  lemma ListAgreesWithGet(s: Store, caller: Caller, id: int)
    requires !IsAdmin(caller)
    ensures id in ListIds(s, caller, None, None) <==>
              Get(s, caller, id).Ok? && Get(s, caller, id).value.Some?
  {
    var ids := ListIds(s, caller, None, None);
    assert id in ids <==> multiset(ids)[id] > 0;
  }

  /** A request that passes the validation attributes stores a movie that
      passes them too: the trimmed title and description stay required and
      within their lengths, year and duration within their ranges. */
  lemma ValidRequestsKeepMovieBounds(s: Store, caller: Caller, id: int, create: Dtos.CreateMovieDto,
                                     update: Dtos.UpdateMovieDto, now: nat)
    requires s.movies.Valid()
    requires Dtos.ValidCreateMovie(create) && Dtos.ValidUpdateMovie(update)
    ensures Create(s, caller, create, now).Ok? ==>
              var (t, details) := Create(s, caller, create, now).value;
              var m := t.movies.rows[details.id];
              Dtos.ValidMovieFields(m.title, m.description, m.releaseYear, m.durationMin)
    ensures Update(s, caller, id, update).Ok? && Update(s, caller, id, update).value.1 ==>
              var m := Update(s, caller, id, update).value.0.movies.rows[id];
              Dtos.ValidMovieFields(m.title, m.description, m.releaseYear, m.durationMin)
  {
    Dtos.TrimKeepsMovieFields(create.title, create.description, create.releaseYear, create.durationMin);
    Dtos.TrimKeepsMovieFields(update.title, update.description, update.releaseYear, update.durationMin);
  }

  /** A movie approved by an admin and then edited by its non-admin uploader
      is back to Pending: an edit always goes through moderation again. */
  lemma EditAfterApprovalNeedsModeration(s: Store, admin: Caller, owner: Caller, id: int, dto: Dtos.UpdateMovieDto)
    requires IsAdmin(admin) && !IsAdmin(owner)
    requires id in s.movies.rows && GetUserId(owner) == Some(s.movies.rows[id].uploadedBy)
    ensures Approve(s, admin, id).Ok?
    ensures Update(Approve(s, admin, id).value.0, owner, id, dto).Ok?
    ensures Update(Approve(s, admin, id).value.0, owner, id, dto).value.0.movies.rows[id].status == Pending
  {
  }
}

=== FILE: api_reviews.dfy ===
/** `ReviewService` of the backend with authorization: listing, reading,
    writing, editing and deleting reviews, where a non-admin only ever sees
    and touches the caller's own reviews.
 */
module ApiReviews {

  import opened Wrappers
  import opened Store
  import opened Authorization
  import Seqs
  import Views
  import Dtos
  import Repositories
  import Reviews

  /** The filters of `ListAsync` once the caller has passed the check: the
      movie filter; a non-admin sees only the reviews written under the
      caller's user id (none when the caller has no id); an admin may filter
      by author. */
  predicate Matches(s: Store, caller: Caller, movieId: Option<int>, userId: Option<int>, x: int)
    requires x in s.reviews.rows
  {
    var v := s.reviews.rows[x];
    && (movieId.None? || v.movieId == movieId.value)
    && (if IsAdmin(caller) then userId.None? || v.userId == userId.value
        else GetUserId(caller) == Some(v.userId))
  }

  function CreatedAt(s: Store): int -> int {
    (x: int) => if x in s.reviews.rows then s.reviews.rows[x].createdAt else 0
  }

  /** A non-admin asked for somebody else's reviews. */
  predicate ForeignAuthorFilter(caller: Caller, userId: Option<int>) {
    !IsAdmin(caller) && userId.Some? && GetUserId(caller) != userId
  }

  /** The ids `ListAsync` returns, newest first: every review that passes
      the filters, once. */
  function ListIds(s: Store, caller: Caller, movieId: Option<int>, userId: Option<int>): (r: seq<int>)
    ensures forall x :: multiset(r)[x] ==
              if x in s.reviews.rows && Matches(s, caller, movieId, userId, x) then 1 else 0
    ensures forall i | 0 <= i < |r| ::
              && r[i] in s.reviews.rows
              && (movieId.Some? ==> s.reviews.rows[r[i]].movieId == movieId.value)
              && (!IsAdmin(caller) ==> GetUserId(caller) == Some(s.reviews.rows[r[i]].userId))
              && (IsAdmin(caller) && userId.Some? ==> s.reviews.rows[r[i]].userId == userId.value)
    ensures forall i | 0 <= i < |r| - 1 ::
              s.reviews.rows[r[i]].createdAt >= s.reviews.rows[r[i + 1]].createdAt
  {
    Views.DescByTotal(CreatedAt(s));
    var r := Seqs.SelectSorted(s.reviews.rows.Keys, Kept(s, caller, movieId, userId), Views.DescBy(CreatedAt(s)));
    KeptRows(s, caller, movieId, userId, r);
    NewestFirst(s, r);
    r
  }

  /** The row test `ListIds` selects by. */
  function Kept(s: Store, caller: Caller, movieId: Option<int>, userId: Option<int>): int -> bool {
    (x: int) => x in s.reviews.rows && Matches(s, caller, movieId, userId, x)
  }

  /** What passing the row test says about each selected review. */
  lemma KeptRows(s: Store, caller: Caller, movieId: Option<int>, userId: Option<int>, r: seq<int>)
    requires forall i | 0 <= i < |r| :: Kept(s, caller, movieId, userId)(r[i])
    ensures forall i | 0 <= i < |r| ::
              && r[i] in s.reviews.rows
              && (movieId.Some? ==> s.reviews.rows[r[i]].movieId == movieId.value)
              && (!IsAdmin(caller) ==> GetUserId(caller) == Some(s.reviews.rows[r[i]].userId))
              && (IsAdmin(caller) && userId.Some? ==> s.reviews.rows[r[i]].userId == userId.value)
  {
    forall i | 0 <= i < |r|
      ensures r[i] in s.reviews.rows && Matches(s, caller, movieId, userId, r[i])
    {
      assert Kept(s, caller, movieId, userId)(r[i]);
    }
  }

  /** Ids of reviews sorted by `DescBy(CreatedAt(s))` run newest first. */
  lemma NewestFirst(s: Store, r: seq<int>)
    requires forall i | 0 <= i < |r| :: r[i] in s.reviews.rows
    requires Seqs.Sorted(r, Views.DescBy(CreatedAt(s)))
    ensures forall i | 0 <= i < |r| - 1 ::
              s.reviews.rows[r[i]].createdAt >= s.reviews.rows[r[i + 1]].createdAt
  {
    forall i | 0 <= i < |r| - 1
      ensures s.reviews.rows[r[i]].createdAt >= s.reviews.rows[r[i + 1]].createdAt
    {
      assert Views.DescBy(CreatedAt(s))(r[i], r[i + 1]);
    }
  }

  /** `ListAsync`: a non-admin naming another author is refused; otherwise
      the list items of `ListIds`, in that order. */
  function List(s: Store, caller: Caller, movieId: Option<int>, userId: Option<int>): (r: Result<seq<Views.ReviewListItem>>)
    ensures r.Err? <==> ForeignAuthorFilter(caller, userId)
    ensures r.Err? ==> r.error == Unauthorized
    ensures r.Ok? ==>
              && |r.value| == |ListIds(s, caller, movieId, userId)|
              && forall i | 0 <= i < |r.value| ::
                   r.value[i] == Views.ToReviewItem(s, ListIds(s, caller, movieId, userId)[i])
  {
    if ForeignAuthorFilter(caller, userId) then Err(Unauthorized)
    else
      var ids := ListIds(s, caller, movieId, userId);
      Ok(Seqs.Map(ids, (x: int) requires x in s.reviews.rows => Views.ToReviewItem(s, x)))
  }

  /** `GetAsync`: nothing for a missing id; a non-admin may read only a
      review written under the caller's own user id. */
  function Get(s: Store, caller: Caller, id: int): (r: Result<Option<Views.ReviewDetails>>)
    ensures id !in s.reviews.rows ==> r == Ok(None)
    ensures r.Err? <==>
              id in s.reviews.rows && !IsAdmin(caller) && GetUserId(caller) != Some(s.reviews.rows[id].userId)
    ensures r.Err? ==> r.error == Unauthorized
    ensures r.Ok? && r.value.Some? ==>
              id in s.reviews.rows && r.value.value == Views.ToReviewDetails(id, s.reviews.rows[id])
    ensures id in s.reviews.rows && CanModifyResource(caller, s.reviews.rows[id].userId) ==>
              r == Ok(Some(Views.ToReviewDetails(id, s.reviews.rows[id])))
  {
    match Repositories.FindById(s.reviews, id)
    case None => Ok(None)
    case Some(v) =>
      if !IsAdmin(caller) && GetUserId(caller) != Some(v.userId) then Err(Unauthorized)
      else Ok(Some(Views.ToReviewDetails(id, v)))
  }

  /** Why `CreateAsync` refuses the caller, if it does: not authenticated,
      no user id, or a non-admin writing for another user. */
  predicate CreateRefused(caller: Caller, dto: Dtos.CreateReviewDto) {
    || !IsAuthenticated(caller)
    || GetUserId(caller).None?
    || (dto.userId != GetUserId(caller).value && !IsAdmin(caller))
  }

  /** `CreateAsync`: the caller checks; then the movie and the author must
      exist; then the author must not have reviewed the movie yet; then the
      save fails without both texts; otherwise the review is added with its
      texts trimmed. */
  function Create(s: Store, caller: Caller, dto: Dtos.CreateReviewDto, now: nat): (r: Result<(Store, Views.ReviewDetails)>)
    requires s.reviews.Valid()
    ensures r == Err(Unauthorized) <==> CreateRefused(caller, dto)
    ensures r == Err(Validation) <==>
              !CreateRefused(caller, dto) &&
              (dto.movieId !in s.movies.rows || dto.userId !in s.users.rows)
    ensures r == Err(Conflict) <==>
              && !CreateRefused(caller, dto)
              && dto.movieId in s.movies.rows && dto.userId in s.users.rows
              && exists x | x in s.reviews.rows ::
                   s.reviews.rows[x].userId == dto.userId && s.reviews.rows[x].movieId == dto.movieId
    ensures r == Err(StoreRejected) <==>
              && !CreateRefused(caller, dto)
              && dto.movieId in s.movies.rows && dto.userId in s.users.rows
              && !(exists x | x in s.reviews.rows ::
                     s.reviews.rows[x].userId == dto.userId && s.reviews.rows[x].movieId == dto.movieId)
              && Reviews.TextsMissing(dto.title, dto.body)
    ensures r.Err? ==> r.error in {Unauthorized, Validation, Conflict, StoreRejected}
    ensures r.Ok? ==>
              var (t, details) := r.value;
              && details.id !in s.reviews.rows
              && t.reviews.rows.Keys == s.reviews.rows.Keys + {details.id}
              && t.reviews.rows[details.id].title.Some? && t.reviews.rows[details.id].body.Some?
              && t.reviews.rows[details.id] == Reviews.NewReview(dto, now)
              && (forall x | x in s.reviews.rows :: t.reviews.rows[x] == s.reviews.rows[x])
              && details == Views.ToReviewDetails(details.id, Reviews.NewReview(dto, now))
              && t.users == s.users && t.genres == s.genres && t.movies == s.movies
              && t.tokens == s.tokens
    ensures r.Ok? && Valid(s) ==> Valid(r.value.0)
  {
    if !IsAuthenticated(caller) then Err(Unauthorized)
    else match GetUserId(caller)
      case None => Err(Unauthorized)
      case Some(userId) =>
        if dto.userId != userId && !IsAdmin(caller) then Err(Unauthorized)
        else Reviews.Add(s, dto, now)
  }

  /** `UpdateAsync`: `false` for a missing id; only an admin or the author
      may edit; the save fails when the edit drops a text; otherwise score,
      title and body are replaced. */
  function Update(s: Store, caller: Caller, id: int, dto: Dtos.UpdateReviewDto): (r: Result<(Store, bool)>)
    ensures id !in s.reviews.rows ==> r == Ok((s, false))
    ensures r == Err(Unauthorized) <==>
              id in s.reviews.rows && !CanModifyResource(caller, s.reviews.rows[id].userId)
    ensures r == Err(StoreRejected) <==>
              && id in s.reviews.rows && CanModifyResource(caller, s.reviews.rows[id].userId)
              && Reviews.TextsMissing(dto.title, dto.body)
    ensures r.Err? ==> r.error in {Unauthorized, StoreRejected}
    ensures r.Ok? ==> (r.value.1 <==> id in s.reviews.rows)
    ensures r.Ok? && r.value.1 ==>
              var t := r.value.0;
              && t.reviews.rows.Keys == s.reviews.rows.Keys
              && t.reviews.rows[id] == Reviews.Edited(s.reviews.rows[id], dto)
              && t.reviews.rows[id].movieId == s.reviews.rows[id].movieId
              && t.reviews.rows[id].userId == s.reviews.rows[id].userId
              && (forall x | x in s.reviews.rows && x != id :: t.reviews.rows[x] == s.reviews.rows[x])
              && t.users == s.users && t.genres == s.genres && t.movies == s.movies
              && t.tokens == s.tokens
    ensures r.Ok? && Valid(s) ==> Valid(r.value.0)
  {
    match Repositories.FindById(s.reviews, id)
    case None => Ok((s, false))
    case Some(v) =>
      if !CanModifyResource(caller, v.userId) then Err(Unauthorized)
      else match Reviews.Edit(s, id, dto)
        case Err(e) => Err(e)
        case Ok(t) => Ok((t, true))
  }

  /** `DeleteAsync`: `false` for a missing id; only an admin or the author
      may delete. */
  function Delete(s: Store, caller: Caller, id: int): (r: Result<(Store, bool)>)
    ensures id !in s.reviews.rows ==> r == Ok((s, false))
    ensures r.Err? <==> id in s.reviews.rows && !CanModifyResource(caller, s.reviews.rows[id].userId)
    ensures r.Err? ==> r.error == Unauthorized
    ensures r.Ok? ==> (r.value.1 <==> id in s.reviews.rows)
    ensures r.Ok? && r.value.1 ==>
              && r.value.0.reviews.rows.Keys == s.reviews.rows.Keys - {id}
              && r.value.0 == RemoveReview(s, id)
    ensures r.Ok? && Valid(s) ==> Valid(r.value.0)
  {
    match Repositories.FindById(s.reviews, id)
    case None => Ok((s, false))
    case Some(v) =>
      if !CanModifyResource(caller, v.userId) then Err(Unauthorized)
      else Ok((RemoveReview(s, id), true))
  }

  // ----- properties across operations -----

  /** A non-admin's unfiltered list holds exactly the reviews `Get` lets that
      caller read. */
  lemma ListAgreesWithGet(s: Store, caller: Caller, id: int)
    requires !IsAdmin(caller)
    ensures List(s, caller, None, None).Ok?
    ensures id in ListIds(s, caller, None, None) <==>
              Get(s, caller, id).Ok? && Get(s, caller, id).value.Some?
  {
    var ids := ListIds(s, caller, None, None);
    assert id in ids <==> multiset(ids)[id] > 0;
  }

  /** A review just written can be read back, as written, by its author. */
  lemma CreateThenGet(s: Store, caller: Caller, dto: Dtos.CreateReviewDto, now: nat)
    requires s.reviews.Valid()
    ensures Create(s, caller, dto, now).Ok? ==>
              var (t, details) := Create(s, caller, dto, now).value;
              Get(t, caller, details.id) == Ok(Some(details))
  {
  }

  /** Writing a second review of the same movie as the same author is
      refused as a conflict, and the first one stays as it was. */
  lemma SecondReviewConflicts(s: Store, caller: Caller, dto: Dtos.CreateReviewDto, now: nat, later: nat)
    requires s.reviews.Valid()
    ensures Create(s, caller, dto, now).Ok? ==>
              var t := Create(s, caller, dto, now).value.0;
              Create(t, caller, dto, later) == Err(Conflict)
  {
    if Create(s, caller, dto, now).Ok? {
      var (t, details) := Create(s, caller, dto, now).value;
      assert t.reviews.rows[details.id].userId == dto.userId;
      assert t.reviews.rows[details.id].movieId == dto.movieId;
    }
  }

  /** A request that passes the request validation yields a stored review
      whose score lies in 1..10 and whose texts keep their length bounds,
      whether it is written or edited. */
  lemma ValidRequestsKeepReviewBounds(s: Store, caller: Caller, id: int, create: Dtos.CreateReviewDto, update: Dtos.UpdateReviewDto, now: nat)
    requires s.reviews.Valid()
    requires Dtos.ValidCreateReview(create) && Dtos.ValidUpdateReview(update)
    ensures Create(s, caller, create, now).Ok? ==>
              var (t, details) := Create(s, caller, create, now).value;
              Dtos.ValidReviewFields(t.reviews.rows[details.id].score,
                t.reviews.rows[details.id].title, t.reviews.rows[details.id].body)
    ensures Update(s, caller, id, update).Ok? && Update(s, caller, id, update).value.1 ==>
              var t := Update(s, caller, id, update).value.0;
              Dtos.ValidReviewFields(t.reviews.rows[id].score, t.reviews.rows[id].title, t.reviews.rows[id].body)
  {
  }

  /** A non-admin cannot edit or delete a review written by somebody else:
      both are refused and the store stays as it was. */
  lemma OthersReviewsUntouchable(s: Store, caller: Caller, id: int, dto: Dtos.UpdateReviewDto)
    requires !IsAdmin(caller)
    requires id in s.reviews.rows && GetUserId(caller) != Some(s.reviews.rows[id].userId)
    ensures Update(s, caller, id, dto) == Err(Unauthorized)
    ensures Delete(s, caller, id) == Err(Unauthorized)
    ensures Get(s, caller, id) == Err(Unauthorized)
  {
  }
}

=== FILE: api_users.dfy ===
/** `UserService` of the backend with authorization: the admin-only user
    list, reading and editing a profile (the owner or an admin), and the
    admin-only delete, which anonymizes the user first. Creating a user and
    the anonymization itself are shared with the older variant (`Users`).
 */
module ApiUsers {

  import opened Wrappers
  import opened Store
  import opened Authorization
  import Seqs
  import Views
  import Repositories
  import Users

  /** `ListAsync`: admins only. */
  function List(s: Store, caller: Caller, q: Option<string>): (r: Result<seq<Views.UserItem>>)
    ensures r.Err? <==> !IsAdmin(caller)
    ensures r.Err? ==> r.error == Unauthorized
    ensures r.Ok? ==>
              && |r.value| == |Users.ListIds(s, q)|
              && forall i | 0 <= i < |r.value| :: r.value[i] == Views.ToUserItem(s, Users.ListIds(s, q)[i])
  {
    if !IsAdmin(caller) then Err(Unauthorized)
    else
      var ids := Users.ListIds(s, q);
      Ok(Seqs.Map(ids, (u: int) requires u in s.users.rows => Views.ToUserItem(s, u)))
  }

  /** `GetAsync`: nothing for a missing id; otherwise only the owner or an
      admin may read the profile. */
  function Get(s: Store, caller: Caller, id: int): (r: Result<Option<Views.UserItem>>)
    ensures id !in s.users.rows ==> r == Ok(None)
    ensures r.Err? <==> id in s.users.rows && !CanModifyResource(caller, id)
    ensures r.Err? ==> r.error == Unauthorized
    ensures r.Ok? && r.value.Some? ==>
              && id in s.users.rows
              && r.value.value == Views.UserItem(id, s.users.rows[id].username,
                                   s.users.rows[id].email, s.users.rows[id].createdAt)
    ensures id in s.users.rows && CanModifyResource(caller, id) ==>
              r == Ok(Some(Views.UserItem(id, s.users.rows[id].username,
                                          s.users.rows[id].email, s.users.rows[id].createdAt)))
  {
    match Repositories.FindById(s.users, id)
    case None => Ok(None)
    case Some(_) =>
      if !CanModifyResource(caller, id) then Err(Unauthorized)
      else Ok(Some(Views.ToUserItem(s, id)))
  }

  /** `UpdateAsync`: `false` for a missing id; only the owner or an admin
      may edit; then the checks and the write of `Users.ChangeProfile`. */
  function Update(s: Store, caller: Caller, id: int, dto: Users.UserInput): (r: Result<(Store, bool)>)
    ensures id !in s.users.rows ==> r == Ok((s, false))
    ensures r == Err(Unauthorized) <==> id in s.users.rows && !CanModifyResource(caller, id)
    ensures r == Err(Conflict) <==>
              id in s.users.rows && CanModifyResource(caller, id) && Users.ChangeProfile(s, id, dto).Err?
    ensures r.Err? ==> r.error in {Unauthorized, Conflict}
    ensures r.Ok? ==> (r.value.1 <==> id in s.users.rows)
    ensures r.Ok? && r.value.1 ==>
              Users.ChangeProfile(s, id, dto) == Ok(r.value.0) &&
              r.value.0.users.rows[id].username == Users.CleanUsername(dto) &&
              r.value.0.users.rows[id].email == Users.CleanEmail(dto)
    ensures r.Ok? && Valid(s) ==> Valid(r.value.0)
  {
    match Repositories.FindById(s.users, id)
    case None => Ok((s, false))
    case Some(_) =>
      if !CanModifyResource(caller, id) then Err(Unauthorized)
      else match Users.ChangeProfile(s, id, dto)
        case Err(e) => Err(e)
        case Ok(t) => Ok((t, true))
  }

  /** `DeleteAsync`: the admin check comes first, then
      `AnonymizeAndDeleteAsync`. */
  function Delete(s: Store, caller: Caller, id: int): (r: Result<(Store, bool)>)
    ensures !IsAdmin(caller) ==> r == Err(Unauthorized)
    ensures IsAdmin(caller) ==> r == Users.AnonymizeAndDelete(s, id)
    ensures r.Ok? && Valid(s) ==> Valid(r.value.0)
    ensures r.Ok? && r.value.1 ==> id !in r.value.0.users.rows && id in s.users.rows
  {
    if !IsAdmin(caller) then Err(Unauthorized)
    else Users.AnonymizeAndDelete(s, id)
  }

  // ----- properties across operations -----

  /** An admin's unfiltered list holds every user once. */
  lemma AdminListsEveryone(s: Store, caller: Caller, id: int)
    requires IsAdmin(caller)
    ensures List(s, caller, None).Ok?
    ensures id in Users.ListIds(s, None) <==> id in s.users.rows
  {
    var ids := Users.ListIds(s, None);
    assert id in ids <==> multiset(ids)[id] > 0;
  }

  /** A non-admin reaches no profile but the caller's own: reading and
      editing anybody else's is refused, and so is every delete. */
  lemma NonAdminOnlyOwnProfile(s: Store, caller: Caller, id: int, dto: Users.UserInput)
    requires !IsAdmin(caller)
    requires id in s.users.rows && GetUserId(caller) != Some(id)
    ensures Get(s, caller, id) == Err(Unauthorized)
    ensures Update(s, caller, id, dto) == Err(Unauthorized)
    ensures Delete(s, caller, id) == Err(Unauthorized)
  {
  }

  /** A successful profile edit is what the owner then reads back: the
      trimmed username and email, the id and creation time unchanged. */
  lemma UpdateThenGet(s: Store, caller: Caller, id: int, dto: Users.UserInput)
    requires Update(s, caller, id, dto).Ok? && Update(s, caller, id, dto).value.1
    ensures var t := Update(s, caller, id, dto).value.0;
            Get(t, caller, id) ==
              Ok(Some(Views.UserItem(id, Users.CleanUsername(dto), Users.CleanEmail(dto),
                s.users.rows[id].createdAt)))
  {
  }
}

=== FILE: auth.dfy ===
/** `AuthService`: logging in with a username and password, registering,
    exchanging a refresh token for a new pair of tokens, and revoking a
    refresh token.

    Password hashing and checking, the random token text and the signing of
    the access token are outside the model: the hash function and the
    password check are parameters, the new refresh token's text is an
    argument the caller draws, and an access token is the list of claims it
    carries. Times are seconds.
 */
module Auth {

  import opened Wrappers
  import opened Store
  import opened Authorization
  import Numbers
  import Seqs

  /** The two lifetimes of `JwtSettings`. */
  datatype Settings = Settings(accessTokenMinutes: nat, refreshTokenDays: nat)

  const SecondsPerMinute: nat := 60
  const SecondsPerDay: nat := 86400

  /** The claims an access token carries: `sub`, `unique_name` and the
      role claim, and its expiry. */
  datatype AccessToken = AccessToken(sub: string, uniqueName: string, role: string, expiresAt: nat)

  /** `TokenResponseDto`. */
  datatype TokenResponse = TokenResponse(accessToken: AccessToken, refreshToken: string, expiresAt: nat)

  /** The principal the bearer-token handler builds from a valid access
      token: an authenticated identity whose `sub` claim is read as the
      name identifier, `unique_name` as the name and the role claim as the
      role (the handler's default inbound claim mapping). */
  function PrincipalOf(a: AccessToken): (c: Caller)
    ensures IsAuthenticated(c)
  {
    Caller(Some(true), [Claim(NameIdentifier, a.sub), Claim(Name, a.uniqueName), Claim(RoleClaim, a.role)])
  }

  /** Every refresh token belongs to an existing user (the foreign key the
      token table declares). */
  ghost predicate TokenOwnersExist(s: Store) {
    forall k | k in s.tokens :: s.tokens[k].userId in s.users.rows
  }

  /** `GenerateTokensAsync`: an access token naming the user, and a new
      refresh token stored for the user. The principal the access token
      yields is the user: its user id is the user's id and it is an admin
      exactly when the user's role is Admin. */
  function GenerateTokens(s: Store, id: int, settings: Settings, now: nat, newToken: string): (r: (Store, TokenResponse))
    requires id in s.users.rows
    requires newToken !in s.tokens
    ensures var (t, resp) := r;
            && t.tokens.Keys == s.tokens.Keys + {newToken}
            && (forall k | k in s.tokens :: t.tokens[k] == s.tokens[k])
            && t.tokens[newToken] == RefreshToken(id, now + settings.refreshTokenDays * SecondsPerDay, false)
            && t.users == s.users && t.genres == s.genres && t.movies == s.movies && t.reviews == s.reviews
            && resp.refreshToken == newToken
            && resp.expiresAt == resp.accessToken.expiresAt == now + settings.accessTokenMinutes * SecondsPerMinute
    ensures Numbers.InInt32(id) ==> GetUserId(PrincipalOf(r.1.accessToken)) == Some(id)
    ensures IsAdmin(PrincipalOf(r.1.accessToken)) <==> s.users.rows[id].role == Admin
    ensures Valid(s) ==> Valid(r.0)
    ensures TokenOwnersExist(s) ==> TokenOwnersExist(r.0)
  {
    var user := s.users.rows[id];
    var expires := now + settings.accessTokenMinutes * SecondsPerMinute;
    var access := AccessToken(Numbers.Format(id), user.username, RoleName(user.role), expires);
    var token := RefreshToken(id, now + settings.refreshTokenDays * SecondsPerDay, false);
    PrincipalIsUser(id, user, expires);
    var t := s.(tokens := s.tokens[newToken := token]);
    assert Valid(s) ==> Valid(t) by {
      if Valid(s) {
        PutTokenKeepsValid(s, newToken, token);
      }
    }
    (t, TokenResponse(access, newToken, expires))
  }

  /** The access token written for a user yields a principal with that
      user's id, in the Admin role exactly when the user is an admin. */
  lemma PrincipalIsUser(id: int, user: User, expires: nat)
    ensures var c := PrincipalOf(AccessToken(Numbers.Format(id), user.username, RoleName(user.role), expires));
            && (Numbers.InInt32(id) ==> GetUserId(c) == Some(id))
            && (IsAdmin(c) <==> user.role == Admin)
  {
    var c := PrincipalOf(AccessToken(Numbers.Format(id), user.username, RoleName(user.role), expires));
    SubjectIsUserId(c, id);
    RoleClaimIsRole(c, user.role);
  }

  lemma SubjectIsUserId(c: Caller, id: int)
    requires |c.claims| > 0 && c.claims[0] == Claim(NameIdentifier, Numbers.Format(id))
    ensures Numbers.InInt32(id) ==> GetUserId(c) == Some(id)
  {
    assert FindFirstValue(c.claims, NameIdentifier) == Some(Numbers.Format(id));
    if Numbers.InInt32(id) {
      Numbers.ParseFormat(id);
    }
  }

  lemma RoleClaimIsRole(c: Caller, role: UserRole)
    requires |c.claims| == 3 && c.claims[2] == Claim(RoleClaim, RoleName(role))
    requires c.claims[0].claimType != RoleClaim && c.claims[1].claimType != RoleClaim
    ensures IsAdmin(c) <==> role == Admin
  {
    if role == Admin {
      assert c.claims[2] == Claim(RoleClaim, "Admin");
    }
  }

  /** `FirstOrDefaultAsync(u => u.Username == username)`: a user with that
      username, if any; under the unique index on usernames, the only one. */
  function FindByUsername(s: Store, username: string): (r: Option<int>)
    ensures r.None? <==> !exists u | u in s.users.rows :: s.users.rows[u].username == username
    ensures r.Some? ==> r.value in s.users.rows && s.users.rows[r.value].username == username
  {
    var keys := Seqs.Enumerate(s.users.rows.Keys);
    var named := (u: int) => u in s.users.rows && s.users.rows[u].username == username;
    var hits := Seqs.Filter(keys, named);
    Seqs.FilterCount(keys, named);
    assert (exists u | u in s.users.rows :: s.users.rows[u].username == username) ==> hits != [] by {
      if exists u | u in s.users.rows :: s.users.rows[u].username == username {
        var u :| u in s.users.rows && s.users.rows[u].username == username;
        assert multiset(hits)[u] > 0;
      }
    }
    if hits == [] then None else Some(hits[0])
  }

  datatype LoginInput = LoginInput(username: string, password: string)

  /** `LoginAsync`: the user with that username must exist and the password
      must match the stored hash; a user without a stored hash (the system
      user, users created by an admin) makes the hash check throw.
      `verify(password, hash)` is the password check. */
  function Login(s: Store, dto: LoginInput, verify: (string, string) -> bool, settings: Settings, now: nat, newToken: string): (r: Result<(Store, TokenResponse)>)
    requires newToken !in s.tokens
    ensures r.Err? ==> r.error in {Unauthorized, MissingArgument}
    ensures r.Err? <==>
              match FindByUsername(s, dto.username)
              case None => true
              case Some(id) =>
                s.users.rows[id].passwordHash.None? ||
                !verify(dto.password, s.users.rows[id].passwordHash.value)
    ensures r == Err(MissingArgument) <==>
              && FindByUsername(s, dto.username).Some?
              && s.users.rows[FindByUsername(s, dto.username).value].passwordHash.None?
    ensures r.Ok? ==> newToken in r.value.0.tokens
    ensures r.Ok? ==>
              var (t, resp) := r.value;
              var id := t.tokens[newToken].userId;
              && id in s.users.rows
              && s.users.rows[id].username == dto.username
              && s.users.rows[id].passwordHash.Some?
              && verify(dto.password, s.users.rows[id].passwordHash.value)
              && (Numbers.InInt32(id) ==> GetUserId(PrincipalOf(resp.accessToken)) == Some(id))
              && (IsAdmin(PrincipalOf(resp.accessToken)) <==> s.users.rows[id].role == Admin)
    ensures r.Ok? && Valid(s) ==> Valid(r.value.0)
  {
    match FindByUsername(s, dto.username)
    case None => Err(Unauthorized)
    case Some(id) =>
      match s.users.rows[id].passwordHash
      case None => Err(MissingArgument)
      case Some(hash) =>
        if !verify(dto.password, hash) then Err(Unauthorized)
        else Ok(GenerateTokens(s, id, settings, now, newToken))
  }

  datatype RegisterInput = RegisterInput(username: string, email: string, password: string)

  /** `RegisterAsync`: refused when some user already has the username or
      the email (compared as sent, without trimming); otherwise a regular
      user with the hashed password is added and signed in. `hash` is the
      password hash function. */
  function Register(s: Store, dto: RegisterInput, hash: string -> string, settings: Settings, now: nat, newToken: string): (r: Result<(Store, TokenResponse)>)
    requires s.users.Valid()
    requires newToken !in s.tokens
    ensures r.Err? <==>
              exists u | u in s.users.rows ::
                s.users.rows[u].username == dto.username || s.users.rows[u].email == dto.email
    ensures r.Err? ==> r.error == InvalidOperation
    ensures r.Ok? ==> newToken in r.value.0.tokens
    ensures r.Ok? ==>
              var (t, resp) := r.value;
              var id := t.tokens[newToken].userId;
              && id !in s.users.rows
              && t.users.rows.Keys == s.users.rows.Keys + {id}
              && (forall u | u in s.users.rows :: t.users.rows[u] == s.users.rows[u])
              && t.users.rows[id] == User(dto.username, dto.email, Some(hash(dto.password)), false, Regular, now)
              && !IsAdmin(PrincipalOf(resp.accessToken))
              && t.genres == s.genres && t.movies == s.movies && t.reviews == s.reviews
    ensures r.Ok? && Valid(s) ==> Valid(r.value.0)
  {
    if exists u | u in s.users.rows ::
         s.users.rows[u].username == dto.username || s.users.rows[u].email == dto.email
    then Err(InvalidOperation)
    else
      var user := User(dto.username, dto.email, Some(hash(dto.password)), false, Regular, now);
      var (users, id) := s.users.Insert(user);
      assert Valid(s) ==> Valid(s.(users := users)) by {
        if Valid(s) {
          InsertUserKeepsValid(s, user);
        }
      }
      Ok(GenerateTokens(s.(users := users), id, settings, now, newToken))
  }

  /** A refresh token can be exchanged at time `now`: it exists, is not
      revoked and has not expired (a token expiring exactly now still
      counts). */
  predicate Usable(s: Store, token: string, now: nat) {
    token in s.tokens && !s.tokens[token].isRevoked && now <= s.tokens[token].expiresAt
  }

  /** `RefreshTokenAsync`: an unusable token is refused; a usable one is
      revoked and its owner gets a new pair of tokens. */
  function Refresh(s: Store, token: string, settings: Settings, now: nat, newToken: string): (r: Result<(Store, TokenResponse)>)
    requires TokenOwnersExist(s)
    requires newToken !in s.tokens
    ensures r.Err? <==> !Usable(s, token, now)
    ensures r.Err? ==> r.error == Unauthorized
    ensures r.Ok? ==>
              var (t, resp) := r.value;
              && t.tokens.Keys == s.tokens.Keys + {newToken}
              && t.tokens[token] == s.tokens[token].(isRevoked := true)
              && (forall k | k in s.tokens && k != token :: t.tokens[k] == s.tokens[k])
              && t.tokens[newToken].userId == s.tokens[token].userId
              && Usable(t, newToken, now)
              && resp.refreshToken == newToken
              && t.users == s.users && t.genres == s.genres && t.movies == s.movies && t.reviews == s.reviews
    ensures r.Ok? ==> TokenOwnersExist(r.value.0)
    ensures r.Ok? && Valid(s) ==> Valid(r.value.0)
  {
    if !(token in s.tokens && !s.tokens[token].isRevoked) then Err(Unauthorized)
    else
      var entity := s.tokens[token];
      if entity.expiresAt < now then Err(Unauthorized)
      else
        var revoked := s.(tokens := s.tokens[token := entity.(isRevoked := true)]);
        assert revoked == Revoke(s, token);
        assert TokenOwnersExist(revoked) by {
          forall k | k in revoked.tokens
            ensures revoked.tokens[k].userId in revoked.users.rows
          {
            assert k in s.tokens;
          }
        }
        Ok(GenerateTokens(revoked, entity.userId, settings, now, newToken))
  }

  /** `RevokeTokenAsync`: marks the token revoked if it exists; an unknown
      token is ignored. Afterwards the token can never be exchanged. */
  function Revoke(s: Store, token: string): (r: Store)
    ensures r.tokens.Keys == s.tokens.Keys
    ensures forall k | k in s.tokens && k != token :: r.tokens[k] == s.tokens[k]
    ensures token in s.tokens ==>
              r.tokens[token].userId == s.tokens[token].userId &&
              r.tokens[token].expiresAt == s.tokens[token].expiresAt
    ensures forall now: nat :: !Usable(r, token, now)
    ensures r.users == s.users && r.genres == s.genres && r.movies == s.movies && r.reviews == s.reviews
    ensures Valid(s) ==> Valid(r)
  {
    if token in s.tokens then s.(tokens := s.tokens[token := s.tokens[token].(isRevoked := true)])
    else s
  }

  // ----- properties across operations -----

  /** Revoking twice is revoking once. */
  lemma RevokeIdempotent(s: Store, token: string)
    ensures Revoke(Revoke(s, token), token) == Revoke(s, token)
  {
  }

  /** A refresh token works once: replaying it after a successful exchange
      is refused. */
  lemma RefreshReplayFails(s: Store, token: string, settings: Settings, now: nat, newToken: string, later: nat, newToken2: string)
    requires TokenOwnersExist(s)
    requires newToken !in s.tokens
    requires Refresh(s, token, settings, now, newToken).Ok?
    requires newToken2 !in Refresh(s, token, settings, now, newToken).value.0.tokens
    ensures Refresh(Refresh(s, token, settings, now, newToken).value.0, token, settings, later, newToken2) == Err(Unauthorized)
  {
  }

  /** The refresh token handed out at sign-in can be exchanged at any time
      up to its lifetime, and is refused after it; the exchange yields a
      principal for the same user. */
  lemma IssuedTokenRefreshes(s: Store, id: int, settings: Settings, now: nat, newToken: string, later: nat, newToken2: string)
    requires TokenOwnersExist(s)
    requires id in s.users.rows && Numbers.InInt32(id)
    requires newToken !in s.tokens && newToken2 != newToken && newToken2 !in s.tokens
    ensures var t := GenerateTokens(s, id, settings, now, newToken).0;
            var r := Refresh(t, newToken, settings, later, newToken2);
            && (r.Ok? <==> later <= now + settings.refreshTokenDays * SecondsPerDay)
            && (r.Ok? ==> GetUserId(PrincipalOf(r.value.1.accessToken)) == Some(id))
  {
  }

  /** A successful login signs in the one user with that username, and the
      access token's principal carries that user's id. */
  lemma LoginIdentifiesUser(s: Store, dto: LoginInput, verify: (string, string) -> bool, settings: Settings, now: nat, newToken: string, id: int)
    requires UniqueUsernames(s)
    requires newToken !in s.tokens
    requires id in s.users.rows && s.users.rows[id].username == dto.username && Numbers.InInt32(id)
    ensures Login(s, dto, verify, settings, now, newToken).Ok? ==>
              GetUserId(PrincipalOf(Login(s, dto, verify, settings, now, newToken).value.1.accessToken)) == Some(id)
  {
  }

  /** The seeded system user has no password, so logging in as it never
      succeeds. */
  lemma SystemUserCannotLogIn(s: Store, password: string, verify: (string, string) -> bool, settings: Settings, now: nat, newToken: string)
    requires Valid(s)
    requires s.users.rows[DeletedUserId] == SystemUser
    requires newToken !in s.tokens
    ensures Login(s, LoginInput(SystemUser.username, password), verify, settings, now, newToken).Err?
  {
    assert FindByUsername(s, SystemUser.username) == Some(DeletedUserId);
  }
}

=== FILE: authorization.dfy ===
/** The caller's identity and the four predicates every service uses as its
    authorization gate (`AuthorizationHelper`).

    A request's principal is a list of claims plus an optional identity that
    says whether authentication succeeded. Bearer-token validation (signature,
    lifetime) happens before the services run and is not modelled; a caller
    value is whatever principal the framework hands to the service.
 */
module Authorization {

  import opened Wrappers
  import Numbers

  datatype ClaimType =
    | NameIdentifier  // ClaimTypes.NameIdentifier (the token's `sub`)
    | Name            // ClaimTypes.Name (the token's `unique_name`)
    | RoleClaim       // ClaimTypes.Role
    | OtherClaim(claimType: string)

  datatype Claim = Claim(claimType: ClaimType, value: string)

  /** `identity` is `None` when the principal carries no identity, otherwise
      `Some(isAuthenticated)`. */
  datatype Caller = Caller(identity: Option<bool>, claims: seq<Claim>)

  /** The anonymous caller of a request without a bearer token. */
  const Anonymous: Caller := Caller(Some(false), [])

  /** `ClaimsPrincipal.IsInRole`: some role claim carries exactly `role`. */
  predicate IsInRole(c: Caller, role: string) {
    exists i | 0 <= i < |c.claims| :: c.claims[i] == Claim(RoleClaim, role)
  }

  /** `IsAdmin`: the principal is in the "Admin" role. */
  predicate IsAdmin(c: Caller) {
    IsInRole(c, "Admin")
  }

  /** `IsAuthenticated`: `user.Identity?.IsAuthenticated ?? false`. */
  predicate IsAuthenticated(c: Caller) {
    c.identity == Some(true)
  }

  /** `FindFirstValue(type)`: the value of the first claim of that type. */
  function FindFirstValue(claims: seq<Claim>, t: ClaimType): (r: Option<string>)
    ensures r.None? <==> forall i | 0 <= i < |claims| :: claims[i].claimType != t
    ensures r.Some? ==> exists i | 0 <= i < |claims| ::
              claims[i] == Claim(t, r.value) &&
              forall j | 0 <= j < i :: claims[j].claimType != t
  {
    if claims == [] then None
    else if claims[0].claimType == t then Some(claims[0].value)
    else
      var r := FindFirstValue(claims[1..], t);
      assert forall i | 1 <= i < |claims| :: claims[i] == claims[1..][i - 1];
      r
  }

  /** `GetUserId`: the first NameIdentifier claim parsed as an integer. */
  function GetUserId(c: Caller): Option<int> {
    Numbers.TryParse(FindFirstValue(c.claims, NameIdentifier))
  }

  /** `CanModifyResource`: an admin, or the owner of the resource. */
  predicate CanModifyResource(c: Caller, ownerId: int) {
    IsAdmin(c) || GetUserId(c) == Some(ownerId)
  }

  /** `IsAdmin` holds exactly when some claim is the role claim "Admin". */
  lemma IsAdminIffAdminRoleClaim(c: Caller)
    ensures IsAdmin(c) <==> Claim(RoleClaim, "Admin") in c.claims
  {
    if Claim(RoleClaim, "Admin") in c.claims {
      var i :| 0 <= i < |c.claims| && c.claims[i] == Claim(RoleClaim, "Admin");
    }
  }

  /** A principal without an identity is not authenticated. */
  lemma NoIdentityNotAuthenticated(claims: seq<Claim>)
    ensures !IsAuthenticated(Caller(None, claims))
  {
  }

  /** The first claim of type `t` is the one `FindFirstValue` reports. */
  lemma {:induction false} FirstValueAt(claims: seq<Claim>, t: ClaimType, i: int)
    requires 0 <= i < |claims| && claims[i].claimType == t
    requires forall j | 0 <= j < i :: claims[j].claimType != t
    ensures FindFirstValue(claims, t) == Some(claims[i].value)
  {
    if i > 0 {
      assert claims[0].claimType != t;
      assert forall j | 0 <= j < i - 1 :: claims[1..][j] == claims[j + 1];
      FirstValueAt(claims[1..], t, i - 1);
    }
  }

  /** Without a NameIdentifier claim there is no user id; with one, the id is
      its parsed value. */
  lemma GetUserIdCases(c: Caller)
    ensures (forall i | 0 <= i < |c.claims| :: c.claims[i].claimType != NameIdentifier)
              ==> GetUserId(c) == None
    ensures forall i | 0 <= i < |c.claims| && c.claims[i].claimType == NameIdentifier ::
              (forall j | 0 <= j < i :: c.claims[j].claimType != NameIdentifier) ==>
                GetUserId(c) == Numbers.TryParse(Some(c.claims[i].value))
  {
    forall i | 0 <= i < |c.claims| && c.claims[i].claimType == NameIdentifier &&
      (forall j | 0 <= j < i :: c.claims[j].claimType != NameIdentifier)
      ensures GetUserId(c) == Numbers.TryParse(Some(c.claims[i].value))
    {
      FirstValueAt(c.claims, NameIdentifier, i);
    }
  }

  /** An admin may modify every resource, whoever owns it. */
  lemma AdminCanModifyAll(c: Caller, ownerId: int)
    requires IsAdmin(c)
    ensures CanModifyResource(c, ownerId)
  {
  }

  /** For a caller who is not an admin, modifying is allowed exactly for the
      caller's own id; a caller without an id may modify nothing. */
  lemma NonAdminModifiesOnlyOwn(c: Caller, ownerId: int)
    requires !IsAdmin(c)
    ensures CanModifyResource(c, ownerId) <==> GetUserId(c) == Some(ownerId)
    ensures GetUserId(c).None? ==> !CanModifyResource(c, ownerId)
  {
  }

  /** The anonymous caller is neither authenticated nor an admin and owns
      nothing. */
  lemma AnonymousCannotModify(ownerId: int)
    ensures !IsAuthenticated(Anonymous) && !IsAdmin(Anonymous)
    ensures !CanModifyResource(Anonymous, ownerId)
  {
  }
}

=== FILE: client_roles.dfy ===
/** The client's `normalizeRole`: turns whatever a token or an API response
    carries in its role field into the client's two roles.
 */
module ClientRoles {

  import Text

  /** The client's role names. */
  datatype Role = Admin | User

  /** A JavaScript value as far as `normalizeRole` looks at it: a number, a
      string, or anything else (boolean, null, undefined, object). */
  datatype JsValue = JsNumber(n: real) | JsString(s: string) | JsOther

  /** The name the client writes for a role. */
  function RoleName(role: Role): string {
    match role
    case Admin => "Admin"
    case User => "User"
  }

  /** The number 1 is the server's enum value for Admin, every other number
      is User; a string is Admin when, trimmed and lower-cased, it reads
      "admin", and User otherwise; anything else gives `fallback`. */
  function NormalizeRole(input: JsValue, fallback: Role := User): (r: Role)
    ensures input.JsNumber? ==> (r == Admin <==> input.n == 1.0)
    ensures input.JsString? ==> (r == Admin <==> Text.ToLower(Text.JsTrim(input.s)) == "admin")
    ensures input.JsOther? ==> r == fallback
  {
    match input
    case JsNumber(n) => if n == 1.0 then Admin else User
    case JsString(s) =>
      var t := Text.ToLower(Text.JsTrim(s));
      if t == "admin" then Admin else User
    case JsOther => fallback
  }

  /** A number or a string never falls back: the fallback only matters for
      values of another type. */
  lemma FallbackOnlyForOtherValues(input: JsValue, a: Role, b: Role)
    requires !input.JsOther?
    ensures NormalizeRole(input, a) == NormalizeRole(input, b)
  {
  }

  /** Normalising a role name the client itself writes gives that role
      back, whatever the fallback. */
  lemma {:induction false} RenormalizeOwnName(role: Role, fallback: Role)
    ensures NormalizeRole(JsString(RoleName(role)), fallback) == role
  {
    OwnNameTrimmed(role);
    if role == Admin {
      AdminLowers();
    } else {
      assert Text.ToLower("User")[0] == 'u';
    }
  }

  /** A role name has no white space to trim. */
  lemma OwnNameTrimmed(role: Role)
    ensures Text.JsTrim(RoleName(role)) == RoleName(role)
  {
    var s := RoleName(role);
    assert !Text.IsJsWhiteSpace(s[0]) && !Text.IsJsWhiteSpace(s[|s| - 1]);
    Text.TrimByTrimmed(s, Text.IsJsWhiteSpace);
  }

  /** "Admin" lower-cases to "admin". */
  lemma AdminLowers()
    ensures Text.ToLower("Admin") == "admin"
  {
    var l := Text.ToLower("Admin");
    assert l[0] == 'a' && l[1] == 'd' && l[2] == 'm' && l[3] == 'i' && l[4] == 'n';
  }

  /** Case and surrounding white space do not matter: " ADMIN " is Admin. */
  lemma PaddedUpperCaseIsAdmin()
    ensures NormalizeRole(JsString(" ADMIN ")) == Admin
  {
    PaddedTrims();
    UpperAdminLowers();
  }

  /** "ADMIN" lower-cases to "admin". */
  lemma UpperAdminLowers()
    ensures Text.ToLower("ADMIN") == "admin"
  {
    var l := Text.ToLower("ADMIN");
    assert l[0] == 'a' && l[1] == 'd' && l[2] == 'm' && l[3] == 'i' && l[4] == 'n';
  }

  /** Trimming " ADMIN " drops one space on each side. */
  lemma PaddedTrims()
    ensures Text.JsTrim(" ADMIN ") == "ADMIN"
  {
    assert Text.IsJsWhiteSpace(' ') && !Text.IsJsWhiteSpace('A') && !Text.IsJsWhiteSpace('N');
    assert " ADMIN "[1..] == "ADMIN ";
    assert Text.TrimStart("ADMIN ", Text.IsJsWhiteSpace) == "ADMIN ";
    assert "ADMIN "[..5] == "ADMIN";
    assert Text.TrimEnd("ADMIN", Text.IsJsWhiteSpace) == "ADMIN";
  }
}

=== FILE: client_urls.dfy ===
/** The movie form's poster URL handling: `normalizeUrl`, applied to the
    poster URL on submit, and the `posterPreview` memo, which computes the
    same thing for the preview image.

    The scheme test is the regular expression `^https?://` with the `i`
    flag. Without the `u` flag JavaScript folds case for those letters only
    among ASCII characters, so the model compares ASCII lower case.
 */
module ClientUrls {

  import opened Wrappers
  import Text

  const Https: string := "https://"
  const Http: string := "http://"

  /** `s` starts with `prefix`, ignoring ASCII case. */
  predicate StartsWithIgnoreCase(s: string, prefix: string) {
    |prefix| <= |s| && Text.ToLower(s[..|prefix|]) == Text.ToLower(prefix)
  }

  /** `/^https?:\/\//i.test(s)`. */
  predicate HasHttpScheme(s: string) {
    StartsWithIgnoreCase(s, Http) || StartsWithIgnoreCase(s, Https)
  }

  /** `normalizeUrl`: nothing for a missing or blank URL; a trimmed URL with
      an http or https scheme as it is; any other trimmed URL behind
      "https://". */
  function NormalizeUrl(u: Option<string>): (r: Option<string>)
    ensures var s := Text.JsTrim(if u.Some? then u.value else []);
            && (r.None? <==> s == [])
            && (r.Some? && HasHttpScheme(s) ==> r.value == s)
            && (r.Some? && !HasHttpScheme(s) ==> r.value == Https + s)
    ensures r.Some? ==> HasHttpScheme(r.value) && Text.Trimmed(r.value, Text.IsJsWhiteSpace)
  {
    var s := Text.JsTrim(if u.Some? then u.value else []);
    if s == [] then None
    else if HasHttpScheme(s) then Some(s)
    else
      var r := Https + s;
      assert StartsWithIgnoreCase(r, Https) by { assert r[..|Https|] == Https; }
      Some(r)
  }

  /** `posterPreview`: the same trimming and scheme rule, computed for the
      preview from the form's current poster URL. */
  function PosterPreview(posterUrl: Option<string>): (r: Option<string>)
    ensures r == NormalizeUrl(posterUrl)
  {
    var s := Text.JsTrim(match posterUrl case Some(p) => p case None => []);
    if s == [] then None
    else if HasHttpScheme(s) then Some(s)
    else Some(Https + s)
  }

  /** Normalising a normalised URL changes nothing: the value the form
      submits is a fixed point. */
  lemma {:induction false} NormalizeUrlIdempotent(u: Option<string>)
    ensures NormalizeUrl(NormalizeUrl(u)) == NormalizeUrl(u)
  {
    var r := NormalizeUrl(u);
    if r.Some? {
      Text.TrimByTrimmed(r.value, Text.IsJsWhiteSpace);
    }
  }

  /** A URL without a scheme gets "https://" in front of its trimmed
      form. */
  lemma MissingSchemeExample()
    ensures NormalizeUrl(Some(" x.io ")) == Some("https://x.io")
  {
    assert Text.IsJsWhiteSpace(' ') && !Text.IsJsWhiteSpace('x') && !Text.IsJsWhiteSpace('o');
    assert " x.io "[1..] == "x.io ";
    assert Text.TrimStart("x.io ", Text.IsJsWhiteSpace) == "x.io ";
    assert "x.io "[..4] == "x.io";
    assert Text.TrimEnd("x.io", Text.IsJsWhiteSpace) == "x.io";
    assert Text.JsTrim(" x.io ") == "x.io";
    assert Text.ToLower("x.io")[0] == 'x';
    assert !HasHttpScheme("x.io");
    assert Https + "x.io" == "https://x.io";
  }

  /** An upper-case scheme passes the case-insensitive test and stays as
      typed. */
  lemma UpperCaseSchemeExample()
    ensures NormalizeUrl(Some("HTTP://x")) == Some("HTTP://x")
  {
    UpperHttpTrimmed();
    UpperHttpHasScheme();
  }

  /** The example has no white space to trim. */
  lemma UpperHttpTrimmed()
    ensures Text.JsTrim("HTTP://x") == "HTTP://x"
  {
    var s := "HTTP://x";
    assert !Text.IsJsWhiteSpace(s[0]) && !Text.IsJsWhiteSpace(s[7]);
    Text.TrimByTrimmed(s, Text.IsJsWhiteSpace);
  }

  /** The example's upper-case scheme passes the case-insensitive test. */
  lemma UpperHttpHasScheme()
    ensures HasHttpScheme("HTTP://x")
  {
    var s := "HTTP://x";
    assert s[..7] == "HTTP://";
    UpperHttpLowers();
    assert StartsWithIgnoreCase(s, Http);
  }

  /** The upper-case scheme lower-cases to the lower-case one. */
  lemma UpperHttpLowers()
    ensures Text.ToLower("HTTP://") == Http
  {
    var l := Text.ToLower("HTTP://");
    assert Text.ToLowerChar('H') == 'h' && Text.ToLowerChar('T') == 't' && Text.ToLowerChar('P') == 'p';
    assert Text.ToLowerChar(':') == ':' && Text.ToLowerChar('/') == '/';
    assert l[0] == 'h' && l[1] == 't' && l[2] == 't' && l[3] == 'p';
    assert l[4] == ':' && l[5] == '/' && l[6] == '/';
    assert Text.ToLower(Http) == Http by {
      assert forall i | 0 <= i < |Http| :: Text.ToLowerChar(Http[i]) == Http[i];
    }
  }

  /** A blank URL gives nothing. */
  lemma BlankExample()
    ensures NormalizeUrl(Some("   ")) == None
  {
    Text.TrimByEmpty("   ", Text.IsJsWhiteSpace);
  }
}

=== FILE: dtos.dfy ===
/** The request bodies of the movie and review endpoints and the validation
    attributes declared on them. The framework checks these attributes before
    a service runs; the services themselves take the request as it is.

    `[Required]` on a string refuses null, empty and white-space-only text;
    `[StringLength(n)]` bounds the length and accepts null; `[Range(a, b)]`
    is an inclusive range. Lengths are counted in characters.
 */
module Dtos {

  import opened Wrappers
  import Text

  /** `[Required]` on a string. */
  predicate RequiredText(s: string) {
    !Text.AllBy(s, Text.IsWhiteSpace)
  }

  /** `[StringLength(n)]` on an optional string. */
  predicate MaxLength(s: Option<string>, n: nat) {
    s.None? || |s.value| <= n
  }

  predicate InRange(v: int, lo: int, hi: int) {
    lo <= v <= hi
  }

  const MaxTitle: nat := 200
  const MaxDescription: nat := 1000
  const MinYear: int := 1888
  const MaxYear: int := 2100
  const MinDuration: int := 1
  const MaxDuration: int := 600

  const MaxReviewTitle: nat := 120
  const MaxReviewBody: nat := 4000
  const MinScore: int := 1
  const MaxScore: int := 10

  /** `CreateMovieDto`. `UploadedByUserId` is carried but only the older
      variant reads it. */
  datatype CreateMovieDto = CreateMovieDto(
    title: string,
    description: string,
    releaseYear: int,
    durationMin: int,
    uploadedByUserId: int,
    genreIds: seq<int>)

  /** `UpdateMovieDto`: the same fields without an uploader. */
  datatype UpdateMovieDto = UpdateMovieDto(
    title: string,
    description: string,
    releaseYear: int,
    durationMin: int,
    genreIds: seq<int>)

  datatype CreateReviewDto = CreateReviewDto(
    movieId: int,
    userId: int,
    score: int,
    title: Option<string>,
    body: Option<string>)

  datatype UpdateReviewDto = UpdateReviewDto(
    score: int,
    title: Option<string>,
    body: Option<string>)

  /** The movie fields both movie requests validate alike. */
  predicate ValidMovieFields(title: string, description: string, releaseYear: int, durationMin: int) {
    && RequiredText(title) && |title| <= MaxTitle
    && RequiredText(description) && |description| <= MaxDescription
    && InRange(releaseYear, MinYear, MaxYear)
    && InRange(durationMin, MinDuration, MaxDuration)
  }

  /** The attributes of `CreateMovieDto`; the genre list may be empty. */
  predicate ValidCreateMovie(dto: CreateMovieDto) {
    ValidMovieFields(dto.title, dto.description, dto.releaseYear, dto.durationMin)
  }

  predicate ValidUpdateMovie(dto: UpdateMovieDto) {
    ValidMovieFields(dto.title, dto.description, dto.releaseYear, dto.durationMin)
  }

  /** The review fields both review requests validate alike. */
  predicate ValidReviewFields(score: int, title: Option<string>, body: Option<string>) {
    && InRange(score, MinScore, MaxScore)
    && MaxLength(title, MaxReviewTitle)
    && MaxLength(body, MaxReviewBody)
  }

  /** The attributes of `CreateReviewDto`; the two ids are plain integers, so
      `[Required]` never refuses them. */
  predicate ValidCreateReview(dto: CreateReviewDto) {
    ValidReviewFields(dto.score, dto.title, dto.body)
  }

  predicate ValidUpdateReview(dto: UpdateReviewDto) {
    ValidReviewFields(dto.score, dto.title, dto.body)
  }

  /** Optional text as the services store it: trimmed when present. */
  function TrimOpt(s: Option<string>): (r: Option<string>)
    ensures r.None? <==> s.None?
    ensures MaxLength(s, MaxReviewTitle) ==> MaxLength(r, MaxReviewTitle)
    ensures MaxLength(s, MaxReviewBody) ==> MaxLength(r, MaxReviewBody)
  {
    match s
    case None => None
    case Some(t) => Some(Text.Trim(t))
  }

  /** Trimming keeps a valid title or description within its bound, and a
      required text stays non-empty. */
  lemma TrimKeepsRequired(s: string, n: nat)
    requires RequiredText(s) && |s| <= n
    ensures |Text.Trim(s)| <= n
    ensures Text.Trim(s) != []
  {
    Text.TrimByEmpty(s, Text.IsWhiteSpace);
  }

  /** Trimming the text fields of valid movie fields leaves them valid. */
  lemma {:induction false} TrimKeepsMovieFields(title: string, description: string, releaseYear: int, durationMin: int)
    requires ValidMovieFields(title, description, releaseYear, durationMin)
    ensures ValidMovieFields(Text.Trim(title), Text.Trim(description), releaseYear, durationMin)
  {
    TrimKeepsRequired(title, MaxTitle);
    TrimKeepsRequired(description, MaxDescription);
    assert !Text.IsWhiteSpace(Text.Trim(title)[0]);
    assert !Text.IsWhiteSpace(Text.Trim(description)[0]);
  }
}

=== FILE: genre_picker.dfy ===
/** The movie form's genre picker: the chips of the genres chosen so far
    (`selected`), the search suggestions (`suggestions`), and the `add` and
    `remove` handlers that compute the new list of chosen ids.
 */
module GenrePicker {

  import opened Wrappers
  import Seqs
  import Text

  /** A genre as the client receives it. */
  datatype GenreOption = GenreOption(id: int, name: string)

  /** At most this many suggestions are shown. */
  const MaxSuggestions: nat := 8

  /** The ids of `gs`, in order. */
  function IdsOf(gs: seq<GenreOption>): (r: seq<int>)
    ensures |r| == |gs| && forall i | 0 <= i < |gs| :: r[i] == gs[i].id
  {
    seq(|gs|, i requires 0 <= i < |gs| => gs[i].id)
  }

  /** Where `all.find(g => g.id === id)` stops: the first position holding
      a genre with that id, if any. */
  function FindIndex(all: seq<GenreOption>, id: int): (r: Option<nat>)
    ensures r.None? <==> id !in IdsOf(all)
    ensures r.Some? ==>
              && r.value < |all| && all[r.value].id == id
              && forall j | 0 <= j < r.value :: all[j].id != id
  {
    if all == [] then None
    else if all[0].id == id then Some(0)
    else
      match FindIndex(all[1..], id)
      case None => None
      case Some(k) => Some(k + 1)
  }

  /** `all.find(g => g.id === id)`. */
  function Find(all: seq<GenreOption>, id: int): (r: Option<GenreOption>)
    ensures r.None? <==> id !in IdsOf(all)
    ensures r.Some? ==> r.value in all && r.value.id == id
  {
    match FindIndex(all, id)
    case None => None
    case Some(k) => Some(all[k])
  }

  /** The ids `all` knows. */
  function Known(all: seq<GenreOption>): int -> bool {
    (id: int) => id in IdsOf(all)
  }

  /** `selected`: each chosen id mapped to its genre, in the order chosen;
      ids that name no known genre are dropped. */
  function Selected(all: seq<GenreOption>, value: seq<int>): (r: seq<GenreOption>)
    ensures IdsOf(r) == Seqs.Filter(value, Known(all))
    ensures forall i | 0 <= i < |r| :: Find(all, r[i].id) == Some(r[i])
  {
    if value == [] then []
    else
      var rest := Selected(all, value[1..]);
      Seqs.FilterHead(value, Known(all));
      match Find(all, value[0])
      case None => rest
      case Some(g) =>
        assert IdsOf([g] + rest) == [g.id] + IdsOf(rest);
        [g] + rest
  }

  /** The lower-cased, trimmed search text. */
  function Needle(q: string): string {
    Text.ToLower(Text.JsTrim(q))
  }

  /** `g` is offered for the search `q` when some is typed and the genre's
      lower-cased name contains it. */
  predicate Offered(g: GenreOption, q: string) {
    Needle(q) != [] && Text.Contains(Text.ToLower(g.name), Needle(q))
  }

  /** The first filter of `suggestions`: not chosen yet. */
  function NotIn(value: seq<int>): GenreOption -> bool {
    (g: GenreOption) => g.id !in value
  }

  /** The second filter of `suggestions`: a blank search matches nothing,
      as the empty string is falsy. */
  function Matching(q: string): GenreOption -> bool {
    (g: GenreOption) => if Needle(q) != [] then Text.Contains(Text.ToLower(g.name), Needle(q)) else false
  }

  /** Every genre `suggestions` could offer, before the cut to eight. */
  function Candidates(all: seq<GenreOption>, value: seq<int>, q: string): (r: seq<GenreOption>)
    ensures forall g :: g in r <==> g in all && g.id !in value && Offered(g, q)
    ensures Seqs.SubsequenceOf(r, all)
  {
    var r := Seqs.Filter(Seqs.Filter(all, NotIn(value)), Matching(q));
    Seqs.FilterFilter(all, NotIn(value), Matching(q));
    Seqs.FilterIsSubsequence(all, Seqs.Both(NotIn(value), Matching(q)));
    Seqs.FilterCount(all, Seqs.Both(NotIn(value), Matching(q)));
    assert forall g :: g in r <==> g in multiset(r);
    r
  }

  /** `suggestions`: the genres not chosen yet whose name contains the
      search text, in the order of `all`, at most eight of them; none for a
      blank search. */
  function Suggestions(all: seq<GenreOption>, value: seq<int>, q: string): (r: seq<GenreOption>)
    ensures |r| <= MaxSuggestions
    ensures var hits := Candidates(all, value, q);
            r == hits[..if |hits| < MaxSuggestions then |hits| else MaxSuggestions]
    ensures Text.JsTrim(q) == [] ==> r == []
    ensures forall i | 0 <= i < |r| :: r[i] in all && r[i].id !in value && Offered(r[i], q)
    ensures Seqs.SubsequenceOf(r, all)
    ensures |r| < MaxSuggestions ==>
              forall g | g in all && g.id !in value && Offered(g, q) :: g in r
  {
    var hits := Candidates(all, value, q);
    var r := Seqs.Take(hits, MaxSuggestions);
    Seqs.PrefixOfSubsequence(hits, all, |r|);
    assert forall i | 0 <= i < |r| :: r[i] in hits;
    r
  }

  /** `add`: `[...new Set([...value, id])]`, the chosen ids with `id` at the
      end, each id once, first occurrences kept. */
  function Add(value: seq<int>, id: int): (r: seq<int>)
    ensures Seqs.NoDup(r)
    ensures forall x :: x in r <==> x in value || x == id
    ensures Seqs.NoDup(value) ==> r == if id in value then value else value + [id]
  {
    Seqs.DedupSnoc(value, id);
    assert Seqs.NoDup(value) ==> Seqs.Dedup(value) == value by {
      if Seqs.NoDup(value) { Seqs.DedupNoDup(value); }
    }
    Seqs.Dedup(value + [id])
  }

  /** The test that keeps every id but `id`. */
  function Except(id: int): int -> bool {
    (v: int) => v != id
  }

  /** `remove`: every occurrence of `id` dropped, the other ids kept in
      order. */
  function Remove(value: seq<int>, id: int): (r: seq<int>)
    ensures id !in r
    ensures forall x | x != id :: multiset(r)[x] == multiset(value)[x]
    ensures Seqs.SubsequenceOf(r, value)
  {
    Seqs.FilterIsSubsequence(value, Except(id));
    Seqs.FilterCount(value, Except(id));
    Seqs.Filter(value, Except(id))
  }

  /** Removing an id just added to a list without it gives the list back. */
  lemma {:induction false} RemoveUndoesAdd(value: seq<int>, id: int)
    requires Seqs.NoDup(value) && id !in value
    ensures Remove(Add(value, id), id) == value
  {
    Seqs.FilterConcat(value, [id], Except(id));
    Seqs.FilterAll(value, Except(id));
  }

  /** Adding an id twice is adding it once. */
  lemma AddIdempotent(value: seq<int>, id: int)
    ensures Add(Add(value, id), id) == Add(value, id)
  {
  }

  /** A genre just added is no longer suggested, and a genre just removed
      is no longer shown as chosen. */
  lemma PickedLeavesSuggestions(all: seq<GenreOption>, value: seq<int>, id: int, q: string)
    ensures id !in IdsOf(Suggestions(all, Add(value, id), q))
    ensures id !in IdsOf(Selected(all, Remove(value, id)))
  {
    var s := Selected(all, Remove(value, id));
    Seqs.FilterCount(Remove(value, id), Known(all));
    assert id in IdsOf(s) ==> id in multiset(Seqs.Filter(Remove(value, id), Known(all)));
  }
}

=== FILE: genres.dfy ===
/** `GenreService` of the older backend: listing, reading, creating,
    renaming and deleting genres.

    The service means to keep genre names unique (it refuses a name that
    another genre has), but it checks the name as sent and stores it
    trimmed, so a padded copy of an existing name slips through. The
    members named `AsWritten` model that; the rest of the model uses the
    corrected operations, which check the trimmed name.
 */
module Genres {

  import opened Wrappers
  import opened Store
  import Text
  import Seqs
  import Views
  import Repositories

  /** No two genres share a name: what the conflict checks aim for. */
  ghost predicate UniqueGenreNames(s: Store) {
    forall a, b | a in s.genres.rows && b in s.genres.rows &&
      s.genres.rows[a].name == s.genres.rows[b].name :: a == b
  }

  predicate Matches(s: Store, q: Option<string>, g: int)
    requires g in s.genres.rows
  {
    Text.IsNullOrWhiteSpace(q) || Text.Contains(s.genres.rows[g].name, q.value)
  }

  function Name(s: Store): int -> string {
    (g: int) => if g in s.genres.rows then s.genres.rows[g].name else []
  }

  /** The ids `ListAsync` returns, by ascending name: every genre whose
      name contains a non-blank `q`, once. */
  function ListIds(s: Store, q: Option<string>): (r: seq<int>)
    ensures forall g :: multiset(r)[g] == if g in s.genres.rows && Matches(s, q, g) then 1 else 0
    ensures forall i | 0 <= i < |r| :: r[i] in s.genres.rows && Matches(s, q, r[i])
    ensures forall i | 0 <= i < |r| - 1 ::
              Text.StrLe(s.genres.rows[r[i]].name, s.genres.rows[r[i + 1]].name)
  {
    Views.AscByTextTotal(Name(s));
    var r := Seqs.SelectSorted(s.genres.rows.Keys, g => g in s.genres.rows && Matches(s, q, g),
      Views.AscByText(Name(s)));
    assert forall i | 0 <= i < |r| - 1 :: Views.AscByText(Name(s))(r[i], r[i + 1]);
    r
  }

  /** `ListAsync`. */
  function List(s: Store, q: Option<string>): (r: seq<Views.GenreItem>)
    ensures |r| == |ListIds(s, q)|
    ensures forall i | 0 <= i < |r| :: r[i] == Views.ToGenreItem(s, ListIds(s, q)[i])
  {
    var ids := ListIds(s, q);
    Seqs.Map(ids, (g: int) requires g in s.genres.rows => Views.ToGenreItem(s, g))
  }

  /** `GetAsync`. */
  function Get(s: Store, id: int): (r: Option<Views.GenreItem>)
    ensures r.None? <==> id !in s.genres.rows
    ensures r.Some? ==> r.value == Views.GenreItem(id, s.genres.rows[id].name)
  {
    match Repositories.FindById(s.genres, id)
    case None => None
    case Some(_) => Some(Views.ToGenreItem(s, id))
  }

  // ----- as written: the check looks at the name as sent -----

  /** `CreateAsync` as written: refuses a name some genre has exactly, then
      stores the trimmed name. */
  function CreateAsWritten(s: Store, name: string, now: nat): (r: Result<(Store, Views.GenreItem)>)
    requires s.genres.Valid()
    ensures r.Err? <==> exists g | g in s.genres.rows :: s.genres.rows[g].name == name
    ensures r.Err? ==> r.error == Conflict
    ensures r.Ok? ==>
              && r.value.1.id !in s.genres.rows
              && r.value.0.genres.rows == s.genres.rows[r.value.1.id := Genre(Text.Trim(name), None, now)]
  {
    if Repositories.ExistsByName(s, name, None) then Err(Conflict)
    else
      var (genres, id) := s.genres.Insert(Genre(Text.Trim(name), None, now));
      Ok((s.(genres := genres), Views.GenreItem(id, Text.Trim(name))))
  }

  /** `UpdateAsync` as written: `false` for a missing id; refuses a name
      another genre has exactly, then stores the trimmed name. */
  function UpdateAsWritten(s: Store, id: int, name: string): (r: Result<(Store, bool)>)
    ensures id !in s.genres.rows ==> r == Ok((s, false))
    ensures r.Err? <==>
              id in s.genres.rows && exists g | g in s.genres.rows && g != id :: s.genres.rows[g].name == name
    ensures r.Ok? && r.value.1 ==>
              r.value.0.genres.rows == s.genres.rows[id := s.genres.rows[id].(name := Text.Trim(name))]
  {
    match Repositories.FindById(s.genres, id)
    case None => Ok((s, false))
    case Some(g) =>
      if Repositories.ExistsByName(s, name, Some(id)) then Err(Conflict)
      else Ok((s.(genres := s.genres.Put(id, g.(name := Text.Trim(name)))), true))
  }

  /** "Drama" has no white space at either end, so `Trim` keeps it. */
  lemma TrimDrama()
    ensures Text.TrimStart("Drama", Text.IsWhiteSpace) == "Drama"
    ensures Text.TrimEnd("Drama", Text.IsWhiteSpace) == "Drama"
  {
    assert !Text.IsWhiteSpace('D') && !Text.IsWhiteSpace('a');
  }

  /** A leading space is what `Trim` removes. */
  lemma TrimPadded()
    ensures Text.Trim(" Drama") == "Drama"
  {
    TrimDrama();
    assert Text.IsWhiteSpace(' ') && !Text.IsWhiteSpace('D');
    assert " Drama"[1..] == "Drama";
    assert Text.TrimStart(" Drama", Text.IsWhiteSpace) == "Drama";
  }

  /** The store with one genre "Drama". */
  const OneGenre: Store :=
    Seeded.(genres := Table(map[1 := Genre("Drama", None, 0)], 2))

  /** Creating " Drama" next to "Drama" passes the check and leaves two
      genres named "Drama". */
  lemma CreateAsWrittenDuplicates()
    ensures CreateAsWritten(OneGenre, " Drama", 1).Ok?
    ensures var t := CreateAsWritten(OneGenre, " Drama", 1).value.0;
            1 in t.genres.rows && 2 in t.genres.rows &&
            t.genres.rows[1].name == t.genres.rows[2].name == "Drama"
    ensures UniqueGenreNames(OneGenre)
    ensures !UniqueGenreNames(CreateAsWritten(OneGenre, " Drama", 1).value.0)
  {
    CreatePasses();
    TrimPadded();
    var t := CreateAsWritten(OneGenre, " Drama", 1).value.0;
    assert t.genres.rows[2].name == "Drama";
    assert t.genres.rows[1].name == "Drama";
  }

  /** The create check finds no genre named " Drama"; the new genre gets
      the next id. */
  lemma CreatePasses()
    ensures CreateAsWritten(OneGenre, " Drama", 1).Ok?
    ensures CreateAsWritten(OneGenre, " Drama", 1).value.1.id == 2
  {
    assert |" Drama"| != |"Drama"|;
    assert !Repositories.ExistsByName(OneGenre, " Drama", None);
  }

  /** Renaming a second genre to " Drama" next to "Drama" passes the check
      and leaves two genres named "Drama". */
  lemma UpdateAsWrittenDuplicates()
    ensures UniqueGenreNames(TwoGenres)
    ensures UpdateAsWritten(TwoGenres, 2, " Drama").Ok?
    ensures !UniqueGenreNames(UpdateAsWritten(TwoGenres, 2, " Drama").value.0)
  {
    RenamePasses();
    TrimPadded();
    var t := UpdateAsWritten(TwoGenres, 2, " Drama").value.0;
    assert t.genres.rows[2].name == "Drama";
    assert t.genres.rows[1].name == "Drama";
  }

  /** The store with two genres, "Drama" and "Comedy". */
  const TwoGenres: Store :=
    OneGenre.(genres := Table(OneGenre.genres.rows[2 := Genre("Comedy", None, 0)], 3))

  /** The rename check finds no other genre named " Drama". */
  lemma RenamePasses()
    ensures UpdateAsWritten(TwoGenres, 2, " Drama").Ok?
    ensures UpdateAsWritten(TwoGenres, 2, " Drama").value.1
  {
    assert |" Drama"| != |"Drama"|;
    assert !Repositories.ExistsByName(TwoGenres, " Drama", Some(2));
  }

  // ----- corrected: the check looks at the name that is stored -----

  /** `CreateAsync` checking the name it stores: refuses a name that, once
      trimmed, some genre has; otherwise adds the genre with the trimmed
      name. Genre names stay unique. */
  function Create(s: Store, name: string, now: nat): (r: Result<(Store, Views.GenreItem)>)
    requires s.genres.Valid()
    ensures r.Err? <==> exists g | g in s.genres.rows :: s.genres.rows[g].name == Text.Trim(name)
    ensures r.Err? ==> r.error == Conflict
    ensures r.Ok? ==>
              var (t, item) := r.value;
              && item.id !in s.genres.rows
              && t.genres.rows == s.genres.rows[item.id := Genre(Text.Trim(name), None, now)]
              && Get(t, item.id) == Some(item)
              && t.users == s.users && t.movies == s.movies && t.reviews == s.reviews && t.tokens == s.tokens
    ensures r.Ok? && UniqueGenreNames(s) ==> UniqueGenreNames(r.value.0)
    ensures r.Ok? && Valid(s) ==> Valid(r.value.0)
  {
    var clean := Text.Trim(name);
    if Repositories.ExistsByName(s, clean, None) then Err(Conflict)
    else
      var (genres, id) := s.genres.Insert(Genre(clean, None, now));
      var t := s.(genres := genres);
      assert Valid(s) ==> Valid(t) by {
        if Valid(s) { InsertGenreKeepsValid(s, Genre(clean, None, now)); }
      }
      Ok((t, Views.GenreItem(id, clean)))
  }

  /** `UpdateAsync` checking the name it stores: `false` for a missing id;
      refuses a name that, once trimmed, another genre has; otherwise
      renames the genre. Genre names stay unique. */
  function Update(s: Store, id: int, name: string): (r: Result<(Store, bool)>)
    ensures id !in s.genres.rows ==> r == Ok((s, false))
    ensures r.Err? <==>
              id in s.genres.rows &&
              exists g | g in s.genres.rows && g != id :: s.genres.rows[g].name == Text.Trim(name)
    ensures r.Err? ==> r.error == Conflict
    ensures r.Ok? ==> (r.value.1 <==> id in s.genres.rows)
    ensures r.Ok? && r.value.1 ==>
              var t := r.value.0;
              && t.genres.rows == s.genres.rows[id := s.genres.rows[id].(name := Text.Trim(name))]
              && Get(t, id) == Some(Views.GenreItem(id, Text.Trim(name)))
              && t.users == s.users && t.movies == s.movies && t.reviews == s.reviews && t.tokens == s.tokens
    ensures r.Ok? && UniqueGenreNames(s) ==> UniqueGenreNames(r.value.0)
    ensures r.Ok? && Valid(s) ==> Valid(r.value.0)
  {
    match Repositories.FindById(s.genres, id)
    case None => Ok((s, false))
    case Some(g) =>
      var clean := Text.Trim(name);
      if Repositories.ExistsByName(s, clean, Some(id)) then Err(Conflict)
      else
        var t := s.(genres := s.genres.Put(id, g.(name := clean)));
        assert Valid(s) ==> Valid(t) by {
          if Valid(s) { PutGenreKeepsValid(s, id, g.(name := clean)); }
        }
        Ok((t, true))
  }

  /** `DeleteAsync`: `false` for a missing id; otherwise the genre and every
      movie's link to it are gone. */
  function Delete(s: Store, id: int): (r: (Store, bool))
    ensures r.1 <==> id in s.genres.rows
    ensures !r.1 ==> r.0 == s
    ensures Get(r.0, id).None?
    ensures r.1 ==> forall m | m in r.0.movies.rows :: id !in r.0.movies.rows[m].genres
    ensures UniqueGenreNames(s) ==> UniqueGenreNames(r.0)
    ensures Valid(s) ==> Valid(r.0)
  {
    match Repositories.FindById(s.genres, id)
    case None => (s, false)
    case Some(_) => (RemoveGenre(s, id), true)
  }

  /** A genre just created cannot be created again, in any padding. */
  lemma CreateTwiceConflicts(s: Store, name: string, padded: string, now: nat, later: nat)
    requires s.genres.Valid()
    requires Text.Trim(padded) == Text.Trim(name)
    requires Create(s, name, now).Ok?
    ensures Create(Create(s, name, now).value.0, padded, later) == Err(Conflict)
  {
    var (t, item) := Create(s, name, now).value;
    assert t.genres.rows[item.id].name == Text.Trim(padded);
  }
}

=== FILE: legacy_movies.dfy ===
/** `MovieService` of the older backend, which has no authorization and no
    moderation: every movie is listed whatever its status, the request names
    the uploader, and the genre ids are checked before anything is written.
 */
module LegacyMovies {

  import opened Wrappers
  import opened Store
  import Text
  import Seqs
  import Views
  import Dtos
  import Repositories

  /** The filters of `ListAsync`: a genre id must be linked; a non-blank `q`
      must occur in the title or in the description. */
  predicate Matches(s: Store, genreId: Option<int>, q: Option<string>, m: int)
    requires m in s.movies.rows
  {
    var movie := s.movies.rows[m];
    && (genreId.None? || genreId.value in movie.genres)
    && (Text.IsNullOrWhiteSpace(q) || Text.Contains(movie.title, q.value) ||
        Text.Contains(movie.description, q.value))
  }

  function Title(s: Store): int -> string {
    (m: int) => if m in s.movies.rows then s.movies.rows[m].title else []
  }

  function ReleaseYear(s: Store): int -> int {
    (m: int) => if m in s.movies.rows then s.movies.rows[m].releaseYear else 0
  }

  function Rating(s: Store): int -> real {
    (m: int) => Views.MovieAverage(s, m)
  }

  /** The order `sort` selects: "rating" is the best average first, "date"
      the latest release year first, both with ties by title; anything else,
      `null` included, is by title. */
  function Order(s: Store, sort: Option<string>): (int, int) -> bool {
    if sort == Some("rating") then Views.DescRealThenText(Rating(s), Title(s))
    else if sort == Some("date") then Views.DescThenText(ReleaseYear(s), Title(s))
    else Views.AscByText(Title(s))
  }

  lemma OrderTotal(s: Store, sort: Option<string>)
    ensures Seqs.Total(Order(s, sort))
  {
    Views.DescRealThenTextTotal(Rating(s), Title(s));
    Views.DescThenTextTotal(ReleaseYear(s), Title(s));
    Views.AscByTextTotal(Title(s));
  }

  /** The ids `ListAsync` returns: every movie that passes the filters, once,
      in the order `sort` selects. */
  function ListIds(s: Store, genreId: Option<int>, q: Option<string>, sort: Option<string>): (r: seq<int>)
    ensures forall m :: multiset(r)[m] == if m in s.movies.rows && Matches(s, genreId, q, m) then 1 else 0
    ensures forall i | 0 <= i < |r| ::
              && r[i] in s.movies.rows
              && (genreId.Some? ==> genreId.value in s.movies.rows[r[i]].genres)
              && (!Text.IsNullOrWhiteSpace(q) ==>
                    Text.Contains(s.movies.rows[r[i]].title, q.value) ||
                    Text.Contains(s.movies.rows[r[i]].description, q.value))
    ensures Seqs.Sorted(r, Order(s, sort))
  {
    OrderTotal(s, sort);
    var le := Order(s, sort);
    Seqs.SelectSorted(s.movies.rows.Keys, m => m in s.movies.rows && Matches(s, genreId, q, m), le)
  }

  /** What `Order` means for each sort mode, for two movies of which the
      first may precede the second (`ListIds` is sorted by it). */
  lemma OrderMeans(s: Store, sort: Option<string>, x: int, y: int)
    requires x in s.movies.rows && y in s.movies.rows
    requires Order(s, sort)(x, y)
    ensures var a := s.movies.rows[x];
            var b := s.movies.rows[y];
            && (sort == Some("rating") ==>
                  || Views.MovieAverage(s, x) > Views.MovieAverage(s, y)
                  || (Views.MovieAverage(s, x) == Views.MovieAverage(s, y) && Text.StrLe(a.title, b.title)))
            && (sort == Some("date") ==>
                  || a.releaseYear > b.releaseYear
                  || (a.releaseYear == b.releaseYear && Text.StrLe(a.title, b.title)))
            && (sort != Some("rating") && sort != Some("date") ==> Text.StrLe(a.title, b.title))
  {
    if sort == Some("rating") {
      assert Views.DescRealThenText(Rating(s), Title(s))(x, y);
    } else if sort == Some("date") {
      assert Views.DescThenText(ReleaseYear(s), Title(s))(x, y);
    } else {
      assert Views.AscByText(Title(s))(x, y);
    }
  }

  /** `ListAsync`: the list items of `ListIds`, in that order. */
  function List(s: Store, genreId: Option<int>, q: Option<string>, sort: Option<string>): (r: seq<Views.MovieListItem>)
    ensures |r| == |ListIds(s, genreId, q, sort)|
    ensures forall i | 0 <= i < |r| :: r[i] == Views.ToListItem(s, ListIds(s, genreId, q, sort)[i])
  {
    var ids := ListIds(s, genreId, q, sort);
    Seqs.Map(ids, (m: int) requires m in s.movies.rows => Views.ToListItem(s, m))
  }

  /** `GetAsync`: the details, or nothing for a missing id. */
  function Get(s: Store, id: int): (r: Option<Views.MovieDetails>)
    ensures r.None? <==> id !in s.movies.rows
    ensures r.Some? ==> r.value == Views.ToDetails(s, id)
  {
    match Repositories.FindById(s.movies, id)
    case None => None
    case Some(_) => Some(Views.ToDetails(s, id))
  }

  /** The genre links a request asks for: its ids without repetitions. */
  function Links(genreIds: seq<int>): (r: set<int>)
    ensures forall g :: g in r <==> g in genreIds
  {
    var distinct := Seqs.Dedup(genreIds);
    set g | g in distinct
  }

  /** `CreateAsync`: every genre id must exist (`Validation`); no other
      movie may have the trimmed title and the release year (`Conflict`);
      then the movie is added as Pending with the request's uploader, whose
      row the store requires. The answer is what `GetAsync` then returns
      on the same, still tracked, movie: its genre ids in request order
      without repetitions. A later read lists the same ids ascending. */
  function Create(s: Store, dto: Dtos.CreateMovieDto, now: nat): (r: Result<(Store, Views.MovieDetails)>)
    requires s.movies.Valid()
    ensures r == Err(Validation) <==>
              exists i | 0 <= i < |dto.genreIds| :: dto.genreIds[i] !in s.genres.rows
    ensures r == Err(Conflict) <==>
              && (forall i | 0 <= i < |dto.genreIds| :: dto.genreIds[i] in s.genres.rows)
              && exists m | m in s.movies.rows ::
                   s.movies.rows[m].title == Text.Trim(dto.title) &&
                   s.movies.rows[m].releaseYear == dto.releaseYear
    ensures r == Err(StoreRejected) <==>
              && (forall i | 0 <= i < |dto.genreIds| :: dto.genreIds[i] in s.genres.rows)
              && !Repositories.ExistsTitleYear(s, Text.Trim(dto.title), dto.releaseYear, None)
              && dto.uploadedByUserId !in s.users.rows
    ensures r.Err? ==> r.error in {Validation, Conflict, StoreRejected}
    ensures r.Ok? ==>
              var (t, details) := r.value;
              var id := details.id;
              && id !in s.movies.rows
              && t.movies.rows.Keys == s.movies.rows.Keys + {id}
              && (forall m | m in s.movies.rows :: t.movies.rows[m] == s.movies.rows[m])
              && t.movies.rows[id] == Movie(Text.Trim(dto.title), Text.Trim(dto.description),
                   dto.releaseYear, dto.durationMin, Pending, dto.uploadedByUserId, Links(dto.genreIds), now)
              && details.genreIds == Seqs.Dedup(dto.genreIds)
              && Get(t, id) == Some(details.(genreIds := Seqs.Enumerate(Links(dto.genreIds))))
              && multiset(details.genreIds) == multiset(Get(t, id).value.genreIds)
              && t.users == s.users && t.genres == s.genres && t.reviews == s.reviews && t.tokens == s.tokens
    ensures r.Ok? && Valid(s) ==> Valid(r.value.0)
  {
    if !Repositories.GenresExist(s, Some(dto.genreIds)) then Err(Validation)
    else if Repositories.ExistsTitleYear(s, Text.Trim(dto.title), dto.releaseYear, None) then Err(Conflict)
    else if dto.uploadedByUserId !in s.users.rows then Err(StoreRejected)
    else
      var movie := Movie(Text.Trim(dto.title), Text.Trim(dto.description), dto.releaseYear,
        dto.durationMin, Pending, dto.uploadedByUserId, Links(dto.genreIds), now);
      var (movies, id) := s.movies.Insert(movie);
      var t := s.(movies := movies);
      assert Valid(s) ==> Valid(t) by {
        if Valid(s) {
          InsertMovieKeepsValid(s, movie);
        }
      }
      var requested := Seqs.Dedup(dto.genreIds);
      Seqs.NoDupMultiset(requested);
      assert (set g | g in requested) == Links(dto.genreIds);
      Ok((t, Views.ToDetails(t, id).(genreIds := requested)))
  }

  /** `UpdateAsync`: the genre ids and the title/year uniqueness (leaving
      this movie out) are checked before the movie is looked up; then
      `false` for a missing id; otherwise the text fields are trimmed and
      replaced and the genre links become exactly the requested ones. The
      status and the uploader stay. */
  function Update(s: Store, id: int, dto: Dtos.UpdateMovieDto): (r: Result<(Store, bool)>)
    ensures r == Err(Validation) <==>
              exists i | 0 <= i < |dto.genreIds| :: dto.genreIds[i] !in s.genres.rows
    ensures r == Err(Conflict) <==>
              && (forall i | 0 <= i < |dto.genreIds| :: dto.genreIds[i] in s.genres.rows)
              && exists m | m in s.movies.rows && m != id ::
                   s.movies.rows[m].title == Text.Trim(dto.title) &&
                   s.movies.rows[m].releaseYear == dto.releaseYear
    ensures r.Err? ==> r.error in {Validation, Conflict}
    ensures r.Ok? ==> (r.value.1 <==> id in s.movies.rows)
    ensures r.Ok? && !r.value.1 ==> r.value.0 == s
    ensures r.Ok? && r.value.1 ==>
              var t := r.value.0;
              var before := s.movies.rows[id];
              && t.movies.rows.Keys == s.movies.rows.Keys
              && (forall m | m in s.movies.rows && m != id :: t.movies.rows[m] == s.movies.rows[m])
              && t.movies.rows[id] == before.(
                   title := Text.Trim(dto.title),
                   description := Text.Trim(dto.description),
                   releaseYear := dto.releaseYear,
                   durationMin := dto.durationMin,
                   genres := Links(dto.genreIds))
              && t.users == s.users && t.genres == s.genres && t.reviews == s.reviews && t.tokens == s.tokens
    ensures r.Ok? && Valid(s) ==> Valid(r.value.0)
  {
    if !Repositories.GenresExist(s, Some(dto.genreIds)) then Err(Validation)
    else if Repositories.ExistsTitleYear(s, Text.Trim(dto.title), dto.releaseYear, Some(id)) then Err(Conflict)
    else match Repositories.FindById(s.movies, id)
      case None => Ok((s, false))
      case Some(movie) =>
        var edited := movie.(
          title := Text.Trim(dto.title),
          description := Text.Trim(dto.description),
          releaseYear := dto.releaseYear,
          durationMin := dto.durationMin,
          genres := Links(dto.genreIds));
        assert Valid(s) ==> Valid(s.(movies := s.movies.Put(id, edited))) by {
          if Valid(s) {
            PutMovieKeepsValid(s, id, edited);
          }
        }
        Ok((s.(movies := s.movies.Put(id, edited)), true))
  }

  /** `DeleteAsync`: `false` for a missing id; otherwise the movie and its
      reviews are gone. */
  function Delete(s: Store, id: int): (r: (Store, bool))
    ensures r.1 <==> id in s.movies.rows
    ensures !r.1 ==> r.0 == s
    ensures Get(r.0, id).None?
    ensures r.1 ==> forall x | x in r.0.reviews.rows :: r.0.reviews.rows[x].movieId != id
    ensures Valid(s) ==> Valid(r.0)
  {
    match Repositories.FindById(s.movies, id)
    case None => (s, false)
    case Some(_) => (RemoveMovie(s, id), true)
  }

  /** `ReviewForMovieDto`. */
  datatype MovieReview = MovieReview(id: int, userId: int, score: int,
    title: Option<string>, body: Option<string>, createdAt: nat)

  /** `MovieReviewsDto`. */
  datatype MovieReviews = MovieReviews(movieId: int, reviews: seq<MovieReview>)

  function CreatedAt(s: Store): int -> int {
    (x: int) => if x in s.reviews.rows then s.reviews.rows[x].createdAt else 0
  }

  /** The review ids of movie `id`, newest first. */
  function ReviewIds(s: Store, id: int): (r: seq<int>)
    ensures forall x :: multiset(r)[x] ==
              if x in s.reviews.rows && s.reviews.rows[x].movieId == id then 1 else 0
    ensures forall i | 0 <= i < |r| :: r[i] in s.reviews.rows && s.reviews.rows[r[i]].movieId == id
    ensures forall i | 0 <= i < |r| - 1 ::
              s.reviews.rows[r[i]].createdAt >= s.reviews.rows[r[i + 1]].createdAt
  {
    Views.DescByTotal(CreatedAt(s));
    var r := Seqs.SelectSorted(s.reviews.rows.Keys,
      x => x in s.reviews.rows && s.reviews.rows[x].movieId == id,
      Views.DescBy(CreatedAt(s)));
    assert forall i | 0 <= i < |r| - 1 :: Views.DescBy(CreatedAt(s))(r[i], r[i + 1]);
    r
  }

  function ToMovieReview(s: Store, x: int, includeText: bool): (r: MovieReview)
    requires x in s.reviews.rows
  {
    var v := s.reviews.rows[x];
    MovieReview(x, v.userId, v.score,
      if includeText then v.title else None,
      if includeText then v.body else None,
      v.createdAt)
  }

  /** `GetReviewsForMovieAsync`: nothing for a missing movie; otherwise its
      reviews, newest first, with title and body only when asked for. */
  function GetReviewsForMovie(s: Store, id: int, includeText: bool): (r: Option<MovieReviews>)
    ensures r.None? <==> id !in s.movies.rows
    ensures r.Some? ==>
              && r.value.movieId == id
              && |r.value.reviews| == |ReviewIds(s, id)|
              && forall i | 0 <= i < |r.value.reviews| ::
                   var x := ReviewIds(s, id)[i];
                   var v := s.reviews.rows[x];
                   && r.value.reviews[i].id == x
                   && r.value.reviews[i].userId == v.userId
                   && r.value.reviews[i].score == v.score
                   && r.value.reviews[i].createdAt == v.createdAt
                   && r.value.reviews[i].title == (if includeText then v.title else None)
                   && r.value.reviews[i].body == (if includeText then v.body else None)
  {
    if !Repositories.MovieExists(s, id) then None
    else
      var ids := ReviewIds(s, id);
      Some(MovieReviews(id, Seqs.Map(ids, (x: int) requires x in s.reviews.rows => ToMovieReview(s, x, includeText))))
  }

  // ----- properties across operations -----

  /** Unlike the backend with authorization, this service never changes a
      movie's status: a movie it creates is Pending and stays so through
      any edit. */
  lemma CreatedMoviesStayPending(s: Store, dto: Dtos.CreateMovieDto, now: nat, update: Dtos.UpdateMovieDto)
    requires s.movies.Valid()
    ensures Create(s, dto, now).Ok? ==>
              var (t, details) := Create(s, dto, now).value;
              && t.movies.rows[details.id].status == Pending
              && (Update(t, details.id, update).Ok? && Update(t, details.id, update).value.1 ==>
                    Update(t, details.id, update).value.0.movies.rows[details.id].status == Pending)
  {
  }

  /** A movie just created cannot be created again: the same title (in
      any padding) and year is a conflict. */
  lemma CreateTwiceConflicts(s: Store, dto: Dtos.CreateMovieDto, now: nat, later: nat)
    requires s.movies.Valid()
    ensures Create(s, dto, now).Ok? ==> Create(Create(s, dto, now).value.0, dto, later) == Err(Conflict)
  {
    if Create(s, dto, now).Ok? {
      var (t, details) := Create(s, dto, now).value;
      assert t.movies.rows[details.id].title == Text.Trim(dto.title);
    }
  }

  /** Resubmitting a movie's own title and year never conflicts with
      itself. */
  lemma UpdateKeepsOwnTitle(s: Store, id: int, dto: Dtos.UpdateMovieDto)
    requires id in s.movies.rows
    requires forall m | m in s.movies.rows && m != id ::
               !(s.movies.rows[m].title == s.movies.rows[id].title &&
                 s.movies.rows[m].releaseYear == s.movies.rows[id].releaseYear)
    requires Text.Trim(dto.title) == s.movies.rows[id].title
    requires dto.releaseYear == s.movies.rows[id].releaseYear
    requires forall i | 0 <= i < |dto.genreIds| :: dto.genreIds[i] in s.genres.rows
    ensures Update(s, id, dto).Ok? && Update(s, id, dto).value.1
  {
  }

  /** The unfiltered list holds every movie once, whatever the order. */
  lemma ListHoldsEveryMovie(s: Store, sort: Option<string>, id: int)
    ensures id in ListIds(s, None, None, sort) <==> Get(s, id).Some?
  {
    var ids := ListIds(s, None, None, sort);
    assert id in ids <==> multiset(ids)[id] > 0;
  }

  /** The sort mode changes the order of the list, not its contents. */
  lemma SortOnlyReorders(s: Store, genreId: Option<int>, q: Option<string>, a: Option<string>, b: Option<string>)
    ensures multiset(ListIds(s, genreId, q, a)) == multiset(ListIds(s, genreId, q, b))
  {
  }
}

=== FILE: legacy_reviews.dfy ===
/** `ReviewService` of the older backend, which has no authorization: any
    caller lists, reads, writes, edits and deletes any review.
 */
module LegacyReviews {

  import opened Wrappers
  import opened Store
  import Seqs
  import Views
  import Dtos
  import Repositories
  import Reviews

  predicate Matches(s: Store, movieId: Option<int>, userId: Option<int>, x: int)
    requires x in s.reviews.rows
  {
    && (movieId.None? || s.reviews.rows[x].movieId == movieId.value)
    && (userId.None? || s.reviews.rows[x].userId == userId.value)
  }

  function CreatedAt(s: Store): int -> int {
    (x: int) => if x in s.reviews.rows then s.reviews.rows[x].createdAt else 0
  }

  /** The ids `ListAsync` returns, newest first: every review of the movie
      and author asked for (either filter may be absent), once. */
  function ListIds(s: Store, movieId: Option<int>, userId: Option<int>): (r: seq<int>)
    ensures forall x :: multiset(r)[x] ==
              if x in s.reviews.rows && Matches(s, movieId, userId, x) then 1 else 0
    ensures forall i | 0 <= i < |r| ::
              && r[i] in s.reviews.rows
              && (movieId.Some? ==> s.reviews.rows[r[i]].movieId == movieId.value)
              && (userId.Some? ==> s.reviews.rows[r[i]].userId == userId.value)
    ensures forall i | 0 <= i < |r| - 1 ::
              s.reviews.rows[r[i]].createdAt >= s.reviews.rows[r[i + 1]].createdAt
  {
    Views.DescByTotal(CreatedAt(s));
    var r := Seqs.SelectSorted(s.reviews.rows.Keys,
      x => x in s.reviews.rows && Matches(s, movieId, userId, x),
      Views.DescBy(CreatedAt(s)));
    assert forall i | 0 <= i < |r| - 1 :: Views.DescBy(CreatedAt(s))(r[i], r[i + 1]);
    r
  }

  /** `ListAsync`: the list items of `ListIds`, in that order. */
  function List(s: Store, movieId: Option<int>, userId: Option<int>): (r: seq<Views.ReviewListItem>)
    ensures |r| == |ListIds(s, movieId, userId)|
    ensures forall i | 0 <= i < |r| :: r[i] == Views.ToReviewItem(s, ListIds(s, movieId, userId)[i])
  {
    var ids := ListIds(s, movieId, userId);
    Seqs.Map(ids, (x: int) requires x in s.reviews.rows => Views.ToReviewItem(s, x))
  }

  /** `GetAsync`: the review, or nothing for a missing id. */
  function Get(s: Store, id: int): (r: Option<Views.ReviewDetails>)
    ensures r.None? <==> id !in s.reviews.rows
    ensures r.Some? ==> r.value == Views.ToReviewDetails(id, s.reviews.rows[id])
  {
    match Repositories.FindById(s.reviews, id)
    case None => None
    case Some(v) => Some(Views.ToReviewDetails(id, v))
  }

  /** `CreateAsync`: the shared checks and insert; the request names the
      author. */
  function Create(s: Store, dto: Dtos.CreateReviewDto, now: nat): (r: Result<(Store, Views.ReviewDetails)>)
    requires s.reviews.Valid()
    ensures r == Reviews.Add(s, dto, now)
    ensures r == Err(Validation) <==> dto.movieId !in s.movies.rows || dto.userId !in s.users.rows
    ensures r == Err(Conflict) <==>
              && dto.movieId in s.movies.rows && dto.userId in s.users.rows
              && exists x | x in s.reviews.rows ::
                   s.reviews.rows[x].userId == dto.userId && s.reviews.rows[x].movieId == dto.movieId
    ensures r == Err(StoreRejected) <==>
              && dto.movieId in s.movies.rows && dto.userId in s.users.rows
              && !(exists x | x in s.reviews.rows ::
                     s.reviews.rows[x].userId == dto.userId && s.reviews.rows[x].movieId == dto.movieId)
              && Reviews.TextsMissing(dto.title, dto.body)
    ensures r.Err? ==> r.error in {Validation, Conflict, StoreRejected}
    ensures r.Ok? ==> Get(r.value.0, r.value.1.id) == Some(r.value.1)
    ensures r.Ok? ==> r.value.1.title.Some? && r.value.1.body.Some?
    ensures r.Ok? ==> r.value.1.userId == dto.userId && r.value.1.movieId == dto.movieId
    ensures r.Ok? && Valid(s) ==> Valid(r.value.0)
  {
    Reviews.Add(s, dto, now)
  }

  /** `UpdateAsync`: `false` for a missing id; the save fails when the edit
      drops a text; otherwise score, title and body are replaced. */
  function Update(s: Store, id: int, dto: Dtos.UpdateReviewDto): (r: Result<(Store, bool)>)
    ensures id !in s.reviews.rows ==> r == Ok((s, false))
    ensures r.Err? <==> id in s.reviews.rows && Reviews.TextsMissing(dto.title, dto.body)
    ensures r.Err? ==> r.error == StoreRejected
    ensures r.Ok? ==> (r.value.1 <==> id in s.reviews.rows)
    ensures r.Ok? && r.value.1 ==>
              Get(r.value.0, id) == Some(Views.ToReviewDetails(id, Reviews.Edited(s.reviews.rows[id], dto)))
    ensures r.Ok? && r.value.1 ==>
              forall x | x in s.reviews.rows && x != id :: Get(r.value.0, x) == Get(s, x)
    ensures r.Ok? && Valid(s) ==> Valid(r.value.0)
  {
    match Repositories.FindById(s.reviews, id)
    case None => Ok((s, false))
    case Some(_) =>
      match Reviews.Edit(s, id, dto)
      case Err(e) => Err(e)
      case Ok(t) => Ok((t, true))
  }

  /** `DeleteAsync`: `false` for a missing id; otherwise the review is
      gone and every other review stays. */
  function Delete(s: Store, id: int): (r: (Store, bool))
    ensures r.1 <==> id in s.reviews.rows
    ensures !r.1 ==> r.0 == s
    ensures Get(r.0, id).None?
    ensures forall x | x != id :: Get(r.0, x) == Get(s, x)
    ensures Valid(s) ==> Valid(r.0)
  {
    match Repositories.FindById(s.reviews, id)
    case None => (s, false)
    case Some(_) => (RemoveReview(s, id), true)
  }

  /** Without filters the list holds every review once. */
  lemma ListHoldsEveryReview(s: Store, id: int)
    ensures id in ListIds(s, None, None) <==> Get(s, id).Some?
  {
    var ids := ListIds(s, None, None);
    assert id in ids <==> multiset(ids)[id] > 0;
  }
}

=== FILE: legacy_users.dfy ===
/** `UserService` of the older backend, which has no authorization: anyone
    lists, reads, edits and deletes any user. Creating a user is
    `Users.Create`, shared with the other variant.
 */
module LegacyUsers {

  import opened Wrappers
  import opened Store
  import Seqs
  import Views
  import Repositories
  import Users

  /** `ListAsync`: every user the search matches, by ascending username. */
  function List(s: Store, q: Option<string>): (r: seq<Views.UserItem>)
    ensures |r| == |Users.ListIds(s, q)|
    ensures forall i | 0 <= i < |r| :: r[i] == Views.ToUserItem(s, Users.ListIds(s, q)[i])
  {
    var ids := Users.ListIds(s, q);
    Seqs.Map(ids, (u: int) requires u in s.users.rows => Views.ToUserItem(s, u))
  }

  /** `GetAsync`: the user, or nothing for a missing id. */
  function Get(s: Store, id: int): (r: Option<Views.UserItem>)
    ensures r.None? <==> id !in s.users.rows
    ensures r.Some? ==>
              r.value == Views.UserItem(id, s.users.rows[id].username, s.users.rows[id].email,
                s.users.rows[id].createdAt)
  {
    match Repositories.FindById(s.users, id)
    case None => None
    case Some(_) => Some(Views.ToUserItem(s, id))
  }

  /** `UpdateAsync`: `false` for a missing id; otherwise the checks and the
      write of `Users.ChangeProfile`. */
  function Update(s: Store, id: int, dto: Users.UserInput): (r: Result<(Store, bool)>)
    ensures id !in s.users.rows ==> r == Ok((s, false))
    ensures r.Err? <==> id in s.users.rows && Users.ChangeProfile(s, id, dto).Err?
    ensures r.Err? ==> r.error == Conflict
    ensures r.Ok? && r.value.1 ==>
              && id in s.users.rows
              && Get(r.value.0, id) == Some(Views.UserItem(id, Users.CleanUsername(dto),
                   Users.CleanEmail(dto), s.users.rows[id].createdAt))
              && forall u | u != id :: Get(r.value.0, u) == Get(s, u)
    ensures r.Ok? && Valid(s) ==> Valid(r.value.0)
  {
    match Repositories.FindById(s.users, id)
    case None => Ok((s, false))
    case Some(_) =>
      match Users.ChangeProfile(s, id, dto)
      case Err(e) => Err(e)
      case Ok(t) => Ok((t, true))
  }

  /** `DeleteAsync`: `AnonymizeAndDeleteAsync`, for any caller. */
  function Delete(s: Store, id: int): (r: Result<(Store, bool)>)
    ensures r == Users.AnonymizeAndDelete(s, id)
    ensures r == Err(ForbiddenOperation) <==>
              id in s.users.rows && (id == DeletedUserId || s.users.rows[id].isSystem)
    ensures r.Err? ==> r.error in {ForbiddenOperation, InvalidOperation, StoreRejected}
    ensures r.Ok? && r.value.1 ==> id in s.users.rows && Get(r.value.0, id).None?
    ensures r.Ok? && !r.value.1 ==> id !in s.users.rows && r.value.0 == s
    ensures r.Err? ==> id in s.users.rows
    ensures r.Ok? && Valid(s) ==> Valid(r.value.0)
  {
    Users.AnonymizeAndDelete(s, id)
  }

  /** In a store that keeps its constraints the system user survives every
      delete: deleting it is refused, and deleting anyone else leaves it. */
  lemma SystemUserSurvivesDelete(s: Store, id: int)
    requires Valid(s)
    ensures id == DeletedUserId ==> Delete(s, id) == Err(ForbiddenOperation)
    ensures Delete(s, id).Ok? ==> HasSystemUser(Delete(s, id).value.0)
  {
  }
}

=== FILE: numbers.dfy ===
/** Decimal text of 32-bit integers: `int.ToString()` and `int.TryParse` as the
    authorization helper and the token issuer use them.

    `TryParse` follows `NumberStyles.Integer` under the invariant culture:
    optional leading and trailing white space (U+0009..U+000D and U+0020), an
    optional leading `+` or `-`, then one or more ASCII digits, and the value
    must fit in 32 bits.
 */
module Numbers {

  import opened Wrappers
  import Text

  const MinInt32: int := -0x8000_0000
  const MaxInt32: int := 0x7FFF_FFFF

  predicate InInt32(n: int) {
    MinInt32 <= n <= MaxInt32
  }

  predicate IsDigit(c: char) {
    '0' <= c <= '9'
  }

  predicate AllDigits(s: string) {
    forall i | 0 <= i < |s| :: IsDigit(s[i])
  }

  /** The white space `NumberStyles.AllowLeadingWhite` and
      `AllowTrailingWhite` skip. */
  predicate IsNumberWhite(c: char) {
    c == ' ' || ('\t' <= c <= '\r')
  }

  /** The value of a string of decimal digits, most significant first. */
  function DigitsValue(s: string): (n: nat)
    requires AllDigits(s)
    decreases |s|
  {
    if s == [] then 0
    else DigitsValue(s[..|s| - 1]) * 10 + (s[|s| - 1] as int - '0' as int)
  }

  /** The shortest decimal digits of `n`. */
  function Digits(n: nat): (s: string)
    ensures |s| > 0 && AllDigits(s)
    ensures DigitsValue(s) == n
    decreases n
  {
    var last := ((n % 10) + '0' as int) as char;
    if n < 10 then
      assert [last][..0] == [];
      [last]
    else
      var prefix := Digits(n / 10);
      var s := prefix + [last];
      assert s[..|s| - 1] == prefix;
      s
  }

  /** `int.ToString()`: a minus sign for negative values, then the digits. */
  function Format(n: int): (s: string)
    ensures |s| > 0
  {
    if n < 0 then "-" + Digits(-n) else Digits(n)
  }

  /** `int.TryParse(s, out var v)`: `None` for null, malformed or out of
      range text. */
  function TryParse(s: Option<string>): (r: Option<int>)
    ensures r.Some? ==> InInt32(r.value)
  {
    match s
    case None => None
    case Some(text) =>
      var t := Text.TrimBy(text, IsNumberWhite);
      var negative := |t| > 0 && t[0] == '-';
      var body := if |t| > 0 && (t[0] == '-' || t[0] == '+') then t[1..] else t;
      if |body| == 0 || !AllDigits(body) then None
      else
        var magnitude: int := DigitsValue(body);
        var v := if negative then 0 - magnitude else magnitude;
        if InInt32(v) then Some(v) else None
  }

  /** Formatting then parsing a 32-bit integer gives it back: a user id the
      token issuer writes into the subject claim is the id the authorization
      helper reads. */
  lemma ParseFormat(n: int)
    requires InInt32(n)
    ensures TryParse(Some(Format(n))) == Some(n)
  {
    var s := Format(n);
    assert Text.Trimmed(s, IsNumberWhite) by {
      if n >= 0 {
        assert IsDigit(s[0]) && IsDigit(s[|s| - 1]);
      } else {
        assert s[0] == '-';
        assert s[|s| - 1] == Digits(-n)[|Digits(-n)| - 1];
      }
    }
    Text.TrimByTrimmed(s, IsNumberWhite);
    if n < 0 {
      assert s[1..] == Digits(-n);
    }
  }
}

=== FILE: repositories.dfy ===
/** The repositories' lookups and existence checks, written the way the
    queries run: enumerate a table's rows, keep those matching the `Where`
    clauses, and look at what is left. Each check's contract states what the
    answer means for the store.

    An `excludeId` is `None` when the caller passes `null`; `Some(id)` leaves
    the row `id` out of consideration.
 */
module Repositories {

  import opened Wrappers
  import opened Store
  import Seqs

  /** The row `id` is the one `excludeId` leaves out. */
  predicate Excluded(id: int, excludeId: Option<int>) {
    excludeId.Some? && excludeId.value == id
  }

  /** `AnyAsync` over a table: does some row satisfy `p`? */
  function AnyRow<T>(t: Table<T>, p: (int, T) -> bool): (r: bool)
    ensures r <==> exists id | id in t.rows :: p(id, t.rows[id])
  {
    var keep := (id: int) => id in t.rows && p(id, t.rows[id]);
    var hits := Seqs.Filter(Seqs.Enumerate(t.rows.Keys), keep);
    Seqs.FilterCount(Seqs.Enumerate(t.rows.Keys), keep);
    assert (exists id | id in t.rows :: p(id, t.rows[id])) ==> hits != [] by {
      if exists id | id in t.rows :: p(id, t.rows[id]) {
        var id :| id in t.rows && p(id, t.rows[id]);
        assert multiset(hits)[id] > 0;
      }
    }
    assert hits != [] ==> hits[0] in multiset(Seqs.Enumerate(t.rows.Keys));
    hits != []
  }

  /** `FirstOrDefaultAsync(x => x.Id == id)`: the row with that id, if any. */
  function FindById<T>(t: Table<T>, id: int): (r: Option<T>)
    ensures r == if id in t.rows then Some(t.rows[id]) else None
  {
    var same := (k: int) => k == id;
    var hits := Seqs.Filter(Seqs.Enumerate(t.rows.Keys), same);
    Seqs.FilterCount(Seqs.Enumerate(t.rows.Keys), same);
    assert id in t.rows ==> multiset(hits)[id] > 0;
    assert hits != [] ==> hits[0] in multiset(Seqs.Enumerate(t.rows.Keys));
    if hits == [] then None else Some(t.rows[hits[0]])
  }

  /** `MovieRepository.ExistsTitleYearAsync`: some movie other than the
      excluded one has exactly this title and release year. */
  function ExistsTitleYear(s: Store, title: string, releaseYear: int, excludeId: Option<int>): (r: bool)
    ensures r <==> exists m | m in s.movies.rows ::
              && s.movies.rows[m].title == title
              && s.movies.rows[m].releaseYear == releaseYear
              && !Excluded(m, excludeId)
  {
    AnyRow(s.movies, (id: int, m: Movie) =>
      m.title == title && m.releaseYear == releaseYear && !Excluded(id, excludeId))
  }

  /** `MovieRepository.GenresExistAsync`: the distinct requested ids, and
      the number of genres whose id is among them. A null or empty request
      succeeds; otherwise every distinct id must be counted. */
  function GenresExist(s: Store, genreIds: Option<seq<int>>): (r: bool)
    ensures genreIds.None? ==> r
    ensures genreIds.Some? ==>
              (r <==> forall i | 0 <= i < |genreIds.value| :: genreIds.value[i] in s.genres.rows)
  {
    var distinct := Seqs.Dedup(if genreIds.Some? then genreIds.value else []);
    if |distinct| == 0 then true
    else
      var wanted := set x | x in distinct;
      var found := set g | g in s.genres.rows && g in wanted;
      Seqs.NoDupCard(distinct);
      Seqs.SubsetCard(found, wanted);
      assert found == wanted <==> wanted <= s.genres.rows.Keys;
      |found| == |distinct|
  }

  /** `ReviewRepository.ExistsUserMovieAsync`: some review other than the
      excluded one belongs to this (user, movie) pair. */
  function ExistsUserMovie(s: Store, userId: int, movieId: int, excludeId: Option<int>): (r: bool)
    ensures r <==> exists x | x in s.reviews.rows ::
              && s.reviews.rows[x].userId == userId
              && s.reviews.rows[x].movieId == movieId
              && !Excluded(x, excludeId)
  {
    AnyRow(s.reviews, (id: int, v: Review) =>
      v.userId == userId && v.movieId == movieId && !Excluded(id, excludeId))
  }

  /** `ReviewRepository.MovieExistsAsync`. */
  function MovieExists(s: Store, movieId: int): (r: bool)
    ensures r <==> movieId in s.movies.rows
  {
    AnyRow(s.movies, (id: int, m: Movie) => id == movieId)
  }

  /** `ReviewRepository.UserExistsAsync`. */
  function UserExists(s: Store, userId: int): (r: bool)
    ensures r <==> userId in s.users.rows
  {
    AnyRow(s.users, (id: int, u: User) => id == userId)
  }

  /** `UserRepository.ExistsByEmailAsync`. */
  function ExistsByEmail(s: Store, email: string, excludeId: Option<int>): (r: bool)
    ensures r <==> exists u | u in s.users.rows ::
              s.users.rows[u].email == email && !Excluded(u, excludeId)
  {
    AnyRow(s.users, (id: int, u: User) => u.email == email && !Excluded(id, excludeId))
  }

  /** `UserRepository.ExistsByUsernameAsync`. */
  function ExistsByUsername(s: Store, username: string, excludeId: Option<int>): (r: bool)
    ensures r <==> exists u | u in s.users.rows ::
              s.users.rows[u].username == username && !Excluded(u, excludeId)
  {
    AnyRow(s.users, (id: int, u: User) => u.username == username && !Excluded(id, excludeId))
  }

  /** `GenreRepository.ExistsByNameAsync`. */
  function ExistsByName(s: Store, name: string, excludeId: Option<int>): (r: bool)
    ensures r <==> exists g | g in s.genres.rows ::
              s.genres.rows[g].name == name && !Excluded(g, excludeId)
  {
    AnyRow(s.genres, (id: int, g: Genre) => g.name == name && !Excluded(id, excludeId))
  }

  /** Duplicates in the request do not change the answer of `GenresExist`:
      two requests naming the same ids agree. */
  lemma GenresExistIgnoresDuplicates(s: Store, a: seq<int>, b: seq<int>)
    requires forall x :: x in a <==> x in b
    ensures GenresExist(s, Some(a)) == GenresExist(s, Some(b))
    ensures GenresExist(s, Some(a)) == GenresExist(s, Some(Seqs.Dedup(a)))
  {
    SameIdsSameAnswer(s, a, b);
    SameIdsSameAnswer(s, a, Seqs.Dedup(a));
  }

  lemma SameIdsSameAnswer(s: Store, a: seq<int>, b: seq<int>)
    requires forall x :: x in a <==> x in b
    ensures GenresExist(s, Some(a)) == GenresExist(s, Some(b))
  {
    AllKnownByMembership(s, a);
    AllKnownByMembership(s, b);
  }

  /** `GenresExist` depends only on which ids the request names. */
  lemma AllKnownByMembership(s: Store, a: seq<int>)
    ensures GenresExist(s, Some(a)) <==> forall x | x in a :: x in s.genres.rows
  {
    if GenresExist(s, Some(a)) {
      forall x | x in a
        ensures x in s.genres.rows
      {
        var i :| 0 <= i < |a| && a[i] == x;
      }
    } else {
      var i :| 0 <= i < |a| && a[i] !in s.genres.rows;
      var x := a[i];
      assert x in a && x !in s.genres.rows;
    }
  }

  /** With the user's own id excluded, the user's current username and email
      never count as taken: the uniqueness checks of a profile update never
      clash with the row being updated. */
  lemma UserNeverConflictsWithItself(s: Store, id: int)
    requires UniqueUsernames(s) && UniqueEmails(s)
    requires id in s.users.rows
    ensures !ExistsByUsername(s, s.users.rows[id].username, Some(id))
    ensures !ExistsByEmail(s, s.users.rows[id].email, Some(id))
  {
  }

  /** Excluding an id only ever removes that one row from consideration:
      with no exclusion the check sees every row, and excluding a row that
      does not carry the name changes nothing. */
  lemma ExcludeOnlyDropsThatRow(s: Store, username: string, id: int)
    ensures ExistsByUsername(s, username, None) <==>
              exists u | u in s.users.rows :: s.users.rows[u].username == username
    ensures id !in s.users.rows || s.users.rows[id].username != username ==>
              ExistsByUsername(s, username, Some(id)) == ExistsByUsername(s, username, None)
    ensures ExistsByUsername(s, username, Some(id)) ==> ExistsByUsername(s, username, None)
  {
  }
}

=== FILE: reviews.dfy ===
/** The review writes both backends share: the checks and the insert of a
    new review (`CreateAsync` after any caller checks) and the in-place edit
    of an existing one (`UpdateAsync` once the review has been found).
 */
module Reviews {

  import opened Wrappers
  import opened Store
  import Dtos
  import Repositories
  import Views

  /** The review `CreateAsync` stores for a request: the optional texts are
      trimmed, the ids and the score are kept as sent. */
  function NewReview(dto: Dtos.CreateReviewDto, now: nat): (v: Review)
    ensures v.movieId == dto.movieId && v.userId == dto.userId && v.score == dto.score
    ensures v.title.None? <==> dto.title.None?
    ensures v.body.None? <==> dto.body.None?
    ensures v.createdAt == now
  {
    Review(dto.movieId, dto.userId, dto.score, Dtos.TrimOpt(dto.title), Dtos.TrimOpt(dto.body), now)
  }

  /** A review after an edit: new score and trimmed texts; the movie, the
      author and the creation time stay. */
  function Edited(v: Review, dto: Dtos.UpdateReviewDto): (e: Review)
    ensures e.movieId == v.movieId && e.userId == v.userId && e.createdAt == v.createdAt
    ensures e.score == dto.score
    ensures e.title.None? <==> dto.title.None?
    ensures e.body.None? <==> dto.body.None?
  {
    v.(score := dto.score, title := Dtos.TrimOpt(dto.title), body := Dtos.TrimOpt(dto.body))
  }

  /** A review row needs both texts: `Title` and `Body` are `[Required]` on
      the entity, so their columns are NOT NULL, while the request leaves
      both optional. Saving a row without one of them fails in the
      database. */
  predicate TextsMissing(title: Option<string>, body: Option<string>) {
    title.None? || body.None?
  }

  /** The checks and the insert of `CreateAsync`: the movie, then the author,
      must exist; the author must not have reviewed the movie yet; the save
      fails when a text is missing. */
  function Add(s: Store, dto: Dtos.CreateReviewDto, now: nat): (r: Result<(Store, Views.ReviewDetails)>)
    requires s.reviews.Valid()
    ensures r == Err(Validation) <==> dto.movieId !in s.movies.rows || dto.userId !in s.users.rows
    ensures r == Err(Conflict) <==>
              && dto.movieId in s.movies.rows && dto.userId in s.users.rows
              && exists x | x in s.reviews.rows ::
                   s.reviews.rows[x].userId == dto.userId && s.reviews.rows[x].movieId == dto.movieId
    ensures r == Err(StoreRejected) <==>
              && dto.movieId in s.movies.rows && dto.userId in s.users.rows
              && !(exists x | x in s.reviews.rows ::
                     s.reviews.rows[x].userId == dto.userId && s.reviews.rows[x].movieId == dto.movieId)
              && TextsMissing(dto.title, dto.body)
    ensures r.Err? ==> r.error in {Validation, Conflict, StoreRejected}
    ensures r.Ok? ==>
              var (t, details) := r.value;
              && details.id !in s.reviews.rows
              && t.reviews.rows.Keys == s.reviews.rows.Keys + {details.id}
              && t.reviews.rows[details.id].title.Some? && t.reviews.rows[details.id].body.Some?
              && t.reviews.rows[details.id] == NewReview(dto, now)
              && (forall x | x in s.reviews.rows :: t.reviews.rows[x] == s.reviews.rows[x])
              && details == Views.ToReviewDetails(details.id, NewReview(dto, now))
              && t.users == s.users && t.genres == s.genres && t.movies == s.movies
              && t.tokens == s.tokens
    ensures r.Ok? && Valid(s) ==> Valid(r.value.0)
  {
    if !Repositories.MovieExists(s, dto.movieId) then Err(Validation)
    else if !Repositories.UserExists(s, dto.userId) then Err(Validation)
    else if Repositories.ExistsUserMovie(s, dto.userId, dto.movieId, None) then Err(Conflict)
    else if TextsMissing(dto.title, dto.body) then Err(StoreRejected)
    else
      var v := NewReview(dto, now);
      var (reviews, id) := s.reviews.Insert(v);
      assert Valid(s) ==> Valid(s.(reviews := reviews)) by {
        if Valid(s) {
          InsertReviewKeepsValid(s, v);
        }
      }
      Ok((s.(reviews := reviews), Views.ToReviewDetails(id, v)))
  }

  /** The write of `UpdateAsync`: the save fails when the edit drops a
      text; otherwise only the edited review changes. */
  function Edit(s: Store, id: int, dto: Dtos.UpdateReviewDto): (r: Result<Store>)
    requires id in s.reviews.rows
    ensures r.Err? <==> TextsMissing(dto.title, dto.body)
    ensures r.Err? ==> r.error == StoreRejected
    ensures r.Ok? ==>
              var t := r.value;
              && t.reviews.rows.Keys == s.reviews.rows.Keys
              && t.reviews.rows[id] == Edited(s.reviews.rows[id], dto)
              && t.reviews.rows[id].title.Some? && t.reviews.rows[id].body.Some?
              && (forall x | x in s.reviews.rows && x != id :: t.reviews.rows[x] == s.reviews.rows[x])
              && t.users == s.users && t.genres == s.genres && t.movies == s.movies && t.tokens == s.tokens
    ensures r.Ok? && Valid(s) ==> Valid(r.value)
  {
    if TextsMissing(dto.title, dto.body) then Err(StoreRejected)
    else
      var edited := Edited(s.reviews.rows[id], dto);
      assert Valid(s) ==> Valid(s.(reviews := s.reviews.Put(id, edited))) by {
        if Valid(s) {
          PutReviewKeepsValid(s, id, edited);
        }
      }
      Ok(s.(reviews := s.reviews.Put(id, edited)))
  }
}

=== FILE: seqs.dfy ===
/** Sequence helpers behind the query operators the original uses:
    enumerating a set of ids, `Where`, `Distinct` / `new Set(...)`,
    `OrderBy` and `Take` / `slice`.
 */
module Seqs {

  /** No element occurs twice. */
  predicate NoDup<T(==)>(s: seq<T>) {
    forall i, j | 0 <= i < j < |s| :: s[i] != s[j]
  }

  /** Consecutive elements are ordered by `le`. */
  predicate Sorted<T>(s: seq<T>, le: (T, T) -> bool) {
    forall i | 0 <= i < |s| - 1 :: le(s[i], s[i + 1])
  }

  /** `le` relates every pair one way or the other. */
  ghost predicate Total<T(!new)>(le: (T, T) -> bool) {
    forall a, b :: le(a, b) || le(b, a)
  }

  /** A non-empty set has an element. */
  lemma NonEmptyHasElement(s: set<int>)
    requires s != {}
    ensures exists x :: x in s
  {
    if forall x :: x !in s {
      assert false;
    }
  }

  lemma MinExists(s: set<int>)
    requires s != {}
    ensures exists m :: m in s && forall y | y in s :: m <= y
    decreases |s|
  {
    NonEmptyHasElement(s);
    var x :| x in s;
    var rest := s - {x};
    if rest == {} {
      OnlyElement(s, x);
    } else {
      MinExists(rest);
      var m :| m in rest && forall y | y in rest :: m <= y;
      MinStep(s, x, m);
    }
  }

  /** The only element of a set is its least. */
  lemma OnlyElement(s: set<int>, x: int)
    requires x in s && s - {x} == {}
    ensures forall y | y in s :: x <= y
  {
    forall y | y in s
      ensures x <= y
    {
      assert y == x || y in s - {x};
    }
  }

  /** Adding `x` back to a set whose least element is `m` gives a set whose
      least element is the smaller of the two. */
  lemma MinStep(s: set<int>, x: int, m: int)
    requires x in s && m in s - {x}
    requires forall y | y in s - {x} :: m <= y
    ensures var least := if x < m then x else m;
            least in s && forall y | y in s :: least <= y
  {
    forall y | y in s
      ensures (if x < m then x else m) <= y
    {
      if y != x {
        assert y in s - {x};
      }
    }
  }

  /** The least element of a non-empty finite set. */
  function MinOf(s: set<int>): (m: int)
    requires s != {}
    ensures m in s && forall y | y in s :: m <= y
  {
    MinExists(s);
    var m :| m in s && forall y | y in s :: m <= y; m
  }

  /** The elements of a finite set of ids in ascending order: the model's
      stand-in for the order rows come out of a table before `OrderBy`. */
  function Enumerate(s: set<int>): (r: seq<int>)
    ensures multiset(r) == multiset(s)
    ensures forall i | 0 <= i < |r| - 1 :: r[i] < r[i + 1]
    decreases |s|
  {
    if s == {} then []
    else
      var m := MinOf(s);
      var rest := Enumerate(s - {m});
      assert multiset(s) == multiset{m} + multiset(s - {m});
      assert |rest| > 0 ==> rest[0] in multiset(rest);
      [m] + rest
  }

  /** Every element of an enumeration belongs to the set. */
  lemma EnumerateIn(s: set<int>)
    ensures forall i | 0 <= i < |Enumerate(s)| :: Enumerate(s)[i] in s
  {
    var r := Enumerate(s);
    forall i | 0 <= i < |r|
      ensures r[i] in s
    {
      assert r[i] in multiset(r);
    }
  }

  /** The elements of `s` that satisfy `p`, in order (LINQ `Where`,
      JavaScript `filter`). */
  function Filter<T(!new)>(s: seq<T>, p: T -> bool): (r: seq<T>)
    ensures |r| <= |s|
    ensures forall i | 0 <= i < |r| :: p(r[i])
  {
    if s == [] then []
    else
      var rest := Filter(s[1..], p);
      if p(s[0]) then [s[0]] + rest else rest
  }

  /** `Filter` keeps every passing element as often as it occurs, and no
      other element. */
  lemma {:induction false} FilterCount<T(!new)>(s: seq<T>, p: T -> bool)
    ensures forall x :: multiset(Filter(s, p))[x] == if p(x) then multiset(s)[x] else 0
  {
    if s != [] {
      FilterCount(s[1..], p);
      assert s == [s[0]] + s[1..];
    }
  }

  /** Concatenation is associative. */
  lemma ConcatAssoc<T>(x: seq<T>, y: seq<T>, z: seq<T>)
    ensures x + (y + z) == (x + y) + z
  {
  }

  /** One step of `Filter`: the head is kept exactly when it passes. */
  lemma FilterHead<T(!new)>(s: seq<T>, p: T -> bool)
    requires s != []
    ensures Filter(s, p) == (if p(s[0]) then [s[0]] else []) + Filter(s[1..], p)
  {
  }

  lemma {:induction false} FilterConcat<T(!new)>(a: seq<T>, b: seq<T>, p: T -> bool)
    ensures Filter(a + b, p) == Filter(a, p) + Filter(b, p)
  {
    if a != [] {
      var ab := a + b;
      assert ab[0] == a[0] && ab[1..] == a[1..] + b;
      FilterHead(ab, p);
      FilterHead(a, p);
      FilterConcat(a[1..], b, p);
      var h := if p(a[0]) then [a[0]] else [];
      var fa, fb := Filter(a[1..], p), Filter(b, p);
      assert Filter(ab, p) == h + (fa + fb);
      ConcatAssoc(h, fa, fb);
    } else {
      assert a + b == b;
    }
  }

  /** Filtering by a test every element passes keeps the sequence. */
  lemma {:induction false} FilterAll<T(!new)>(s: seq<T>, p: T -> bool)
    requires forall i | 0 <= i < |s| :: p(s[i])
    ensures Filter(s, p) == s
  {
    if s != [] {
      FilterAll(s[1..], p);
    }
  }

  /** The first `n` elements, or all of them when there are fewer. */
  function Take<T>(s: seq<T>, n: nat): (r: seq<T>)
    ensures |r| <= n && |r| <= |s|
    ensures |s| <= n ==> r == s
    ensures |s| > n ==> |r| == n
    ensures r == s[..|r|]
  {
    if |s| <= n then s else s[..n]
  }

  /** Keeps the first occurrence of every element, in order: a JavaScript
      `Set` built from the sequence, and LINQ `Distinct`. */
  function Dedup<T(==,!new)>(s: seq<T>): (r: seq<T>)
    ensures NoDup(r)
    ensures forall x :: x in r <==> x in s
    decreases |s|
  {
    if s == [] then []
    else
      var d := Dedup(s[..|s| - 1]);
      var x := s[|s| - 1];
      assert forall y :: y in s <==> y in s[..|s| - 1] || y == x;
      if x in d then d else d + [x]
  }

  /** A sequence without duplicates is its own `Dedup`. */
  lemma {:induction false} DedupNoDup<T(!new)>(s: seq<T>)
    requires NoDup(s)
    ensures Dedup(s) == s
    decreases |s|
  {
    if s != [] {
      var p := s[..|s| - 1];
      assert NoDup(p);
      DedupNoDup(p);
      assert s[|s| - 1] !in p;
      assert s == p + [s[|s| - 1]];
    }
  }

  /** Appending `x` to a sequence: `x` joins the end if it is new and nothing
      changes otherwise. */
  lemma DedupSnoc<T(!new)>(s: seq<T>, x: T)
    ensures Dedup(s + [x]) == if x in s then Dedup(s) else Dedup(s) + [x]
  {
    assert (s + [x])[..|s + [x]| - 1] == s;
  }

  /** The elements of a sequence without duplicates are as many as its
      length. */
  lemma {:induction false} NoDupCard(d: seq<int>)
    requires NoDup(d)
    ensures |set x | x in d| == |d|
    decreases |d|
  {
    if d != [] {
      var t := d[..|d| - 1];
      var last := d[|d| - 1];
      NoDupCard(t);
      assert (set x | x in d) == (set x | x in t) + {last};
      assert last !in (set x | x in t);
    }
  }

  /** A sequence without duplicates holds each of its elements once: its
      multiset is that of its set of elements. */
  lemma {:induction false} NoDupMultiset(d: seq<int>)
    requires NoDup(d)
    ensures multiset(d) == multiset(set x | x in d)
    decreases |d|
  {
    if d != [] {
      var t := d[..|d| - 1];
      var last := d[|d| - 1];
      NoDupMultiset(t);
      assert d == t + [last];
      assert (set x | x in d) == (set x | x in t) + {last};
      assert last !in (set x | x in t);
    }
  }

  /** A subset has no more elements than its superset, and strictly fewer
      when it misses one. */
  lemma {:induction false} SubsetCard(a: set<int>, b: set<int>)
    requires a <= b
    ensures |a| <= |b|
    ensures a != b ==> |a| < |b|
    decreases |b|
  {
    if b != {} {
      NonEmptyHasElement(b);
      var x :| x in b;
      SubsetCard(a - {x}, b - {x});
      if x in a {
        assert a == (a - {x}) + {x};
        assert a != b ==> a - {x} != b - {x};
      } else {
        assert a - {x} == a;
      }
    }
  }

  /** `s` can be obtained from `t` by deleting elements. */
  predicate SubsequenceOf<T(==)>(s: seq<T>, t: seq<T>)
    decreases |t|
  {
    if s == [] then true
    else if t == [] then false
    else if s[0] == t[0] then SubsequenceOf(s[1..], t[1..])
    else SubsequenceOf(s, t[1..])
  }

  lemma {:induction false} FilterIsSubsequence<T(!new)>(s: seq<T>, p: T -> bool)
    ensures SubsequenceOf(Filter(s, p), s)
    decreases |s|
  {
    if s != [] {
      FilterIsSubsequence(s[1..], p);
    }
  }

  lemma {:induction false} PrefixOfSubsequence<T>(s: seq<T>, t: seq<T>, n: nat)
    requires SubsequenceOf(s, t) && n <= |s|
    ensures SubsequenceOf(s[..n], t)
    decreases |t|
  {
    if n > 0 && t != [] {
      if s[0] == t[0] {
        PrefixOfSubsequence(s[1..], t[1..], n - 1);
        assert s[..n][1..] == s[1..][..n - 1];
      } else {
        PrefixOfSubsequence(s, t[1..], n);
      }
    }
  }

  /** The test both `p` and `q` pass. */
  function Both<T>(p: T -> bool, q: T -> bool): T -> bool {
    x => p(x) && q(x)
  }

  /** Two filters in a row are one filter by both tests. */
  lemma {:induction false} FilterFilter<T(!new)>(s: seq<T>, p: T -> bool, q: T -> bool)
    ensures Filter(Filter(s, p), q) == Filter(s, Both(p, q))
    decreases |s|
  {
    if s != [] {
      FilterFilter(s[1..], p, q);
    }
  }

  /** Inserts `x` before the first element it may precede. */
  function Insert<T(!new)>(x: T, s: seq<T>, le: (T, T) -> bool): (r: seq<T>)
    requires Total(le)
    requires Sorted(s, le)
    ensures multiset(r) == multiset(s) + multiset{x}
    ensures Sorted(r, le)
    ensures |r| == |s| + 1
    ensures r[0] == x || (s != [] && r[0] == s[0])
  {
    if s == [] then [x]
    else if le(x, s[0]) then [x] + s
    else
      var rest := Insert(x, s[1..], le);
      assert s == [s[0]] + s[1..];
      [s[0]] + rest
  }

  /** Insertion sort: a permutation of `s` whose consecutive elements are
      ordered by the total relation `le`. */
  function SortBy<T(!new)>(s: seq<T>, le: (T, T) -> bool): (r: seq<T>)
    requires Total(le)
    ensures multiset(r) == multiset(s)
    ensures Sorted(r, le)
  {
    if s == [] then []
    else
      assert s == [s[0]] + s[1..];
      Insert(s[0], SortBy(s[1..], le), le)
  }

  /** The ids of `keys` that satisfy `keep`, each exactly once, sorted by
      `le`: the shape of every `Where(...).OrderBy(...)` query of the
      services. */
  function SelectSorted(keys: set<int>, keep: int -> bool, le: (int, int) -> bool): (r: seq<int>)
    requires Total(le)
    ensures forall x :: multiset(r)[x] == if x in keys && keep(x) then 1 else 0
    ensures forall i | 0 <= i < |r| :: r[i] in keys && keep(r[i])
    ensures Sorted(r, le)
  {
    FilterCount(Enumerate(keys), keep);
    var r := SortBy(Filter(Enumerate(keys), keep), le);
    assert forall i | 0 <= i < |r| :: r[i] in multiset(r);
    r
  }

  /** Applies `f` to every element (LINQ `Select`, JavaScript `map`). */
  function Map<T, U>(s: seq<T>, f: T --> U): (r: seq<U>)
    requires forall i | 0 <= i < |s| :: f.requires(s[i])
    ensures |r| == |s|
    ensures forall i | 0 <= i < |s| :: r[i] == f(s[i])
  {
    seq(|s|, i requires 0 <= i < |s| => f(s[i]))
  }
}

=== FILE: store.dfy ===
/** The relational store: the entities of the data model, one table per entity,
    and the constraints the database declares (unique indexes, the composite
    key of the movie/genre link, cascade and restrict deletes, the seeded
    system user).

    A table maps row ids to rows and carries the auto-increment counter that
    hands out the next id. Foreign keys are plain ids; the set of genres a
    movie links to is stored on the movie, so the composite key
    (MovieId, GenreId) holds by construction.
 */
module Store {

  import opened Wrappers

  datatype MovieStatus = Pending | Approved | Rejected

  /** The source's `UserRole { User, Admin }`; `Regular` is `UserRole.User`. */
  datatype UserRole = Regular | Admin

  /** `UserRole.ToString()`, the text written into role claims. */
  function RoleName(r: UserRole): string {
    match r
    case Regular => "User"
    case Admin => "Admin"
  }

  datatype User = User(
    username: string,
    email: string,
    passwordHash: Option<string>,
    isSystem: bool,
    role: UserRole,
    createdAt: nat)

  datatype Genre = Genre(name: string, description: Option<string>, createdAt: nat)

  datatype Movie = Movie(
    title: string,
    description: string,
    releaseYear: int,
    durationMin: int,
    status: MovieStatus,
    uploadedBy: int,
    genres: set<int>,
    createdAt: nat)

  datatype Review = Review(
    movieId: int,
    userId: int,
    score: int,
    title: Option<string>,
    body: Option<string>,
    createdAt: nat)

  datatype RefreshToken = RefreshToken(userId: int, expiresAt: nat, isRevoked: bool)

  /** A table: rows by id, and the auto-increment counter. */
  datatype Table<T> = Table(rows: map<int, T>, nextId: int) {

    /** Every id was handed out by the counter. */
    ghost predicate Valid() {
      nextId >= 1 && forall id | id in rows :: 1 <= id < nextId
    }

    /** Adds `row` under the next id, which no existing row uses. */
    function Insert(row: T): (r: (Table<T>, int))
      requires Valid()
      ensures r.0.Valid()
      ensures r.1 !in rows && r.1 in r.0.rows && r.0.rows[r.1] == row
      ensures r.0.rows.Keys == rows.Keys + {r.1}
      ensures forall id | id in rows :: r.0.rows[id] == rows[id]
    {
      (Table(rows[nextId := row], nextId + 1), nextId)
    }

    /** Replaces the row `id`; nothing else changes. */
    function Put(id: int, row: T): (r: Table<T>)
      requires id in rows
      ensures Valid() ==> r.Valid()
      ensures r.rows.Keys == rows.Keys && r.rows[id] == row
      ensures forall k | k in rows && k != id :: r.rows[k] == rows[k]
    {
      Table(rows[id := row], nextId)
    }

    /** Drops the row `id`; nothing else changes. */
    function Delete(id: int): (r: Table<T>)
      ensures Valid() ==> r.Valid()
      ensures r.rows.Keys == rows.Keys - {id}
      ensures forall k | k in r.rows :: r.rows[k] == rows[k]
    {
      Table(rows - {id}, nextId)
    }
  }

  datatype Store = Store(
    users: Table<User>,
    genres: Table<Genre>,
    movies: Table<Movie>,
    reviews: Table<Review>,
    tokens: map<string, RefreshToken>)

  /** The id of the seeded system user that absorbs deleted users' content. */
  const DeletedUserId: int := 1

  /** The seeded system user. */
  const SystemUser: User := User("deleted", "deleted@system.local", None, true, Regular, 0)

  /** The store right after seeding: the system user and nothing else. */
  const Seeded: Store := Store(
    Table(map[DeletedUserId := SystemUser], 2),
    Table(map[], 1),
    Table(map[], 1),
    Table(map[], 1),
    map[])

  // ----- the constraints the database declares -----

  ghost predicate TablesValid(s: Store) {
    s.users.Valid() && s.genres.Valid() && s.movies.Valid() && s.reviews.Valid()
  }

  /** The row the anonymization reassigns content to is present. */
  ghost predicate HasSystemUser(s: Store) {
    DeletedUserId in s.users.rows && s.users.rows[DeletedUserId].isSystem
  }

  /** Unique index on `User.Username`. */
  ghost predicate UniqueUsernames(s: Store) {
    forall a, b | a in s.users.rows && b in s.users.rows &&
      s.users.rows[a].username == s.users.rows[b].username :: a == b
  }

  /** Unique index on `User.Email`. */
  ghost predicate UniqueEmails(s: Store) {
    forall a, b | a in s.users.rows && b in s.users.rows &&
      s.users.rows[a].email == s.users.rows[b].email :: a == b
  }

  /** Unique index on (`Review.UserId`, `Review.MovieId`). */
  ghost predicate OneReviewPerPair(s: Store) {
    forall a, b | a in s.reviews.rows && b in s.reviews.rows &&
      s.reviews.rows[a].userId == s.reviews.rows[b].userId &&
      s.reviews.rows[a].movieId == s.reviews.rows[b].movieId :: a == b
  }

  /** Foreign keys: uploader and genre links of movies, movie and author of
      reviews, owner of refresh tokens. */
  ghost predicate ForeignKeys(s: Store) {
    && (forall m | m in s.movies.rows ::
          s.movies.rows[m].uploadedBy in s.users.rows &&
          s.movies.rows[m].genres <= s.genres.rows.Keys)
    && (forall r | r in s.reviews.rows ::
          s.reviews.rows[r].movieId in s.movies.rows &&
          s.reviews.rows[r].userId in s.users.rows)
    && (forall t | t in s.tokens :: s.tokens[t].userId in s.users.rows)
  }

  /** Every constraint the store keeps. */
  ghost predicate Valid(s: Store) {
    && TablesValid(s)
    && HasSystemUser(s)
    && UniqueUsernames(s)
    && UniqueEmails(s)
    && OneReviewPerPair(s)
    && ForeignKeys(s)
  }

  lemma SeededValid()
    ensures Valid(Seeded)
    ensures Seeded.users.rows[DeletedUserId].username == "deleted"
  {
  }

  // ----- deletes, with the cascade and restrict rules of the schema -----

  /** Deletes a movie; its reviews go with it (cascade), and so do its genre
      links, which live on the movie row. */
  function RemoveMovie(s: Store, id: int): (r: Store)
    ensures r.movies.rows.Keys == s.movies.rows.Keys - {id}
    ensures forall m | m in r.movies.rows :: r.movies.rows[m] == s.movies.rows[m]
    ensures forall x :: x in r.reviews.rows <==>
              x in s.reviews.rows && s.reviews.rows[x].movieId != id
    ensures forall x | x in r.reviews.rows :: r.reviews.rows[x] == s.reviews.rows[x]
    ensures r.users == s.users && r.genres == s.genres && r.tokens == s.tokens
    ensures Valid(s) ==> Valid(r)
  {
    var reviews := map x | x in s.reviews.rows && s.reviews.rows[x].movieId != id :: s.reviews.rows[x];
    s.(movies := s.movies.Delete(id), reviews := Table(reviews, s.reviews.nextId))
  }

  /** Deletes one review. */
  function RemoveReview(s: Store, id: int): (r: Store)
    ensures r.reviews.rows.Keys == s.reviews.rows.Keys - {id}
    ensures forall x | x in r.reviews.rows :: r.reviews.rows[x] == s.reviews.rows[x]
    ensures r.users == s.users && r.genres == s.genres && r.movies == s.movies && r.tokens == s.tokens
    ensures Valid(s) ==> Valid(r)
  {
    s.(reviews := s.reviews.Delete(id))
  }

  /** Deletes a genre; the movie/genre links that point at it go with it
      (cascade). */
  function RemoveGenre(s: Store, id: int): (r: Store)
    ensures r.genres.rows.Keys == s.genres.rows.Keys - {id}
    ensures forall g | g in r.genres.rows :: r.genres.rows[g] == s.genres.rows[g]
    ensures r.movies.rows.Keys == s.movies.rows.Keys
    ensures forall m | m in r.movies.rows ::
              r.movies.rows[m] == s.movies.rows[m].(genres := s.movies.rows[m].genres - {id})
    ensures r.users == s.users && r.reviews == s.reviews && r.tokens == s.tokens
    ensures Valid(s) ==> Valid(r)
  {
    var movies := map m | m in s.movies.rows ::
      s.movies.rows[m].(genres := s.movies.rows[m].genres - {id});
    s.(genres := s.genres.Delete(id), movies := Table(movies, s.movies.nextId))
  }

  /** Some movie names `id` as its uploader. */
  predicate UploadsSomething(s: Store, id: int) {
    exists m | m in s.movies.rows :: s.movies.rows[m].uploadedBy == id
  }

  /** Deletes a user row. The uploader foreign key is `Restrict`, so the
      store refuses while any movie names the user; the user's reviews and
      refresh tokens go with the row (cascade). */
  function RemoveUser(s: Store, id: int): (r: Result<Store>)
    ensures r.Err? <==> UploadsSomething(s, id)
    ensures r.Err? ==> r.error == StoreRejected
    ensures r.Ok? ==>
              && r.value.users.rows.Keys == s.users.rows.Keys - {id}
              && (forall u | u in r.value.users.rows :: r.value.users.rows[u] == s.users.rows[u])
              && (forall x :: x in r.value.reviews.rows <==>
                    x in s.reviews.rows && s.reviews.rows[x].userId != id)
              && (forall x | x in r.value.reviews.rows :: r.value.reviews.rows[x] == s.reviews.rows[x])
              && (forall t :: t in r.value.tokens <==> t in s.tokens && s.tokens[t].userId != id)
              && (forall t | t in r.value.tokens :: r.value.tokens[t] == s.tokens[t])
              && r.value.movies == s.movies && r.value.genres == s.genres
    ensures r.Ok? && Valid(s) && id != DeletedUserId ==> Valid(r.value)
  {
    if UploadsSomething(s, id) then Err(StoreRejected)
    else
      assert Valid(s) && id != DeletedUserId ==> Valid(WithoutUser(s, id)) by {
        if Valid(s) && id != DeletedUserId {
          WithoutUserKeepsValid(s, id);
        }
      }
      Ok(WithoutUser(s, id))
  }

  /** The user row gone, with its reviews and refresh tokens. */
  function WithoutUser(s: Store, id: int): (r: Store)
    ensures r.users.rows.Keys == s.users.rows.Keys - {id}
    ensures forall x :: x in r.reviews.rows <==> x in s.reviews.rows && s.reviews.rows[x].userId != id
    ensures forall t :: t in r.tokens <==> t in s.tokens && s.tokens[t].userId != id
  {
    var reviews := map x | x in s.reviews.rows && s.reviews.rows[x].userId != id :: s.reviews.rows[x];
    var tokens := map t | t in s.tokens && s.tokens[t].userId != id :: s.tokens[t];
    s.(users := s.users.Delete(id), reviews := Table(reviews, s.reviews.nextId), tokens := tokens)
  }

  /** Removing a user other than the system user, who uploads nothing,
      together with the rows that cascade, keeps every constraint. */
  lemma WithoutUserKeepsValid(s: Store, id: int)
    requires Valid(s) && id != DeletedUserId && !UploadsSomething(s, id)
    ensures Valid(WithoutUser(s, id))
  {
    var t := WithoutUser(s, id);
    assert TablesValid(t);
    assert HasSystemUser(t);
    assert UniqueUsernames(t) && UniqueEmails(t) && OneReviewPerPair(t);
    assert ForeignKeys(t);
  }

  // ----- writes that keep the constraints -----

  /** The foreign keys a movie row carries point at existing rows. */
  ghost predicate MovieRefsOk(s: Store, m: Movie) {
    m.uploadedBy in s.users.rows && m.genres <= s.genres.rows.Keys
  }

  /** Adding a movie whose references exist keeps every constraint. */
  lemma InsertMovieKeepsValid(s: Store, m: Movie)
    requires Valid(s) && MovieRefsOk(s, m)
    ensures Valid(s.(movies := s.movies.Insert(m).0))
  {
  }

  /** Replacing a movie row by one whose references exist keeps every
      constraint. */
  lemma PutMovieKeepsValid(s: Store, id: int, m: Movie)
    requires Valid(s) && id in s.movies.rows && MovieRefsOk(s, m)
    ensures Valid(s.(movies := s.movies.Put(id, m)))
  {
  }

  /** The store admits review `v` as row `id`: its movie and author exist,
      and no other review has the same (user, movie) pair. */
  ghost predicate ReviewFits(s: Store, id: int, v: Review) {
    && v.movieId in s.movies.rows && v.userId in s.users.rows
    && forall x | x in s.reviews.rows && x != id ::
         !(s.reviews.rows[x].userId == v.userId && s.reviews.rows[x].movieId == v.movieId)
  }

  lemma InsertReviewKeepsValid(s: Store, v: Review)
    requires Valid(s) && ReviewFits(s, s.reviews.nextId, v)
    ensures Valid(s.(reviews := s.reviews.Insert(v).0))
  {
  }

  lemma PutReviewKeepsValid(s: Store, id: int, v: Review)
    requires Valid(s) && id in s.reviews.rows && ReviewFits(s, id, v)
    ensures Valid(s.(reviews := s.reviews.Put(id, v)))
  {
    var t := s.(reviews := s.reviews.Put(id, v));
    assert TablesValid(t) && HasSystemUser(t);
    assert UniqueUsernames(t) && UniqueEmails(t);
    assert OneReviewPerPair(t);
    assert ForeignKeys(t);
  }

  /** Adding a user whose username and email are both new keeps every
      constraint. */
  lemma InsertUserKeepsValid(s: Store, u: User)
    requires Valid(s)
    requires forall x | x in s.users.rows :: s.users.rows[x].username != u.username
    requires forall x | x in s.users.rows :: s.users.rows[x].email != u.email
    ensures Valid(s.(users := s.users.Insert(u).0))
  {
  }

  /** Rewriting a user's username and email keeps every constraint when no
      other user holds the new values and the system flag stays. */
  lemma PutUserKeepsValid(s: Store, id: int, u: User)
    requires Valid(s) && id in s.users.rows && u.isSystem == s.users.rows[id].isSystem
    requires forall x | x in s.users.rows && x != id :: s.users.rows[x].username != u.username
    requires forall x | x in s.users.rows && x != id :: s.users.rows[x].email != u.email
    ensures Valid(s.(users := s.users.Put(id, u)))
  {
  }

  /** Adding a genre keeps every constraint: no other row refers to it yet. */
  lemma InsertGenreKeepsValid(s: Store, g: Genre)
    requires Valid(s)
    ensures Valid(s.(genres := s.genres.Insert(g).0))
  {
  }

  /** Replacing a genre row keeps every constraint: the links refer to its
      id, which stays. */
  lemma PutGenreKeepsValid(s: Store, id: int, g: Genre)
    requires Valid(s) && id in s.genres.rows
    ensures Valid(s.(genres := s.genres.Put(id, g)))
  {
  }

  /** Storing a refresh token of an existing user keeps every constraint. */
  lemma PutTokenKeepsValid(s: Store, k: string, t: RefreshToken)
    requires Valid(s) && t.userId in s.users.rows
    ensures Valid(s.(tokens := s.tokens[k := t]))
  {
  }

  /** Deleting a movie deletes exactly its reviews and nothing else. */
  lemma RemoveMovieCascade(s: Store, id: int, x: int)
    requires x in s.reviews.rows
    ensures x !in RemoveMovie(s, id).reviews.rows <==> s.reviews.rows[x].movieId == id
  {
  }

  /** A user who still uploads a movie cannot be deleted. */
  lemma RemoveUserRestricted(s: Store, id: int, m: int)
    requires m in s.movies.rows && s.movies.rows[m].uploadedBy == id
    ensures RemoveUser(s, id) == Err(StoreRejected)
  {
  }
}

=== FILE: text.dfy ===
/** Character and string helpers: white space, trimming, substring tests,
    ASCII case folding and the ordinal string order.

    Strings are `seq<char>`. Comparisons are ordinal (code point by code
    point); the database collation the original runs its queries under is not
    modelled.
 */
module Text {

  import opened Wrappers

  /** .NET `char.IsWhiteSpace`: the Unicode space separators plus the
      control characters U+0009..U+000D and U+0085. */
  predicate IsWhiteSpace(c: char) {
    var n := c as int;
    || n == 0x20 || (0x09 <= n <= 0x0D) || n == 0x85 || n == 0xA0 || n == 0x1680
    || (0x2000 <= n <= 0x200A) || n == 0x2028 || n == 0x2029 || n == 0x202F
    || n == 0x205F || n == 0x3000
  }

  /** The white space JavaScript's `String.prototype.trim` removes: as .NET,
      without U+0085 but with the byte order mark U+FEFF. */
  predicate IsJsWhiteSpace(c: char) {
    var n := c as int;
    || n == 0x20 || (0x09 <= n <= 0x0D) || n == 0xA0 || n == 0x1680
    || (0x2000 <= n <= 0x200A) || n == 0x2028 || n == 0x2029 || n == 0x202F
    || n == 0x205F || n == 0x3000 || n == 0xFEFF
  }

  /** Drops the longest prefix made of `ws` characters. */
  function TrimStart(s: string, ws: char -> bool): (r: string)
    ensures |r| <= |s| && r == s[|s| - |r|..]
    ensures forall i | 0 <= i < |s| - |r| :: ws(s[i])
    ensures |r| > 0 ==> !ws(r[0])
    decreases |s|
  {
    if |s| > 0 && ws(s[0]) then TrimStart(s[1..], ws) else s
  }

  /** Drops the longest suffix made of `ws` characters. */
  function TrimEnd(s: string, ws: char -> bool): (r: string)
    ensures |r| <= |s| && r == s[..|r|]
    ensures forall i | |r| <= i < |s| :: ws(s[i])
    ensures |r| > 0 ==> !ws(r[|r| - 1])
    decreases |s|
  {
    if |s| > 0 && ws(s[|s| - 1]) then TrimEnd(s[..|s| - 1], ws) else s
  }

  /** Removes leading and trailing `ws` characters. */
  function TrimBy(s: string, ws: char -> bool): (r: string)
    ensures |r| <= |s|
    ensures |r| > 0 ==> !ws(r[0]) && !ws(r[|r| - 1])
  {
    TrimEnd(TrimStart(s, ws), ws)
  }

  /** .NET `string.Trim()`. */
  function Trim(s: string): string {
    TrimBy(s, IsWhiteSpace)
  }

  /** JavaScript `String.prototype.trim()`. */
  function JsTrim(s: string): string {
    TrimBy(s, IsJsWhiteSpace)
  }

  /** A string with no `ws` character at either end. */
  predicate Trimmed(s: string, ws: char -> bool) {
    |s| > 0 ==> !ws(s[0]) && !ws(s[|s| - 1])
  }

  /** Every character of `s` is a `ws` character. */
  predicate AllBy(s: string, ws: char -> bool) {
    forall i | 0 <= i < |s| :: ws(s[i])
  }

  /** Trimming a string that has no `ws` character at either end returns it
      unchanged. */
  lemma TrimByTrimmed(s: string, ws: char -> bool)
    requires Trimmed(s, ws)
    ensures TrimBy(s, ws) == s
  {
    assert TrimStart(s, ws) == s;
    assert TrimEnd(s, ws) == s;
  }

  /** Trimming is idempotent. */
  lemma TrimByIdempotent(s: string, ws: char -> bool)
    ensures TrimBy(TrimBy(s, ws), ws) == TrimBy(s, ws)
  {
    TrimByTrimmed(TrimBy(s, ws), ws);
  }

  /** The trimmed string is empty exactly when the input is all `ws`. */
  lemma TrimByEmpty(s: string, ws: char -> bool)
    ensures TrimBy(s, ws) == [] <==> AllBy(s, ws)
  {
    var t := TrimStart(s, ws);
    if !AllBy(s, ws) {
      var i :| 0 <= i < |s| && !ws(s[i]);
      assert t[i - (|s| - |t|)] == s[i];
    }
  }

  /** .NET `string.IsNullOrWhiteSpace`. */
  predicate IsNullOrWhiteSpace(s: Option<string>) {
    s.None? || AllBy(s.value, IsWhiteSpace)
  }

  /** Ordinal substring test: .NET `string.Contains(string)`, JavaScript
      `String.prototype.includes`. The empty string occurs in every string. */
  predicate Contains(s: string, sub: string) {
    exists i | 0 <= i <= |s| - |sub| :: OccursAt(s, sub, i)
  }

  /** `sub` occurs in `s` starting at index `i`. */
  predicate OccursAt(s: string, sub: string, i: int) {
    0 <= i <= |s| - |sub| && s[i..i + |sub|] == sub
  }

  predicate StartsWith(s: string, prefix: string) {
    |prefix| <= |s| && s[..|prefix|] == prefix
  }

  /** ASCII lower-casing of one character. */
  function ToLowerChar(c: char): (r: char)
    ensures 'A' <= c <= 'Z' ==> 'a' <= r <= 'z'
    ensures !('A' <= c <= 'Z') ==> r == c
  {
    if 'A' <= c <= 'Z' then (c as int + 32) as char else c
  }

  /** ASCII lower-casing of a string, character by character. */
  function ToLower(s: string): (r: string)
    ensures |r| == |s|
    ensures forall i | 0 <= i < |s| :: r[i] == ToLowerChar(s[i])
  {
    seq(|s|, i requires 0 <= i < |s| => ToLowerChar(s[i]))
  }

  /** Ordinal (code point by code point) lexicographic order: `a` sorts
      before or together with `b`. */
  predicate StrLe(a: string, b: string)
    decreases |a|
  {
    if a == [] then true
    else if b == [] then false
    else if a[0] != b[0] then a[0] < b[0]
    else StrLe(a[1..], b[1..])
  }

  /** The ordinal order is total. */
  lemma {:induction false} StrLeTotal(a: string, b: string)
    ensures StrLe(a, b) || StrLe(b, a)
    decreases |a|
  {
    if a != [] && b != [] && a[0] == b[0] {
      StrLeTotal(a[1..], b[1..]);
    }
  }

  /** The ordinal order is transitive. */
  lemma {:induction false} StrLeTransitive(a: string, b: string, c: string)
    requires StrLe(a, b) && StrLe(b, c)
    ensures StrLe(a, c)
    decreases |a|
  {
    if a != [] && b != [] && c != [] && a[0] == b[0] && b[0] == c[0] {
      StrLeTransitive(a[1..], b[1..], c[1..]);
    }
  }

  /** The ordinal order is antisymmetric. */
  lemma {:induction false} StrLeAntisymmetric(a: string, b: string)
    requires StrLe(a, b) && StrLe(b, a)
    ensures a == b
    decreases |a|
  {
    if a != [] && b != [] {
      StrLeAntisymmetric(a[1..], b[1..]);
      assert a == [a[0]] + a[1..];
      assert b == [b[0]] + b[1..];
    }
  }
}

=== FILE: users.dfy ===
/** The user operations both backends share word for word: creating a user,
    changing a user's username and email, and anonymizing a user before
    deleting the row (`UserService` in either variant).
 */
module Users {

  import opened Wrappers
  import opened Store
  import Text
  import Repositories
  import Views
  import Seqs

  /** The fields of `CreateUserDto` and `UpdateUserDto`. */
  datatype UserInput = UserInput(username: string, email: string)

  /** The username the services store and check: the request's, trimmed. */
  function CleanUsername(dto: UserInput): string {
    Text.Trim(dto.username)
  }

  function CleanEmail(dto: UserInput): string {
    Text.Trim(dto.email)
  }

  /** The search of `ListAsync` in either variant: a non-blank `q` must occur in the username
      or in the email. */
  predicate Matches(s: Store, q: Option<string>, u: int)
    requires u in s.users.rows
  {
    Text.IsNullOrWhiteSpace(q) ||
    Text.Contains(s.users.rows[u].username, q.value) ||
    Text.Contains(s.users.rows[u].email, q.value)
  }

  function Username(s: Store): int -> string {
    (u: int) => if u in s.users.rows then s.users.rows[u].username else []
  }

  /** The ids `ListAsync` in either variant returns, by ascending username: every user that
      passes the search, once. */
  function ListIds(s: Store, q: Option<string>): (r: seq<int>)
    ensures forall u :: multiset(r)[u] == if u in s.users.rows && Matches(s, q, u) then 1 else 0
    ensures forall i | 0 <= i < |r| :: r[i] in s.users.rows && Matches(s, q, r[i])
    ensures forall i | 0 <= i < |r| - 1 ::
              Text.StrLe(s.users.rows[r[i]].username, s.users.rows[r[i + 1]].username)
  {
    Views.AscByTextTotal(Username(s));
    var r := Seqs.SelectSorted(s.users.rows.Keys,
      u => u in s.users.rows && Matches(s, q, u),
      Views.AscByText(Username(s)));
    assert forall i | 0 <= i < |r| - 1 :: Views.AscByText(Username(s))(r[i], r[i + 1]);
    r
  }

  /** `CreateAsync`: trim both fields; refuse a username, then an email, that
      some user already has; otherwise insert a user without password,
      regular and not a system user. */
  function Create(s: Store, dto: UserInput, now: nat): (r: Result<(Store, Views.UserItem)>)
    requires s.users.Valid()
    ensures r.Err? <==>
              (exists u | u in s.users.rows :: s.users.rows[u].username == CleanUsername(dto)) ||
              (exists u | u in s.users.rows :: s.users.rows[u].email == CleanEmail(dto))
    ensures r.Err? ==> r.error == Conflict
    ensures r.Ok? ==>
              var (t, item) := r.value;
              && item.id !in s.users.rows
              && t.users.rows.Keys == s.users.rows.Keys + {item.id}
              && t.users.rows[item.id] == User(CleanUsername(dto), CleanEmail(dto), None, false, Regular, now)
              && (forall u | u in s.users.rows :: t.users.rows[u] == s.users.rows[u])
              && t.genres == s.genres && t.movies == s.movies && t.reviews == s.reviews
              && t.tokens == s.tokens
              && item == Views.UserItem(item.id, CleanUsername(dto), CleanEmail(dto), now)
    ensures r.Ok? && Valid(s) ==> Valid(r.value.0)
  {
    var username := CleanUsername(dto);
    var email := CleanEmail(dto);
    if Repositories.ExistsByUsername(s, username, None) then Err(Conflict)
    else if Repositories.ExistsByEmail(s, email, None) then Err(Conflict)
    else
      var user := User(username, email, None, false, Regular, now);
      var (users, id) := s.users.Insert(user);
      assert Valid(s) ==> Valid(s.(users := users)) by {
        if Valid(s) { InsertUserKeepsValid(s, user); }
      }
      Ok((s.(users := users), Views.UserItem(id, username, email, now)))
  }

  /** The checks and the write of `UpdateAsync` once the user `id` has been
      found: trim both fields; refuse a username, then an email, held by
      another user; otherwise overwrite the two fields and nothing else. */
  function ChangeProfile(s: Store, id: int, dto: UserInput): (r: Result<Store>)
    requires id in s.users.rows
    ensures r.Err? <==>
              (exists u | u in s.users.rows && u != id :: s.users.rows[u].username == CleanUsername(dto)) ||
              (exists u | u in s.users.rows && u != id :: s.users.rows[u].email == CleanEmail(dto))
    ensures r.Err? ==> r.error == Conflict
    ensures r.Ok? ==>
              && r.value.users.rows.Keys == s.users.rows.Keys
              && r.value.users.rows[id] ==
                   s.users.rows[id].(username := CleanUsername(dto), email := CleanEmail(dto))
              && (forall u | u in s.users.rows && u != id :: r.value.users.rows[u] == s.users.rows[u])
              && r.value.users.nextId == s.users.nextId
              && r.value.genres == s.genres && r.value.movies == s.movies
              && r.value.reviews == s.reviews && r.value.tokens == s.tokens
    ensures r.Ok? && Valid(s) ==> Valid(r.value)
  {
    var username := CleanUsername(dto);
    var email := CleanEmail(dto);
    if Repositories.ExistsByUsername(s, username, Some(id)) then Err(Conflict)
    else if Repositories.ExistsByEmail(s, email, Some(id)) then Err(Conflict)
    else
      var user := s.users.rows[id].(username := username, email := email);
      assert Valid(s) ==> Valid(s.(users := s.users.Put(id, user))) by {
        if Valid(s) { PutUserKeepsValid(s, id, user); }
      }
      Ok(s.(users := s.users.Put(id, user)))
  }

  /** Resubmitting a user's own username and email (in any padding) never
      conflicts: the checks leave the user's own row out. */
  lemma ChangeProfileToOwnValues(s: Store, id: int, dto: UserInput)
    requires Valid(s) && id in s.users.rows
    requires CleanUsername(dto) == s.users.rows[id].username
    requires CleanEmail(dto) == s.users.rows[id].email
    ensures ChangeProfile(s, id, dto).Ok?
    ensures ChangeProfile(s, id, dto).value == s
  {
    Repositories.UserNeverConflictsWithItself(s, id);
    var user := s.users.rows[id].(username := CleanUsername(dto), email := CleanEmail(dto));
    assert user == s.users.rows[id];
    PutOwnRow(s.users, id);
  }

  /** Writing a row back unchanged leaves the table as it was. */
  lemma PutOwnRow<T>(t: Table<T>, id: int)
    requires id in t.rows
    ensures t.Put(id, t.rows[id]) == t
  {
    assert t.rows[id := t.rows[id]] == t.rows;
  }

  // ----- anonymization -----

  /** Moving a review of the victim to the system user would give the system
      user a second review of the same movie: the unique index on
      (UserId, MovieId) refuses the bulk update. */
  predicate ReassignClash(s: Store, id: int) {
    exists x, y | x in s.reviews.rows && y in s.reviews.rows ::
      && s.reviews.rows[x].userId == id
      && s.reviews.rows[y].userId == DeletedUserId
      && s.reviews.rows[x].movieId == s.reviews.rows[y].movieId
  }

  /** The two bulk updates: every movie uploaded by `id` and every review
      written by `id` now point at the system user. */
  function Reassign(s: Store, id: int): (r: Store)
    ensures r.movies.rows.Keys == s.movies.rows.Keys && r.movies.nextId == s.movies.nextId
    ensures r.reviews.rows.Keys == s.reviews.rows.Keys && r.reviews.nextId == s.reviews.nextId
    ensures forall m | m in s.movies.rows ::
              r.movies.rows[m] == if s.movies.rows[m].uploadedBy == id
                                  then s.movies.rows[m].(uploadedBy := DeletedUserId)
                                  else s.movies.rows[m]
    ensures forall x | x in s.reviews.rows ::
              r.reviews.rows[x] == if s.reviews.rows[x].userId == id
                                   then s.reviews.rows[x].(userId := DeletedUserId)
                                   else s.reviews.rows[x]
    ensures r.users == s.users && r.genres == s.genres && r.tokens == s.tokens
    ensures !UploadsSomething(r, id) || id == DeletedUserId
  {
    var movies := map m | m in s.movies.rows ::
      if s.movies.rows[m].uploadedBy == id then s.movies.rows[m].(uploadedBy := DeletedUserId)
      else s.movies.rows[m];
    var reviews := map x | x in s.reviews.rows ::
      if s.reviews.rows[x].userId == id then s.reviews.rows[x].(userId := DeletedUserId)
      else s.reviews.rows[x];
    s.(movies := Table(movies, s.movies.nextId), reviews := Table(reviews, s.reviews.nextId))
  }

  /** `AnonymizeAndDeleteAsync`, as one atomic step: `false` for a missing
      user; the system user may not be anonymized; the system user must be
      present; then the victim's movies and reviews move to the system user
      and the victim's row is deleted, taking the victim's refresh tokens
      with it. If the store refuses any step, nothing changes. */
  function AnonymizeAndDelete(s: Store, id: int): (r: Result<(Store, bool)>)
    ensures id !in s.users.rows ==> r == Ok((s, false))
    ensures r == Err(ForbiddenOperation) <==>
              id in s.users.rows && (id == DeletedUserId || s.users.rows[id].isSystem)
    ensures r == Err(InvalidOperation) <==>
              && id in s.users.rows && id != DeletedUserId && !s.users.rows[id].isSystem
              && !HasSystemUser(s)
    ensures r == Err(StoreRejected) <==>
              && id in s.users.rows && id != DeletedUserId && !s.users.rows[id].isSystem
              && HasSystemUser(s) && ReassignClash(s, id)
    ensures r.Ok? ==> (r.value.1 <==> id in s.users.rows)
    ensures r.Ok? && r.value.1 ==>
              var t := r.value.0;
              && t.users.rows.Keys == s.users.rows.Keys - {id}
              && (forall u | u in t.users.rows :: t.users.rows[u] == s.users.rows[u])
              && t.movies.rows.Keys == s.movies.rows.Keys
              && (forall m | m in s.movies.rows ::
                    t.movies.rows[m] == if s.movies.rows[m].uploadedBy == id
                                        then s.movies.rows[m].(uploadedBy := DeletedUserId)
                                        else s.movies.rows[m])
              && t.reviews.rows.Keys == s.reviews.rows.Keys
              && (forall x | x in s.reviews.rows ::
                    t.reviews.rows[x] == if s.reviews.rows[x].userId == id
                                         then s.reviews.rows[x].(userId := DeletedUserId)
                                         else s.reviews.rows[x])
              && (forall k :: k in t.tokens <==> k in s.tokens && s.tokens[k].userId != id)
              && (forall k | k in t.tokens :: t.tokens[k] == s.tokens[k])
              && t.genres == s.genres
    ensures r.Ok? && Valid(s) ==> Valid(r.value.0)
  {
    if id !in s.users.rows then Ok((s, false))
    else if id == DeletedUserId || s.users.rows[id].isSystem then Err(ForbiddenOperation)
    else if !(DeletedUserId in s.users.rows && s.users.rows[DeletedUserId].isSystem) then
      Err(InvalidOperation)
    else if ReassignClash(s, id) then Err(StoreRejected)
    else
      var moved := Reassign(s, id);
      var removed := RemoveUser(moved, id);
      assert removed.Ok?;
      var t := removed.value;
      assert Valid(s) ==> Valid(t) by {
        if Valid(s) {
          AnonymizeKeepsValid(s, id, moved, t);
        }
      }
      Ok((t, true))
  }

  lemma AnonymizeKeepsValid(s: Store, id: int, moved: Store, t: Store)
    requires Valid(s) && id in s.users.rows && id != DeletedUserId
    requires !ReassignClash(s, id)
    requires moved == Reassign(s, id)
    requires RemoveUser(moved, id) == Ok(t)
    ensures Valid(t)
  {
    ReassignKeepsValid(s, id);
  }

  /** Without a clash, the two bulk updates keep every constraint: the
      system user exists, so the moved rows still point at a user. */
  lemma ReassignKeepsValid(s: Store, id: int)
    requires Valid(s) && id != DeletedUserId && !ReassignClash(s, id)
    ensures Valid(Reassign(s, id))
  {
    var moved := Reassign(s, id);
    assert TablesValid(moved) && HasSystemUser(moved);
    assert UniqueUsernames(moved) && UniqueEmails(moved);
    assert OneReviewPerPair(moved) by {
      forall a, b | a in moved.reviews.rows && b in moved.reviews.rows &&
        moved.reviews.rows[a].userId == moved.reviews.rows[b].userId &&
        moved.reviews.rows[a].movieId == moved.reviews.rows[b].movieId
        ensures a == b
      {
      }
    }
    assert ForeignKeys(moved);
  }

  /** In a store that keeps its constraints, anonymizing an ordinary user
      never meets a missing system user, and succeeds unless a review clash
      makes the store refuse. */
  lemma AnonymizeOrdinaryUser(s: Store, id: int)
    requires Valid(s)
    requires id in s.users.rows && id != DeletedUserId && !s.users.rows[id].isSystem
    ensures AnonymizeAndDelete(s, id) != Err(InvalidOperation)
    ensures !ReassignClash(s, id) <==> AnonymizeAndDelete(s, id).Ok?
    ensures AnonymizeAndDelete(s, id).Ok? ==> AnonymizeAndDelete(s, id).value.1
  {
  }
}

=== FILE: views.dfy ===
/** The read models the services hand out (list items and details of movies,
    reviews, users and genres), the average review score, and the orderings
    the list queries sort by.
 */
module Views {

  import opened Wrappers
  import opened Store
  import Seqs
  import Text

  // ----- orderings over row ids -----

  /** Larger keys first (`OrderByDescending`). */
  function DescBy(key: int -> int): (le: (int, int) -> bool)
  {
    (a: int, b: int) => key(a) >= key(b)
  }

  /** Ordinal text order of a key (`OrderBy` on a string column). */
  function AscByText(key: int -> string): (le: (int, int) -> bool)
  {
    (a: int, b: int) => Text.StrLe(key(a), key(b))
  }

  /** Larger integer keys first, ties by ascending text. */
  function DescThenText(primary: int -> int, secondary: int -> string): (le: (int, int) -> bool)
  {
    (a: int, b: int) =>
      primary(a) > primary(b) ||
      (primary(a) == primary(b) && Text.StrLe(secondary(a), secondary(b)))
  }

  /** Larger real keys first, ties by ascending text. */
  function DescRealThenText(primary: int -> real, secondary: int -> string): (le: (int, int) -> bool)
  {
    (a: int, b: int) =>
      primary(a) > primary(b) ||
      (primary(a) == primary(b) && Text.StrLe(secondary(a), secondary(b)))
  }

  lemma DescByTotal(key: int -> int)
    ensures Seqs.Total(DescBy(key))
  {
  }

  lemma AscByTextTotal(key: int -> string)
    ensures Seqs.Total(AscByText(key))
  {
    forall a: int, b: int
      ensures AscByText(key)(a, b) || AscByText(key)(b, a)
    {
      Text.StrLeTotal(key(a), key(b));
    }
  }

  lemma DescThenTextTotal(primary: int -> int, secondary: int -> string)
    ensures Seqs.Total(DescThenText(primary, secondary))
  {
    forall a: int, b: int
      ensures DescThenText(primary, secondary)(a, b) || DescThenText(primary, secondary)(b, a)
    {
      Text.StrLeTotal(secondary(a), secondary(b));
    }
  }

  lemma DescRealThenTextTotal(primary: int -> real, secondary: int -> string)
    ensures Seqs.Total(DescRealThenText(primary, secondary))
  {
    forall a: int, b: int
      ensures DescRealThenText(primary, secondary)(a, b) || DescRealThenText(primary, secondary)(b, a)
    {
      Text.StrLeTotal(secondary(a), secondary(b));
    }
  }

  /** Ordinal order on strings, as a value. */
  function NameOrder(): (le: (string, string) -> bool)
  {
    (a: string, b: string) => Text.StrLe(a, b)
  }

  lemma NameOrderTotal()
    ensures Seqs.Total(NameOrder())
  {
    forall a: string, b: string
      ensures NameOrder()(a, b) || NameOrder()(b, a)
    {
      Text.StrLeTotal(a, b);
    }
  }

  // ----- averages -----

  function Sum(xs: seq<int>): int
  {
    if xs == [] then 0 else xs[0] + Sum(xs[1..])
  }

  /** `Reviews.Any() ? Reviews.Average(r => r.Score) : 0`, as an exact
      rational: the sum divided by the count, and 0 when there is nothing to
      average. */
  function Average(scores: seq<int>): (r: real)
    ensures |scores| == 0 ==> r == 0.0
    ensures |scores| > 0 ==> r * (|scores| as real) == Sum(scores) as real
  {
    if |scores| == 0 then 0.0 else Sum(scores) as real / |scores| as real
  }

  lemma {:induction false} SumBounds(xs: seq<int>, lo: int, hi: int)
    requires forall i | 0 <= i < |xs| :: lo <= xs[i] <= hi
    ensures lo * |xs| <= Sum(xs) <= hi * |xs|
  {
    if xs != [] {
      SumBounds(xs[1..], lo, hi);
    }
  }

  /** The average of scores that all lie in `lo..hi` lies in `lo..hi` too. */
  lemma AverageBounds(scores: seq<int>, lo: int, hi: int)
    requires |scores| > 0
    requires forall i | 0 <= i < |scores| :: lo <= scores[i] <= hi
    ensures lo as real <= Average(scores) <= hi as real
  {
    SumBounds(scores, lo, hi);
    var n := |scores| as real;
    var a := Average(scores);
    assert a * n == Sum(scores) as real;
    assert (lo as real) * n <= a * n <= (hi as real) * n;
  }

  // ----- what a movie's projection reads from the store -----

  /** The ids of the reviews of movie `m`, oldest id first. */
  function ReviewsOf(s: Store, m: int): (r: seq<int>)
    ensures forall x :: multiset(r)[x] ==
              if x in s.reviews.rows && s.reviews.rows[x].movieId == m then 1 else 0
    ensures forall i | 0 <= i < |r| :: r[i] in s.reviews.rows && s.reviews.rows[r[i]].movieId == m
  {
    assert Seqs.Total((a: int, b: int) => a <= b);
    Seqs.SelectSorted(s.reviews.rows.Keys,
      x => x in s.reviews.rows && s.reviews.rows[x].movieId == m,
      (a: int, b: int) => a <= b)
  }

  /** The scores of the reviews of movie `m`. */
  function ScoresOf(s: Store, m: int): (r: seq<int>)
    ensures |r| == |ReviewsOf(s, m)|
    ensures forall i | 0 <= i < |r| :: r[i] == s.reviews.rows[ReviewsOf(s, m)[i]].score
  {
    var ids := ReviewsOf(s, m);
    Seqs.Map(ids, (x: int) requires x in s.reviews.rows => s.reviews.rows[x].score)
  }

  /** The average review score of movie `m`. */
  function MovieAverage(s: Store, m: int): (r: real)
    ensures (forall x | x in s.reviews.rows :: s.reviews.rows[x].movieId != m) ==> r == 0.0
  {
    var ids := ReviewsOf(s, m);
    assert |ids| > 0 ==> ids[0] in s.reviews.rows;
    Average(ScoresOf(s, m))
  }

  /** When every review of a movie has a score in 1..10 (the range the
      review requests allow), the movie's average is 0 for no reviews and
      otherwise within 1..10. */
  lemma MovieAverageRange(s: Store, m: int)
    requires forall x | x in s.reviews.rows && s.reviews.rows[x].movieId == m ::
               1 <= s.reviews.rows[x].score <= 10
    ensures MovieAverage(s, m) == 0.0 || 1.0 <= MovieAverage(s, m) <= 10.0
  {
    var ids := ReviewsOf(s, m);
    var scores := ScoresOf(s, m);
    if |scores| > 0 {
      forall i | 0 <= i < |scores|
        ensures 1 <= scores[i] <= 10
      {
        assert ids[i] in s.reviews.rows && s.reviews.rows[ids[i]].movieId == m;
      }
      AverageBounds(scores, 1, 10);
    }
  }

  /** The names of the genres a movie links to, ascending by genre id. */
  function LinkedGenreNames(s: Store, movie: Movie): (r: seq<string>)
    ensures forall x :: x in r <==>
              exists g | g in movie.genres && g in s.genres.rows :: s.genres.rows[g].name == x
  {
    var keys := movie.genres * s.genres.rows.Keys;
    var ids := Seqs.Enumerate(keys);
    Seqs.EnumerateIn(keys);
    var names := Seqs.Map(ids, (g: int) requires g in s.genres.rows => s.genres.rows[g].name);
    NamesOfIds(s.genres.rows, keys, ids, names);
    names
  }

  /** The names looked up for an enumeration of `keys` are exactly the
      names of the rows under `keys`. */
  lemma NamesOfIds(rows: map<int, Genre>, keys: set<int>, ids: seq<int>, names: seq<string>)
    requires keys <= rows.Keys && multiset(ids) == multiset(keys)
    requires |names| == |ids|
    requires forall k | 0 <= k < |ids| :: ids[k] in rows && names[k] == rows[ids[k]].name
    ensures forall x :: x in names <==> exists g | g in keys :: rows[g].name == x
  {
    forall x | x in names
      ensures exists g | g in keys :: rows[g].name == x
    {
      var k :| 0 <= k < |names| && names[k] == x;
      var g := ids[k];
      assert g in multiset(ids);
      assert g in keys && rows[g].name == x;
    }
    forall g | g in keys
      ensures rows[g].name in names
    {
      assert g in multiset(ids);
      var k :| 0 <= k < |ids| && ids[k] == g;
      assert names[k] == rows[g].name;
    }
  }

  /** The names of the genres movie `m` links to, in ordinal order
      (`MovieGenres.Select(mg => mg.Genre.Name).OrderBy(n => n)`). */
  function GenreNames(s: Store, movie: Movie): (r: seq<string>)
    ensures Seqs.Sorted(r, NameOrder())
    ensures multiset(r) == multiset(LinkedGenreNames(s, movie))
    ensures forall x :: x in r <==>
              exists g | g in movie.genres && g in s.genres.rows :: s.genres.rows[g].name == x
  {
    var names := LinkedGenreNames(s, movie);
    NameOrderTotal();
    var sorted := Seqs.SortBy(names, NameOrder());
    assert forall x :: x in sorted <==> x in names by {
      forall x
        ensures x in sorted <==> x in names
      {
        assert x in sorted <==> x in multiset(sorted);
        assert x in names <==> x in multiset(names);
      }
    }
    sorted
  }

  // ----- projections -----

  datatype MovieListItem = MovieListItem(
    id: int,
    title: string,
    releaseYear: int,
    durationMin: int,
    genres: seq<string>,
    averageScore: real)

  datatype MovieDetails = MovieDetails(
    id: int,
    title: string,
    description: string,
    releaseYear: int,
    durationMin: int,
    uploadedBy: int,
    genreIds: seq<int>,
    averageScore: real)

  datatype ReviewListItem = ReviewListItem(
    id: int, movieId: int, userId: int, score: int, title: Option<string>, createdAt: nat)

  datatype ReviewDetails = ReviewDetails(
    id: int, movieId: int, userId: int, score: int,
    title: Option<string>, body: Option<string>, createdAt: nat)

  datatype UserItem = UserItem(id: int, username: string, email: string, createdAt: nat)

  datatype GenreItem = GenreItem(id: int, name: string)

  /** `MovieListItemDto` of the movie `id`. */
  function ToListItem(s: Store, id: int): (r: MovieListItem)
    requires id in s.movies.rows
    ensures r.id == id && r.title == s.movies.rows[id].title
    ensures r.releaseYear == s.movies.rows[id].releaseYear
    ensures r.durationMin == s.movies.rows[id].durationMin
    ensures Seqs.Sorted(r.genres, NameOrder())
    ensures r.averageScore == MovieAverage(s, id)
  {
    var m := s.movies.rows[id];
    MovieListItem(id, m.title, m.releaseYear, m.durationMin, GenreNames(s, m), MovieAverage(s, id))
  }

  /** `MovieDetailsDto` of the movie `id`; the genre ids come out ascending. */
  function ToDetails(s: Store, id: int): (r: MovieDetails)
    requires id in s.movies.rows
    ensures r.id == id && r.uploadedBy == s.movies.rows[id].uploadedBy
    ensures r.title == s.movies.rows[id].title && r.description == s.movies.rows[id].description
    ensures r.releaseYear == s.movies.rows[id].releaseYear
    ensures r.durationMin == s.movies.rows[id].durationMin
    ensures multiset(r.genreIds) == multiset(s.movies.rows[id].genres)
    ensures r.averageScore == MovieAverage(s, id)
  {
    var m := s.movies.rows[id];
    MovieDetails(id, m.title, m.description, m.releaseYear, m.durationMin, m.uploadedBy,
      Seqs.Enumerate(m.genres), MovieAverage(s, id))
  }

  function ToReviewItem(s: Store, id: int): (r: ReviewListItem)
    requires id in s.reviews.rows
  {
    var v := s.reviews.rows[id];
    ReviewListItem(id, v.movieId, v.userId, v.score, v.title, v.createdAt)
  }

  function ToReviewDetails(id: int, v: Review): (r: ReviewDetails)
  {
    ReviewDetails(id, v.movieId, v.userId, v.score, v.title, v.body, v.createdAt)
  }

  function ToUserItem(s: Store, id: int): (r: UserItem)
    requires id in s.users.rows
  {
    var u := s.users.rows[id];
    UserItem(id, u.username, u.email, u.createdAt)
  }

  function ToGenreItem(s: Store, id: int): (r: GenreItem)
    requires id in s.genres.rows
  {
    GenreItem(id, s.genres.rows[id].name)
  }
}

=== FILE: wrappers.dfy ===
/** Option and Result types shared by every service model.

    A service method of the original system either returns a value (possibly
    `null` or `false` for a missing row) or throws one of a handful of exception
    types. The model returns `Ok(value)` or `Err(kind)`; an `Err` carries no
    store, so a failed call leaves the store exactly as it was.
 */
module Wrappers {

  datatype Option<+T> = None | Some(value: T)

  /** The failure kinds the services raise, one per exception family. */
  datatype ErrorKind =
    | Unauthorized        // UnauthorizedAccessException
    | Validation          // MovieValidationException, ReviewValidationException
    | Conflict            // MovieConflictException, ReviewConflictException,
                          // UserConflictException, GenreConflictException
    | ForbiddenOperation  // UserForbiddenOperationException
    | InvalidOperation    // InvalidOperationException
    | StoreRejected       // the database refuses the write: a foreign key,
                          // duplicate key, unique index or NOT NULL violation
    | MissingArgument     // the password verifier throws on a missing hash

  datatype Result<+T> = Ok(value: T) | Err(error: ErrorKind)
}
